=== FILE: README.md ===
# Met Guide core, modelled in Dafny

Met Guide is a museum companion app for the Metropolitan Museum of Art. It
identifies an artwork from a photo, narrates it, speaks the narration,
offers curated tours and works offline through a service worker. This
project models the small, sequential logic beneath the user interface and
the AI and museum API calls. That logic covers:

- the fixed-window rate limiter;
- the in-memory fallback cache with base 64 audio (section 4 of RFC 4648);
- the two-tier narration cache and the audio file cache, both valid for thirty days;
- the order of checks in the identify, narrate, speech and tours routes;
- match scoring, query planning and ranking in the identify route;
- the tour generator's filtering, retry loop and tour assembly;
- favourites and recently viewed lists;
- audio prefetch tracking;
- the audio player's state machine and view;
- the bottom navigation bar;
- the service worker's request classifier and caching strategies.

Every operation is a pure function over immutable state.

- The clock is a parameter `now` in milliseconds.
- The network, the AI models, the file system and `localStorage` are parameters. Each is either an oracle value (the outcome the call would have) or a map standing for the stored files.
- A JavaScript `null` is `None`.
- A string's truthiness is non-emptiness (`Common.Truthy`).

Files, one module each: `common.dfy`, `text.dfy`, `decimal.dfy`,
`base64.dfy`, `rate_limiter.dfy`, `redis_cache.dfy`, `favorites.dfy`,
`prefetch.dfy`, `identify.dfy`, `narrate_route.dfy`, `tts_route.dfy`,
`tour_data.dfy`, `tours_route.dfy`, `tour_generator.dfy`,
`service_worker.dfy`, `bottom_nav.dfy`, `audio_context.dfy`,
`audio_player.dfy`.

Where the project's prose documentation and its code disagree, the model
follows the code:

- the speech route has no 1500-character cap on the text;
- the voice is always `nova`;
- the narration and speech routes keep their own file caches rather than the `lib/redis.ts` helpers;
- a prefetch whose speech request throws (rather than answering with an error status) does not mark the object as prefetched.

## Model

| member | source | states |
|---|---|---|
| RateLimiter.Check | lib/rate-limiter.ts:30-57 | The call is counted even when rejected. It succeeds iff the count in the current window is at most 10. `remaining` is `max(0, 10 - count)`. Only the caller's entry changes. |
| RateLimiter.CheckPreservesValid | lib/rate-limiter.ts:30-57 | Counts stay positive and no window is longer than 60 s, across any later call. |
| RateLimiter.FirstCall | lib/rate-limiter.ts:37-42 | An unseen identifier gets success, limit 10, remaining 9, reset now + 60000. |
| RateLimiter.WindowRestarts | lib/rate-limiter.ts:37-42 | At or after the reset instant the count restarts at 1 with a new window. |
| RateLimiter.SameWindow | lib/rate-limiter.ts:44-49 | Within one window the reset instant is fixed, the count grows by one and `remaining` never grows. |
| RateLimiter.Burst | lib/rate-limiter.ts:30-57 | In a fresh window, calls 1 to 10 succeed and call 11 onward fail. After n calls the count is n. |
| RateLimiter.BurstFrom | lib/rate-limiter.ts:44-49 | Calls inside an open window add their number to the stored count and keep the reset instant. |
| RateLimiter.ClientIdentifier | lib/rate-limiter.ts:62-75 | The client is the first comma-separated x-forwarded-for entry, trimmed. Failing that it is x-real-ip, else "unknown". |
| RateLimiter.ClientIdentifierShape | lib/rate-limiter.ts:62-69 | A forwarded identifier holds no comma and has no surrounding whitespace. |
| RateLimiter.Cleanup | lib/rate-limiter.ts:80-88 | Removes exactly the entries whose window has ended and keeps the others unchanged. |
| RateLimiter.CleanupUnobservable | lib/rate-limiter.ts:80-88 | No later check of any identifier can tell whether cleanup ran. |
| RateLimiter.RouteKeysDisjoint | app/api/identify/route.ts:188-190 | The identify and speech routes' limiter keys never collide. |
| RedisCache.Get | lib/redis.ts:56-66 | A memory entry is served iff now < expiry. A stale entry is deleted and no other key is touched. |
| RedisCache.Set | lib/redis.ts:89-93 | Stores the value with expiry now + ttl·1000 and leaves every other key alone. |
| RedisCache.GetAfterSet | lib/redis.ts:57-59 | A read at the instant of a write with positive TTL returns the written value. |
| RedisCache.DefaultTtlWindow | lib/redis.ts:11 | With the default TTL of 2592000 s, a value is readable until 30 days later, exclusive. |
| RedisCache.SetFrames | lib/redis.ts:89-93 | Writing one key changes no read of another key. |
| RedisCache.KeySpacesDisjoint | lib/redis.ts:99-127 | The `narration:` and `audio:` keys never coincide. |
| RedisCache.GetCachedNarration | lib/redis.ts:98-100 | The narration under `narration:` + id is served iff that entry is live. A missed entry is removed. |
| RedisCache.CacheNarration | lib/redis.ts:105-107 | Stores the narration under `narration:` + id, expiring 30 days from now. Every other key is kept. |
| RedisCache.GetCachedAudio | lib/redis.ts:112-119 | Only a live, non-empty entry under `audio:` + id can be served, as its base 64 decoding. A miss has the same cache effect as a plain read. |
| RedisCache.CacheAudio | lib/redis.ts:123-126 | Stores the base 64 text of the audio under `audio:` + id, expiring 30 days from now. Every other key is kept. |
| RedisCache.AudioRoundTrip | lib/redis.ts:113-127 | Audio stored with base 64 reads back as the identical bytes within its lifetime. Empty audio reads back as a miss. |
| RedisCache.NarrationAndAudioIndependent | lib/redis.ts:99-127 | Caching one kind for an object never changes what the other kind reads. |
| RedisCache.Cleanup | lib/redis.ts:132-139 | Removes exactly the entries at or past expiry. |
| RedisCache.CleanupUnobservable | lib/redis.ts:132-139 | No read at or after the cleanup instant sees a difference. |
| Base64.Encode | lib/redis.ts:124-126 | The output length is 4·⌈n/3⌉. |
| Base64.DecodeEncode | lib/redis.ts:113-127 | Decoding an encoding gives back the bytes. |
| Base64.EncodeInjective | lib/redis.ts:124-126 | Distinct byte strings have distinct encodings. |
| Favorites.IsFavorite | lib/favorites.ts:31-33 | True iff some entry carries the object id. |
| Favorites.FindIndex | lib/favorites.ts:37 | Returns the first index holding the id, or the length when there is none. |
| Favorites.Toggle | lib/favorites.ts:35-47 | Removes the first entry with the id and reports false. Otherwise it prepends the artwork stamped now and reports true. |
| Favorites.ToggleReportsMembership | lib/favorites.ts:35-47 | With unique ids, the returned flag is the artwork's new favourite status. |
| Favorites.ToggleTwice | lib/favorites.ts:35-47 | Toggling twice from a list without the artwork restores the list. |
| Favorites.ToggleKeepsOthers | lib/favorites.ts:35-47 | Other entries keep their order and contents. |
| Favorites.TogglePreservesUnique | lib/favorites.ts:35-47 | Unique ids stay unique. |
| Favorites.AddRecentlyViewed | lib/favorites.ts:53-57 | The artwork, stamped now, moves to the front. The rest are the other entries in order, capped at 20 in total. |
| Favorites.RecentHoldsIdOnce | lib/favorites.ts:53-57 | The id appears exactly once, at the front. |
| Favorites.RecentIdempotent | lib/favorites.ts:53-57 | Viewing the same artwork twice at one instant equals viewing it once. |
| PrefetchAudio.Begin | lib/prefetch-audio.ts:21-27 | Skips an id that is in flight or done, and otherwise marks it in flight. |
| PrefetchAudio.Prefetch | lib/prefetch-audio.ts:21-75 | A skipped call reports audio cached and sends nothing. Otherwise the narration is requested first and the id is no longer in flight afterwards. After a good narration and any TTS response, the result carries the narration and says audio is cached iff the TTS status was ok. A thrown TTS or narration request reports the thrown error with no narration. A non-ok narration status reports that status, and an empty narration reports that none was returned. Tracking of other ids is unchanged. |
| PrefetchAudio.PrefetchedExactly | lib/prefetch-audio.ts:21-75 | The id becomes prefetched iff the narration succeeded and the speech request did not throw. |
| PrefetchAudio.TtsFollowsNarration | lib/prefetch-audio.ts:45-59 | Speech is requested only after a good narration, and with exactly that text. |
| PrefetchAudio.NarrationFailureReported | lib/prefetch-audio.ts:35-43 | A failed narration reports an error, no narration, and nothing prefetched. |
| PrefetchAudio.SecondCallWhileInFlight | lib/prefetch-audio.ts:21-27 | A second call for an id in flight sends nothing. |
| PrefetchAudio.Clear | lib/prefetch-audio.ts:87-90 | Both tracking sets become empty. |
| PrefetchAudio.ClearForgets | lib/prefetch-audio.ts:80-90 | After clearing, nothing is prefetched and the next call asks for the narration again. |
| Identify.MatchScore | app/api/identify/route.ts:124-183 | The score lies between 0 and 85 + 5 per keyword. |
| Identify.ArtistWorth50 | app/api/identify/route.ts:132-140 | A matching artist adds exactly 50 points. |
| Identify.TitleWorth | app/api/identify/route.ts:143-159 | A title adds 30 when two or more of its whitespace-separated words occur among the guessed title's words, 15 when exactly one does, and 0 otherwise. |
| Identify.KeywordWorth5 | app/api/identify/route.ts:162-172 | Each further keyword found in the object's text adds 5. |
| Identify.HighlightWorth5 | app/api/identify/route.ts:175-177 | Highlight status adds 5 points and no reason. |
| Identify.VisualSimilarityExactly | app/api/identify/route.ts:179-182 | The reason is "Visual similarity" exactly when nothing else matched. |
| Identify.SearchQueries | app/api/identify/route.ts:241-255 | The queries are artist with title, then artist, then title, then the joined keywords. Each is present exactly when its parts are known, so their number is 0, 1, 2, 3 or 4, and no query is anything else. |
| Identify.AddAll | app/api/identify/route.ts:258-263 | The set never holds an id twice, and ids already held keep their places at the front. |
| Identify.AddAllMembers | app/api/identify/route.ts:258-263 | The set holds exactly the ids it held before and the ids added. |
| Identify.AddAllSingle | app/api/identify/route.ts:258-263 | Adding one id to the set appends it when new and changes nothing otherwise. |
| Identify.AddAllConcat | app/api/identify/route.ts:258-266 | Adding a list of ids is adding them one by one, so ids keep the order in which they were first seen. |
| Identify.SearchMet | app/api/identify/route.ts:101-112 | A search keeps exactly the first min(20, n) hits, in their order. |
| Identify.Gather | app/api/identify/route.ts:258-266 | The ids are the hits of the searches run, added in order to an insertion-ordered set. Searching stops early only once 15 ids are held. |
| Identify.GatherStopsAtFirst | app/api/identify/route.ts:258-266 | Queries after the one that reached 15 ids are never sent. |
| Identify.CandidateIds | app/api/identify/route.ts:258-268 | The first min(15, n) of the ids gathered by at most three searches. They are distinct and drawn from those searches' hits. |
| Identify.Candidates | app/api/identify/route.ts:271-279 | An object is a candidate iff some id fetches it and it has an image. |
| Identify.CandidatesConcat | app/api/identify/route.ts:271-279 | The candidates of two id lists in sequence are each list's candidates in sequence, so candidates keep the order of their ids. |
| Identify.Score | app/api/identify/route.ts:282-294 | Each object maps to a result carrying its match score and a non-empty image. |
| Identify.SortDesc | app/api/identify/route.ts:297 | The output is a permutation of the input, sorted by descending key. |
| Identify.InsertWithKey | app/api/identify/route.ts:297 | An inserted element goes in front of the elements with its key and leaves every key's elements in order. |
| Identify.SortDescStable | app/api/identify/route.ts:297 | The sort is stable: the elements with any one key keep their input order. |
| Identify.TiesKeepOrder | app/api/identify/route.ts:297 | Two results with equal scores stay in their input order. |
| Identify.Rank | app/api/identify/route.ts:297-298 | Keeps min(3, n) results in descending score, all drawn from the scored objects. |
| Identify.RankKeepsBest | app/api/identify/route.ts:297-298 | No dropped result outscores a kept one. |
| Identify.WithKeyConcat | app/api/identify/route.ts:297-298 | The elements with one key in two lists in sequence are each list's such elements in sequence. |
| Identify.WithKeyPrefix | app/api/identify/route.ts:298 | For each key, the elements of a prefix with that key are a prefix of all the elements with that key. |
| Identify.RankKeepsFirstTies | app/api/identify/route.ts:297-298 | Among equal scores, the kept results are the first ones in candidate order: for every score, the kept results with that score are a prefix of the scored candidates with that score. |
| Identify.Post | app/api/identify/route.ts:185-322 | The caller's identify budget is charged first. Over the limit the answer is 429 with the limiter's figures. Otherwise an unreadable body is a 500, a missing image a 400, a missing key a 503, and a thrown vision call a 500. A reply that is not an artwork is returned with its analysis, or the default one when unreadable. The request is identified iff it gets past all of these and the analysis is an artwork. It then carries the analysis summary (title, artist, keywords, period and medium of the parsed analysis), the top 3 ranked candidates and the number of candidates. |
| Identify.RateLimitBeforeValidation | app/api/identify/route.ts:188-238 | A 400 or 503 is only given to a caller still within the limit. |
| Identify.UnreadableIsNotArtwork | app/api/identify/route.ts:88-97 | A vision reply with no readable JSON falls back to the default analysis, which is answered as "not artwork" (lines 231-238). |
| Identify.ResultsShape | app/api/identify/route.ts:258-322 | Identified results number at most 3, are sorted by score and all have images. |
| NarrateRoute.ReadTier | app/api/narrate/route.ts:48-92 | An entry is served iff its age is at most 30 days. A stale entry is removed. |
| NarrateRoute.GetCachedNarration | app/api/narrate/route.ts:101-115 | A fresh non-empty memory entry is served unchanged. Otherwise a fresh non-empty file entry is served and copied to memory stamped now. Otherwise nothing is served. Entries for other ids are untouched. |
| NarrateRoute.CacheNarration | app/api/narrate/route.ts:117-120 | Both tiers hold the narration stamped now, and other ids are untouched. |
| NarrateRoute.ReadBackWithinThirtyDays | app/api/narrate/route.ts:15 | A cached narration reads back through the last instant of 30 days. |
| NarrateRoute.ExpiredAfterThirtyDays | app/api/narrate/route.ts:15 | After 30 days the entry misses and is removed from both tiers. |
| NarrateRoute.FileHitWarmsMemory | app/api/narrate/route.ts:101-115 | A file hit is copied to memory and then served from memory. |
| NarrateRoute.Kept | app/api/narrate/route.ts:133-144 | Every kept text comes from a present line. Nothing is kept iff no line is present. |
| NarrateRoute.KeptSingle | app/api/narrate/route.ts:133-144 | One line is kept iff it is present. |
| NarrateRoute.KeptConcat | app/api/narrate/route.ts:133-144 | The lines kept from two lists in sequence are each list's kept lines in sequence. With KeptSingle this means exactly the present lines are kept, in order. |
| NarrateRoute.NoDetailsExactly | app/api/narrate/route.ts:133-144 | The detail list is empty iff no field is present. |
| NarrateRoute.DetailsSplitIntoLines | app/api/narrate/route.ts:144 | The joined details split back into the detail lines. |
| NarrateRoute.Get | app/api/narrate/route.ts:163-252 | A missing id is the only 400. A cached narration is served iff the cache has one. Otherwise a missing key is the 503 and then a missing object the 404. Past those, a completion whose content trims to non-empty text is served uncached as that text and stored in both tiers, and any other completion, a throw included, is the 500. Every answer other than a fresh narration leaves the caches as the cache read left them. |
| NarrateRoute.HitNeedsNothingElse | app/api/narrate/route.ts:174-181 | A cache hit needs neither key nor object nor model. |
| NarrateRoute.GenerationIsCached | app/api/narrate/route.ts:226-244 | On a miss with a key, an object and a completion that trims to non-empty text, that text is served uncached. The same id is then served it from the cache for 30 days, whatever the key, object and model do. |
| NarrateRoute.BlankCompletionNotCached | app/api/narrate/route.ts:216-223 | A blank completion is an error and stores nothing. |
| TtsRoute.GetCachedAudio | app/api/tts/route.ts:33-55 | Serves only with both files present and age at most 30 days. A stale entry loses both files. |
| TtsRoute.SaveAudio | app/api/tts/route.ts:57-75 | Stores the audio and a metadata stamp of now. |
| TtsRoute.SavedAudioLifetime | app/api/tts/route.ts:11 | Saved audio reads back unchanged through 30 days, and not after. |
| TtsRoute.AudioWithoutMetaIgnored | app/api/tts/route.ts:38-41 | Audio without a metadata file is never served. |
| TtsRoute.Get | app/api/tts/route.ts:77-169 | The id check comes first, then the `tts:` limiter, whose refusal is the 429 with its limit, remaining count and reset. A fresh cached file is the HIT with the stored bytes. On a miss, no text is the 400, no key the 503, and a thrown synthesis the 500. Otherwise the speech request is tts-1, nova, the text, mp3. The synthesised audio is the MISS, with its length as content length, and is saved stamped now. Only a MISS changes the files beyond the cache read. |
| TtsRoute.LimitBeforeCache | app/api/tts/route.ts:89-102 | An over-limit request is refused even when its audio is cached. |
| TtsRoute.HitIgnoresTextAndKey | app/api/tts/route.ts:104-115 | A hit needs no text or key, returns the stored bytes marked HIT, and uses one request of budget. |
| TtsRoute.MissWithoutText | app/api/tts/route.ts:118-123 | A miss without text is a 400, and no synthesis is requested. |
| TtsRoute.SynthesisIsCached | app/api/tts/route.ts:138-160 | A request that passes the limiter, misses the cache and has text gets the synthesised audio as a MISS. The same id is then a HIT with the same bytes for 30 days, with or without text. |
| ToursRoute.FindTour | app/api/tours/route.ts:70-81 | Returns the first tour with the id, or none iff no tour has it. |
| ToursRoute.Preview | app/api/tours/route.ts:91-94 | Projects the first min(4, n) objects to id and small image. |
| ToursRoute.Summary | app/api/tours/route.ts:84-100 | Copies every field but the objects. The previews are the first min(4, n) objects, each reduced to its id and small image. |
| ToursRoute.List | app/api/tours/route.ts:84-100 | One summary per tour, in order, with the generation time. |
| ToursRoute.Get | app/api/tours/route.ts:56-101 | 503 iff no data. A non-empty id answers a lookup, 404 iff no tour has it. Otherwise the list. |
| ToursRoute.ListedToursCanBeFetched | app/api/tours/route.ts:70-100 | Fetching a listed tour's id returns that tour, whose summary is the list entry. |
| TourGenerator.Retry | scripts/generate-tours.ts:123-140 | Success is the first ok answer. Attempts never exceed the retry limit. |
| TourGenerator.FetchWithRetry | scripts/generate-tours.ts:123-140 | The loop computes exactly the reference definition `Retry`. |
| TourGenerator.RetryDelayCount | scripts/generate-tours.ts:123-140 | One sleep follows every attempt except the one that ends the loop. When the attempts run out, every attempt is followed by one. |
| TourGenerator.RetryDelays | scripts/generate-tours.ts:127-136 | The sleep after attempt j is (j + 1)·2000 ms after a 429, and 1000 ms after any other failed attempt. |
| TourGenerator.RetryFindsFirstOk | scripts/generate-tours.ts:123-140 | If an ok answer comes within the limit, the first one is returned after exactly that many attempts. |
| TourGenerator.MaxRetriesOnlyAfter429 | scripts/generate-tours.ts:123-140 | The result is "Max retries reached" iff no attempt is allowed, or the last allowed attempt answered 429 and no earlier one answered ok. |
| TourGenerator.ValidHasTitleAndImage | scripts/generate-tours.ts:178-189 | A valid object has a non-blank title and an image. |
| TourGenerator.Transform | scripts/generate-tours.ts:191-202 | An empty optional string becomes null and a non-empty one is kept as is. The small image falls back to the full image. |
| TourGenerator.IsValidTourObject | scripts/generate-tours.ts:178-189 | An object with no image, with a blank title or with no department is rejected, and any other is accepted. An accepted title has a non-blank character. |
| TourGenerator.Collect | scripts/generate-tours.ts:204-237 | At most one object per id is collected. CollectMembers and CollectConcat say which objects are collected and in what order. |
| TourGenerator.CollectMembers | scripts/generate-tours.ts:204-237 | A tour object is collected iff some id fetches a valid object that transforms to it. |
| TourGenerator.CollectConcat | scripts/generate-tours.ts:204-237 | Collecting distributes over concatenated id lists. |
| TourGenerator.HighlightsTour | scripts/generate-tours.ts:204-237 | Fixed id, name and icon, with the collected objects and their count. |
| TourGenerator.Lookup | scripts/generate-tours.ts:76-118 | A department's icon or description, falling back when it is absent. |
| TourGenerator.DepartmentTour | scripts/generate-tours.ts:239-288 | No hits gives no tour. A tour holds the valid objects among the first 30 hits, with id "dept-" + number and the department's name. Its description is the department's entry, or "Explore the <name> collection". Its icon is the department's entry, or the palette. |
| TourGenerator.OnlyFirstThirtyHits | scripts/generate-tours.ts:17 | Hits beyond the first 30 never matter. |
| TourGenerator.DepartmentTourIdsDistinct | scripts/generate-tours.ts:239-288 | Distinct departments get distinct tour ids. |
| TourGenerator.NameLeTotal | scripts/generate-tours.ts:324-331 | Any two names are ordered one way or the other. |
| TourGenerator.NameLeTransitive | scripts/generate-tours.ts:324-331 | The name order is transitive. |
| TourGenerator.SortByName | scripts/generate-tours.ts:324-325 | A permutation of the tours, sorted by name. |
| TourGenerator.InsertByNameNamed | scripts/generate-tours.ts:324-325 | An inserted tour goes in front of the tours with its name and leaves every name's tours in order. |
| TourGenerator.SortByNameStable | scripts/generate-tours.ts:324-325 | The sort is stable: tours with the same name keep their order. |
| TourGenerator.KeptDepartmentTours | scripts/generate-tours.ts:309-321 | Every kept tour has at least 5 objects and comes from a listed department other than Libraries. |
| TourGenerator.KeptDepartmentToursComplete | scripts/generate-tours.ts:309-321 | Every listed department other than Libraries whose tour has at least 5 objects has that tour kept. |
| TourGenerator.KeptDepartmentToursSingle | scripts/generate-tours.ts:312-321 | One department's tour is kept iff it is not Libraries and the tour has at least 5 objects. |
| TourGenerator.KeptDepartmentToursConcat | scripts/generate-tours.ts:309-321 | The tours kept from two department lists in sequence are each list's kept tours in sequence, so department order is kept. |
| TourGenerator.Generate | scripts/generate-tours.ts:290-358 | Output exists iff there are curated ids and a department list. Highlights always come first. |
| TourGenerator.GeneratedShape | scripts/generate-tours.ts:290-358 | After the highlights come exactly the kept department tours, as a multiset. They are sorted by name, and tours with equal names keep department order. Each one is a good department tour. |
| ServiceWorker.Classify | public/sw.js:56-80 | Non-GET and non-http(s) requests are not intercepted. Cache-first patterns win over network-first ones, and the rest are stale-while-revalidate. |
| ServiceWorker.ClassifySpeechBeforeTours | public/sw.js:66-70 | A speech URL that also mentions /api/tours goes cache-first. |
| ServiceWorker.ClassifyTourData | public/sw.js:25-29 | Tour data goes network-first. |
| ServiceWorker.ClassifyPagesAndOthers | public/sw.js:60-79 | A page goes stale-while-revalidate. POST and non-http schemes are not intercepted. |
| ServiceWorker.Match | public/sw.js:83 | Answers from the first cache, in creation order, that holds the URL, or none iff no cache does. |
| ServiceWorker.Put | public/sw.js:89-90 | Writes to the first cache with the name, or appends a new cache holding only the URL when none has it. The written cache maps the URL to the response and keeps its other entries. Caches with other names are untouched and every name keeps its place. |
| ServiceWorker.FirstNamed | public/sw.js:89 | The first cache with the name, or the end of storage when none has it. |
| ServiceWorker.PutLeavesLaterCaches | public/sw.js:89-90 | A later cache with the same name is not written. |
| ServiceWorker.PutThenMatchHeld | public/sw.js:89-90 | Storing a URL into the cache that already answers for it makes the next match return the new response. |
| ServiceWorker.PutThenMatch | public/sw.js:89-90 | A URL stored when no cache held it matches the stored response. |
| ServiceWorker.PutOtherUrl | public/sw.js:89-90 | Storing one URL changes no match of another. |
| ServiceWorker.Activate | public/sw.js:43-54 | Keeps exactly the caches named met-guide-v1 and met-guide-static-v1. |
| ServiceWorker.PutKeepsUniqueNames | public/sw.js:89-90 | `caches.open` plus `put` never creates a second cache with a name already in use. |
| ServiceWorker.ActivateKeepsUniqueNames | public/sw.js:43-54 | Deleting old caches keeps the remaining names distinct. |
| ServiceWorker.DeletedNames | public/sw.js:45-50 | Deletes every other name, and only those. |
| ServiceWorker.ActivateIdempotent | public/sw.js:43-54 | A second activation deletes nothing. |
| ServiceWorker.ActivateKeepsCurrentMatches | public/sw.js:43-54 | Matches held in current caches survive activation. |
| ServiceWorker.CacheFirstFetch | public/sw.js:82-96 | A hit makes no network call. A miss stores only ok responses, and a network error gives 503 "Offline". |
| ServiceWorker.NetworkFirstFetch | public/sw.js:98-114 | Returns the network response even when not ok, storing it only if ok. On a network error it serves the cached copy or the JSON 503. |
| ServiceWorker.StaleFetch | public/sw.js:116-131 | Serves the cached copy when present, else the network result or 503. Only ok responses go to the static cache. |
| ServiceWorker.Handle | public/sw.js:56-80 | Each request runs exactly the strategy Classify chooses for it: cache-first, network-first or stale-while-revalidate, or none when not intercepted. Only cache-first can skip the network, and storage changes only for an ok response. |
| ServiceWorker.CacheFirstServesStored | public/sw.js:82-96 | After an ok miss, the next request is served from the cache without the network. |
| ServiceWorker.CacheFirstRefetchesErrors | public/sw.js:86-92 | A non-ok response is not stored, so the next request fetches again. |
| ServiceWorker.NetworkFirstFallsBackToStored | public/sw.js:98-108 | Offline after an ok fetch, network-first serves the stored copy. This holds for a new URL and for one whose older copy was first in the runtime cache, which the fetch refreshes. |
| ServiceWorker.NetworkFirstOfflineWithoutCopy | public/sw.js:106-113 | Offline with no copy gives the JSON 503, even after other URLs were stored. |
| ServiceWorker.StaleServesThenRefreshes | public/sw.js:116-131 | Serves the cached copy if there is one, else the network response. A revalidated ok response is then served next time, both for a new URL and for one whose old copy was first in the static cache. |
| BottomNav.Render | components/BottomNav.tsx:73-107 | Renders nothing iff the path starts with "/objects/". Otherwise it renders all five tabs in their fixed order, each marked active iff its path test holds. |
| BottomNav.AtMostOneActive | components/BottomNav.tsx:6-71 | No two tabs are active for any pathname. |
| BottomNav.RenderedActiveTab | components/BottomNav.tsx:82-85 | At most one tab is marked, and Home is marked iff the path is exactly "/". |
| BottomNav.ActiveExamples | components/BottomNav.tsx:83-85 | Other tabs match by plain prefix: /tours/dept-11 activates Tours and /scanner activates Scan. |
| AudioContext.Play | lib/audio-context.tsx:38-80 | Sets the track and loading, clears the error, creates the element, points it at the speech route for the track's id and text, and rewinds it to 0 on `load()`. |
| AudioContext.Pause | lib/audio-context.tsx:88-93 | Stops playing once the element exists, and is a no-op before. |
| AudioContext.Resume | lib/audio-context.tsx:95-100 | Starts playing once the element exists, and is a no-op before. |
| AudioContext.Seek | lib/audio-context.tsx:112-117 | Moves the progress and the element to the time, once the element exists. |
| AudioContext.Step | lib/audio-context.tsx:38-117 | The provider as written. Each action runs its own operation: play, pause, resume, stop as written, seek or an element event. Before the element exists, every action but play is a no-op. |
| AudioContext.StepCorrected | lib/audio-context.tsx:102-110 | The provider with the corrected stop. A stop on an element also detaches the pending start. Every other action is exactly as written. |
| AudioContext.OnEvent | lib/audio-context.tsx:52-80 | Loaded-metadata sets the duration, or 0 when unknown. Time-update sets the progress to the current time. Ended clears playing and progress. Error sets the message and clears loading and playing. Can-play-through starts playback. No event starts playback otherwise, and only these events change duration and progress. |
| AudioContext.NothingBeforeFirstPlay | lib/audio-context.tsx:88-117 | Before the first play, no control call or event changes anything, as written or corrected. |
| AudioContext.RunConsistent | lib/audio-context.tsx:38-117 | In every state the provider as written reaches, a track implies the element exists, playing the track's own source. |
| AudioContext.RunCorrectedConsistent | lib/audio-context.tsx:38-117 | The same holds for every state reached with the corrected stop. |
| AudioContext.StopAsWritten | lib/audio-context.tsx:102-110 | Stop pauses, rewinds and clears the track but leaves the pending start attached. |
| AudioContext.StopDuringLoadingStillPlays | lib/audio-context.tsx:76-80 | Stopping during loading still lets playback start, with no track shown. |
| AudioContext.StopDuringLoadingRuns | lib/audio-context.tsx:73-110 | The run play, stop, can-play-through plays with no track in the provider as written, and stays silent with the corrected stop. |
| AudioContext.Stop | lib/audio-context.tsx:102-110 | Stop as written, plus the pending start detached. |
| AudioContext.StoppedStaysSilent | lib/audio-context.tsx:102-110 | After the corrected stop, no sequence of element events makes it play, whether applied directly or through the corrected provider. |
| AudioPlayer.FormatTime | components/AudioPlayer.tsx:6-10 | Fractional seconds show the clock of their whole seconds. |
| AudioPlayer.ClockRoundTrip | components/AudioPlayer.tsx:6-10 | Seconds are two digits below 60, and minutes·60 + seconds recovers the time. |
| AudioPlayer.ClockInjective | components/AudioPlayer.tsx:6-10 | Distinct times show distinct clocks. |
| AudioPlayer.FormatTimeExamples | __tests__/components/AudioPlayer.test.tsx:215-235 | 30 → 0:30, 120 → 2:00, 65 → 1:05 and 125 → 2:05. |
| AudioPlayer.ProgressPercent | components/AudioPlayer.tsx:27 | 0 without a duration, and between 0 and 100 while progress ≤ duration. |
| AudioPlayer.ProgressPercentInverse | __tests__/components/AudioPlayer.test.tsx:192-213 | The width times the duration gives back the progress, and 60 of 120 is 50. |
| AudioPlayer.Render | components/AudioPlayer.tsx:25-87 | Renders nothing iff there is no current track. Otherwise the bar width is the progress percent, the title is the track's and links to `/objects/<id>`, and close stops playback. |
| AudioPlayer.LinkNamesObject | components/AudioPlayer.tsx:67-73 | The link is `/objects/` followed by digits that read back as the playing object's id. |
| AudioPlayer.ButtonToggles | components/AudioPlayer.tsx:44-45 | Disabled iff loading. Pressing pauses a playing track and resumes otherwise, flipping `isPlaying`. |
| AudioPlayer.ErrorReplacesTime | components/AudioPlayer.tsx:76-82 | A non-empty error replaces "progress / duration". |
| AudioPlayer.LoadFailureShown | lib/audio-context.tsx:65-69 | After a load error the player shows the message and an enabled Play button. |
| AudioPlayer.CloseHides | components/AudioPlayer.tsx:86-87 | The close button hides the player. |

## Findings

| source | as written | input that shows it | evidently intended | confidence | as-written member | corrected member |
|---|---|---|---|---|---|---|
| lib/audio-context.tsx:102-110 | `stop` pauses and clears the track but leaves the `oncanplaythrough` handler set by `play` in place | `play(track)`, then `stop()` before the audio can play through, then the `canplaythrough` event | stopping cancels a pending start, so the audio stays silent after the player closes | medium, not executed | AudioContext.StopDuringLoadingStillPlays | AudioContext.StoppedStaysSilent |

`AudioContext.Step` and `AudioContext.Run` are the provider as written, with `AudioContext.StopAsWritten`. `AudioContext.StepCorrected` and `AudioContext.RunCorrected` differ only in using the corrected `AudioContext.Stop`. `AudioContext.StopDuringLoadingRuns` shows the difference on one run.

## Left out

- Upstash Redis calls: only the path taken when Redis is absent or erroring is modelled.
- OpenAI calls (vision, chat completion, speech) and Met API requests are oracle inputs. So are the file system, `localStorage`, timers and `Date.now()`.
- JSON parsing of model replies, API bodies and files. A parse result is an oracle input, and corrupt JSON files are not modelled.
- Production memoisation of tours data (app/api/tours/route.ts:33-54): the loaded data is an input.
- Service worker install (public/sw.js:31-41): pre-caching the static pages is best-effort and not modelled.
- Concurrency: interleavings of asynchronous calls are not modelled. Each request runs to completion at one instant `now`.
- Response headers other than those named in the contracts, and logging.
- Text.ToLower: lower-cases ASCII letters only, not all of Unicode.
- Text.Trim: trims ASCII whitespace, U+00A0 and U+FEFF, not every Unicode space separator.
- TourGenerator.NameLe: `localeCompare` is modelled as code-point order, so its locale-specific collation is left out.
- Base64.Decode: accepts only canonical padded encodings. Node's lenient decoding of other strings is not modelled; the cache only decodes strings it encoded itself.
- NarrateRoute.Get: the prompt's fixed wording and the model's token usage are not modelled. Only the detail lines of the prompt are.
- AudioContext.Play: `encodeURIComponent` of the text is not modelled. The source is kept as the id and the raw text.
- AudioContext.Seek: negative times are not modelled, since the element reports only non-negative times.
- AudioPlayer.FormatTime: times are non-negative seconds.
- AudioContext.OnEvent: a `duration` of `Infinity` (streams) is not modelled. `NaN` becomes 0.
- NarrateRoute.CacheNarration: file writes are assumed to succeed. `saveToFileCache` (app/api/narrate/route.ts:67-79) logs and swallows a failed write, which would leave only the memory copy.
- TtsRoute.SaveAudio: both file writes are assumed to succeed. `saveAudioToCache` (app/api/tts/route.ts:57-75) logs and swallows a failed write, which would leave the audio uncached.
- TtsRoute.SynthesisIsCached: holds only under the same assumption that the audio files are written.

=== FILE: audio_context.dfy ===
/**
  The audio player state, `lib/audio-context.tsx`: the values the provider
  exposes (`currentTrack`, `isPlaying`, `isLoading`, `progress`, `duration`,
  `error`) together with the one audio element it creates on the first
  `play` and reuses afterwards.

  The element is abstracted to whether it exists, the source it was last
  given, its playback position and whether the `oncanplaythrough` handler
  that starts playback is attached. Media events are inputs; listeners exist
  only once the element does, so before the first `play` no event changes
  anything.
 */
module AudioContext {
  import opened Common

  /** A time in seconds, as the element reports it. */
  type Seconds = r: real | r >= 0.0

  datatype Track = Track(objectId: nat, title: string, text: string, audioUrl: Option<string>)

  /** The element source `play` sets: the speech route for the object id
      and its text (`/api/tts?id=...&text=...`). */
  datatype Source = TtsSource(objectId: nat, text: string)

  datatype Player = Player(
    hasElement: bool,
    source: Option<Source>,
    position: Seconds,
    onCanPlay: bool,
    currentTrack: Option<Track>,
    isPlaying: bool,
    isLoading: bool,
    progress: Seconds,
    duration: Seconds,
    error: Option<string>)

  /** The provider's initial state: nothing loaded, no element. */
  const Initial: Player := Player(false, None, 0.0, false, None, false, false, 0.0, 0.0, None)

  const LoadFailed: string := "Failed to load audio"

  /** `play(track)`: loading starts, the error is cleared, the element is
      created if needed and pointed at the speech route. The track's own
      `audioUrl` is not used. */
  function Play(p: Player, track: Track): (q: Player)
    ensures q.currentTrack == Some(track) && q.isLoading && q.error.None?
    ensures q.hasElement && q.onCanPlay
    ensures q.source == Some(TtsSource(track.objectId, track.text))
    ensures q.isPlaying == p.isPlaying && q.progress == p.progress && q.duration == p.duration
    ensures q.position == 0.0
  {
    p.(hasElement := true, source := Some(TtsSource(track.objectId, track.text)), position := 0.0, onCanPlay := true,
       currentTrack := Some(track), isLoading := true, error := None)
  }

  /** `pause()`: only once the element exists. */
  function Pause(p: Player): (q: Player)
    ensures !p.hasElement ==> q == p
    ensures p.hasElement ==> q == p.(isPlaying := false)
  {
    if p.hasElement then p.(isPlaying := false) else p
  }

  /** `resume()`: only once the element exists. */
  function Resume(p: Player): (q: Player)
    ensures !p.hasElement ==> q == p
    ensures p.hasElement ==> q == p.(isPlaying := true)
  {
    if p.hasElement then p.(isPlaying := true) else p
  }

  /** `stop()` as written: pauses and rewinds the element and clears the
      track, but leaves the `oncanplaythrough` handler attached, so a load
      still in progress starts playback when it completes. */
  function StopAsWritten(p: Player): (q: Player)
    ensures !p.hasElement ==> q == p
    ensures p.hasElement ==> !q.isPlaying && q.progress == 0.0 && q.position == 0.0 && q.currentTrack.None?
    ensures q.onCanPlay == p.onCanPlay && q.isLoading == p.isLoading
  {
    if p.hasElement then p.(position := 0.0, isPlaying := false, progress := 0.0, currentTrack := None)
    else p
  }

  /** `stop()` with the pending start cancelled as well: the handler is
      detached, and `play` attaches it again. */
  function Stop(p: Player): (q: Player)
    ensures !p.hasElement ==> q == p
    ensures p.hasElement ==> !q.isPlaying && !q.onCanPlay && q.progress == 0.0 && q.position == 0.0
                             && q.currentTrack.None?
    ensures p.hasElement ==> q == StopAsWritten(p).(onCanPlay := false)
  {
    if p.hasElement then StopAsWritten(p).(onCanPlay := false) else p
  }

  /** `seek(time)`: moves the element and the shown progress. */
  function Seek(p: Player, time: Seconds): (q: Player)
    ensures !p.hasElement ==> q == p
    ensures p.hasElement ==> q.progress == time && q.position == time
    ensures q.isPlaying == p.isPlaying && q.currentTrack == p.currentTrack
  {
    if p.hasElement then p.(position := time, progress := time) else p
  }

  /** A media event; `LoadedMetadata` carries `audio.duration`, `None` for
      `NaN`. */
  datatype MediaEvent =
    | LoadedMetadata(duration: Option<Seconds>)
    | TimeUpdate(currentTime: Seconds)
    | Ended
    | MediaError
    | CanPlayThrough

  /** The listeners `play` installs on the element. */
  function OnEvent(p: Player, e: MediaEvent): (q: Player)
    ensures !p.hasElement ==> q == p
    ensures q.currentTrack == p.currentTrack && q.hasElement == p.hasElement
    ensures p.hasElement && e.Ended? ==> !q.isPlaying && q.progress == 0.0
    ensures p.hasElement && e.MediaError? ==> q.error == Some(LoadFailed) && !q.isLoading && !q.isPlaying
    ensures p.hasElement && e.CanPlayThrough? && p.onCanPlay ==> !q.isLoading && q.isPlaying
    ensures q.isPlaying && !p.isPlaying ==> e.CanPlayThrough? && p.onCanPlay
    ensures p.hasElement && e.TimeUpdate? ==> q.progress == e.currentTime && q.position == e.currentTime
    ensures p.hasElement && e.LoadedMetadata? ==>
              q.duration == (if e.duration.Some? then e.duration.value else 0.0)
    ensures q.duration != p.duration ==> e.LoadedMetadata?
    ensures q.progress != p.progress ==> e.TimeUpdate? || e.Ended?
  {
    if !p.hasElement then p
    else
      match e
      case LoadedMetadata(d) => p.(duration := d.GetOr(0.0))
      case TimeUpdate(t) => p.(position := t, progress := t)
      case Ended => p.(isPlaying := false, progress := 0.0)
      case MediaError => p.(error := Some(LoadFailed), isLoading := false, isPlaying := false)
      case CanPlayThrough => if p.onCanPlay then p.(isLoading := false, isPlaying := true) else p
  }

  /** Everything that changes the player: the provider's calls and the
      element's events. */
  datatype Action =
    | DoPlay(track: Track)
    | DoPause
    | DoResume
    | DoStop
    | DoSeek(time: Seconds)
    | Event(e: MediaEvent)

  /** The provider as written: `stop` is `StopAsWritten`. */
  function Step(p: Player, a: Action): (q: Player)
    ensures a.DoPlay? ==> q == Play(p, a.track)
    ensures !a.DoPlay? && !p.hasElement ==> q == p
    ensures a.DoPause? ==> q == Pause(p)
    ensures a.DoResume? ==> q == Resume(p)
    ensures a.DoStop? ==> q == StopAsWritten(p)
    ensures a.DoSeek? ==> q == Seek(p, a.time)
    ensures a.Event? ==> q == OnEvent(p, a.e)
  {
    match a
    case DoPlay(track) => Play(p, track)
    case DoPause => Pause(p)
    case DoResume => Resume(p)
    case DoStop => StopAsWritten(p)
    case DoSeek(t) => Seek(p, t)
    case Event(e) => OnEvent(p, e)
  }

  function Run(p: Player, actions: seq<Action>): Player
    decreases |actions|
  {
    if actions == [] then p else Run(Step(p, actions[0]), actions[1..])
  }

  /** The provider with the corrected `stop`; every other action is as
      written. */
  function StepCorrected(p: Player, a: Action): (q: Player)
    ensures a.DoStop? ==> q == Stop(p)
    ensures !a.DoStop? ==> q == Step(p, a)
    ensures a.DoStop? && p.hasElement ==> q == Step(p, a).(onCanPlay := false)
  {
    if a.DoStop? then Stop(p) else Step(p, a)
  }

  function RunCorrected(p: Player, actions: seq<Action>): Player
    decreases |actions|
  {
    if actions == [] then p else RunCorrected(StepCorrected(p, actions[0]), actions[1..])
  }

  /** Before the first `play` nothing but `play` has any effect: the
      controls and events are no-ops until the element exists. */
  lemma {:induction false} NothingBeforeFirstPlay(actions: seq<Action>)
    requires forall k :: 0 <= k < |actions| ==> !actions[k].DoPlay?
    ensures Run(Initial, actions) == Initial
    ensures RunCorrected(Initial, actions) == Initial
  {
    if actions != [] {
      NothingBeforeFirstPlay(actions[1..]);
    }
  }

  /** What every reachable state satisfies: a track, a source or playback
      means the element exists, and the element always plays the source
      made from the current track's id and text. */
  predicate Consistent(p: Player) {
    && (p.currentTrack.Some? || p.isPlaying || p.source.Some? || p.onCanPlay ==> p.hasElement)
    && (p.currentTrack.Some? ==> p.source == Some(TtsSource(p.currentTrack.value.objectId, p.currentTrack.value.text)))
  }

  lemma StepConsistent(p: Player, a: Action)
    requires Consistent(p)
    ensures Consistent(Step(p, a))
  {
  }

  /** Every state the provider as written reaches from a consistent one is
      consistent. */
  lemma {:induction false} RunConsistent(p: Player, actions: seq<Action>)
    requires Consistent(p)
    ensures Consistent(Run(p, actions))
    decreases |actions|
  {
    if actions != [] {
      StepConsistent(p, actions[0]);
      RunConsistent(Step(p, actions[0]), actions[1..]);
    }
  }

  /** The same holds with the corrected `stop`. */
  lemma {:induction false} RunCorrectedConsistent(p: Player, actions: seq<Action>)
    requires Consistent(p)
    ensures Consistent(RunCorrected(p, actions))
    decreases |actions|
  {
    if actions != [] {
      StepConsistent(p, actions[0]);
      RunCorrectedConsistent(StepCorrected(p, actions[0]), actions[1..]);
    }
  }

  /** The actions the element itself produces. */
  function Events(es: seq<MediaEvent>): (r: seq<Action>)
    ensures |r| == |es| && forall k :: 0 <= k < |es| ==> r[k] == Event(es[k])
  {
    seq(|es|, k requires 0 <= k < |es| => Event(es[k]))
  }

  /** With the pending start cancelled, nothing the element does after
      `stop` makes it play again: only `play` or `resume` can. */
  lemma {:induction false} StoppedStaysSilent(p: Player, es: seq<MediaEvent>)
    requires p.hasElement
    ensures !Run(Stop(p), Events(es)).isPlaying
    ensures !RunCorrected(p, [DoStop] + Events(es)).isPlaying
  {
    SilentUnderEvents(Stop(p), es);
    assert ([DoStop] + Events(es))[1..] == Events(es);
  }

  lemma {:induction false} SilentUnderEvents(p: Player, es: seq<MediaEvent>)
    requires !p.isPlaying && !p.onCanPlay
    ensures !Run(p, Events(es)).isPlaying
    ensures !RunCorrected(p, Events(es)).isPlaying
    decreases |es|
  {
    if es != [] {
      var q := OnEvent(p, es[0]);
      assert Events(es)[1..] == Events(es[1..]);
      SilentUnderEvents(q, es[1..]);
    }
  }

  /** `stop` as written, during loading: the close button hides the player,
      and the audio starts anyway once it can play through, with no track
      left to show a player for. */
  lemma StopDuringLoadingStillPlays(track: Track)
    ensures var stopped := StopAsWritten(Play(Initial, track));
            var after := OnEvent(stopped, CanPlayThrough);
            stopped.currentTrack.None? && after.isPlaying && after.currentTrack.None?
  {
  }

  /** The same run through the provider: play, close, then the element can
      play through. As written the audio plays with no track; with the
      corrected `stop` it stays silent. */
  lemma StopDuringLoadingRuns(track: Track)
    ensures var run := [DoPlay(track), DoStop, Event(CanPlayThrough)];
            && Run(Initial, run).isPlaying && Run(Initial, run).currentTrack.None?
            && !RunCorrected(Initial, run).isPlaying
  {
    var run := [DoPlay(track), DoStop, Event(CanPlayThrough)];
    var played := Play(Initial, track);
    assert run[1..] == [DoStop, Event(CanPlayThrough)] && run[1..][1..] == [Event(CanPlayThrough)];
    StopDuringLoadingStillPlays(track);
    var stopped, fixed := StopAsWritten(played), Stop(played);
    assert Run(Initial, run) == Run(stopped, run[1..][1..]);
    assert Run(stopped, run[1..][1..]) == Run(OnEvent(stopped, CanPlayThrough), []);
    assert RunCorrected(Initial, run) == RunCorrected(fixed, run[1..][1..]);
    assert RunCorrected(fixed, run[1..][1..]) == RunCorrected(OnEvent(fixed, CanPlayThrough), []);
  }
}

=== FILE: audio_player.dfy ===
/**
  The mini player, `components/AudioPlayer.tsx`: what it shows for a player
  state (progress bar, play/pause button, title link, time or error) and
  the `formatTime` clock it writes times with.
 */
module AudioPlayer {
  import opened Common
  import opened Decimal
  import opened AudioContext

  /** A whole number of seconds as minutes and zero-padded seconds. */
  function Clock(n: nat): string {
    NatToString(n / 60) + ":" + Pad2(n % 60)
  }

  /** `formatTime(seconds)`: the whole minutes, a colon, and the whole
      seconds past the minute (`seconds % 60` is the fractional remainder for
      non-negative input) padded to two digits. */
  function FormatTime(seconds: Seconds): (r: string)
    ensures r == Clock(seconds.Floor)
  {
    var mins := (seconds / 60.0).Floor;
    assert 0 <= mins by {
      assert seconds / 60.0 >= 0.0;
    }
    var secs := (seconds - 60.0 * mins as real).Floor;
    assert mins as real <= seconds / 60.0 < mins as real + 1.0;
    assert 0.0 <= seconds - 60.0 * mins as real < 60.0;
    assert 0 <= secs < 60;
    WholeMinutes(seconds, mins, secs);
    NatToString(mins) + ":" + Pad2(secs)
  }

  /** Flooring the seconds first gives the same minutes and seconds. */
  lemma WholeMinutes(seconds: real, mins: int, secs: int)
    requires seconds >= 0.0 && 0 <= mins && 0 <= secs < 60
    requires mins as real <= seconds / 60.0 < mins as real + 1.0
    requires secs == (seconds - 60.0 * mins as real).Floor
    ensures seconds.Floor / 60 == mins && seconds.Floor % 60 == secs
  {
    var n := seconds.Floor;
    assert 60.0 * mins as real <= seconds < 60.0 * mins as real + 60.0;
    assert (seconds - 60.0 * mins as real).Floor == n - 60 * mins by {
      assert (n - 60 * mins) as real <= seconds - 60.0 * mins as real < (n - 60 * mins) as real + 1.0;
    }
    assert n == 60 * mins + secs;
  }

  /** The clock read back: its last two characters are digits giving the
      seconds past the minute (below 60), the colon precedes them, and
      minutes times sixty plus seconds is the whole-second time. */
  lemma {:induction false} ClockRoundTrip(n: nat)
    ensures var c := Clock(n);
            && |c| >= 4 && c[|c| - 3] == ':'
            && (forall i :: 0 <= i < |c| && i != |c| - 3 ==> IsDigit(c[i]))
            && ParseDigits(c[|c| - 2..]) < 60
            && 60 * ParseDigits(c[..|c| - 3]) + ParseDigits(c[|c| - 2..]) == n
  {
    var m := NatToString(n / 60);
    var s := Pad2(n % 60);
    var c := Clock(n);
    assert c == m + ":" + s;
    assert c[..|c| - 3] == m;
    assert c[|c| - 2..] == s;
    ParseNatToString(n / 60);
  }

  /** Distinct whole-second times never show the same clock. */
  lemma ClockInjective(a: nat, b: nat)
    requires Clock(a) == Clock(b)
    ensures a == b
  {
    ClockRoundTrip(a);
    ClockRoundTrip(b);
  }

  /** Whole-second clocks: minutes unpadded, seconds padded. */
  lemma ClockExamples()
    ensures Clock(30) == "0:30" && Clock(120) == "2:00" && Clock(65) == "1:05" && Clock(125) == "2:05"
  {
    assert NatToString(0) == "0" && NatToString(1) == "1" && NatToString(2) == "2";
    assert Pad2(30) == "30" && Pad2(0) == "00" && Pad2(5) == "05";
  }

  /** The times the player's tests show. */
  lemma FormatTimeExamples()
    ensures FormatTime(30.0) == "0:30" && FormatTime(120.0) == "2:00"
    ensures FormatTime(65.0) == "1:05" && FormatTime(125.0) == "2:05"
  {
    assert 30.0.Floor == 30 && 120.0.Floor == 120 && 65.0.Floor == 65 && 125.0.Floor == 125;
    ClockExamples();
  }

  /** `progressPercent`: the share of the duration played, as a percentage;
      0 while the duration is unknown. */
  function ProgressPercent(progress: Seconds, duration: Seconds): (r: real)
    ensures duration == 0.0 ==> r == 0.0
    ensures progress <= duration ==> 0.0 <= r <= 100.0
  {
    if duration > 0.0 then (progress / duration) * 100.0 else 0.0
  }

  /** The bar's width and the duration give back the progress, e.g. 60 s of
      120 s is 50 %. */
  lemma ProgressPercentInverse(progress: Seconds, duration: Seconds)
    requires duration > 0.0
    ensures ProgressPercent(progress, duration) * duration / 100.0 == progress
    ensures ProgressPercent(60.0, 120.0) == 50.0
  {
  }

  datatype Icon = Spinner | PauseIcon | PlayIcon

  datatype Button = Button(onClick: Action, disabled: bool, ariaLabel: string, icon: Icon)

  datatype Status = ErrorText(message: string) | Times(text: string)

  datatype View = View(
    progressPercent: real,
    button: Button,
    link: string,
    title: string,
    status: Status,
    close: Action)

  /** The rendered player; `None` is `return null`. */
  function Render(p: Player): (v: Option<View>)
    ensures v.None? <==> p.currentTrack.None?
    ensures v.Some? ==>
              && v.value.link == "/objects/" + NatToString(p.currentTrack.value.objectId)
              && v.value.title == p.currentTrack.value.title
              && v.value.progressPercent == ProgressPercent(p.progress, p.duration)
              && v.value.close == DoStop
  {
    match p.currentTrack
    case None => None
    case Some(track) =>
      var button := Button(
        if p.isPlaying then DoPause else DoResume,
        p.isLoading,
        if p.isPlaying then "Pause" else "Play",
        if p.isLoading then Spinner else if p.isPlaying then PauseIcon else PlayIcon);
      var status :=
        if p.error.Some? && p.error.value != "" then ErrorText(p.error.value)
        else Times(FormatTime(p.progress) + " / " + FormatTime(p.duration));
      Some(View(ProgressPercent(p.progress, p.duration), button,
                "/objects/" + NatToString(track.objectId), track.title, status, DoStop))
  }

  /** The title links to the page of the object being played: the digits
      after `/objects/` read back as its id. */
  lemma LinkNamesObject(p: Player)
    requires p.currentTrack.Some?
    ensures var link := Render(p).value.link;
            && |link| > 9 && link[..9] == "/objects/"
            && (forall i :: 9 <= i < |link| ==> IsDigit(link[i]))
            && ParseDigits(link[9..]) == p.currentTrack.value.objectId
  {
    var link := Render(p).value.link;
    var digits := NatToString(p.currentTrack.value.objectId);
    assert link[9..] == digits;
    ParseNatToString(p.currentTrack.value.objectId);
  }

  /** The button: disabled exactly while loading, and pressing it pauses a
      playing track and resumes any other; on a reachable state that flips
      `isPlaying`. */
  lemma ButtonToggles(p: Player)
    requires Consistent(p) && p.currentTrack.Some?
    ensures Render(p).value.button.disabled == p.isLoading
    ensures Render(p).value.button.onClick == (if p.isPlaying then DoPause else DoResume)
    ensures Step(p, Render(p).value.button.onClick).isPlaying == !p.isPlaying
  {
  }

  /** A non-empty error replaces the clock; otherwise the clock shows the
      progress and the duration. */
  lemma ErrorReplacesTime(p: Player)
    requires p.currentTrack.Some?
    ensures (p.error.Some? && p.error.value != "") ==> Render(p).value.status == ErrorText(p.error.value)
    ensures !(p.error.Some? && p.error.value != "") ==>
              Render(p).value.status == Times(FormatTime(p.progress) + " / " + FormatTime(p.duration))
  {
  }

  /** After a failed load the player shows the failure message and a Play
      button that is enabled. */
  lemma LoadFailureShown(p: Player, track: Track)
    ensures var q := OnEvent(Play(p, track), MediaError);
            Render(q).value.status == ErrorText(LoadFailed)
            && !Render(q).value.button.disabled && Render(q).value.button.ariaLabel == "Play"
  {
  }

  /** Closing the player hides it. */
  lemma CloseHides(p: Player)
    requires Consistent(p) && p.currentTrack.Some?
    ensures Render(Step(p, Render(p).value.close)).None?
  {
  }
}

=== FILE: base64.dfy ===
/**
  The base 64 encoding of section 4 of RFC 4648 (alphabet `A-Z a-z 0-9 + /`,
  `=` padding), which the audio cache uses to keep bytes in a string store.
 */
module Base64 {
  import opened Common

  /** The 6-bit value a character stands for in the alphabet of Table 1. */
  function CharOf(v: int): (c: char)
    requires 0 <= v < 64
  {
    if v < 26 then ('A' as int + v) as char
    else if v < 52 then ('a' as int + (v - 26)) as char
    else if v < 62 then ('0' as int + (v - 52)) as char
    else if v == 62 then '+'
    else '/'
  }

  predicate IsBase64Char(c: char) {
    ('A' <= c <= 'Z') || ('a' <= c <= 'z') || ('0' <= c <= '9') || c == '+' || c == '/'
  }

  function ValueOf(c: char): (v: int)
    requires IsBase64Char(c)
    ensures 0 <= v < 64
    ensures CharOf(v) == c
  {
    if 'A' <= c <= 'Z' then c as int - 'A' as int
    else if 'a' <= c <= 'z' then c as int - 'a' as int + 26
    else if '0' <= c <= '9' then c as int - '0' as int + 52
    else if c == '+' then 62
    else 63
  }

  lemma ValueOfCharOf(v: int)
    requires 0 <= v < 64
    ensures IsBase64Char(CharOf(v)) && ValueOf(CharOf(v)) == v
  {
  }

  /** Three bytes become four characters (RFC 4648 section 4, a full quantum). */
  function EncodeTriple(b0: Byte, b1: Byte, b2: Byte): (s: string)
    ensures |s| == 4
  {
    [CharOf(b0 / 4), CharOf((b0 % 4) * 16 + b1 / 16),
     CharOf((b1 % 16) * 4 + b2 / 64), CharOf(b2 % 64)]
  }

  /** A final quantum of two bytes: three characters and one `=`. */
  function EncodePair(b0: Byte, b1: Byte): (s: string)
    ensures |s| == 4
  {
    [CharOf(b0 / 4), CharOf((b0 % 4) * 16 + b1 / 16), CharOf((b1 % 16) * 4), '=']
  }

  /** A final quantum of one byte: two characters and `==`. */
  function EncodeSingle(b0: Byte): (s: string)
    ensures |s| == 4
  {
    [CharOf(b0 / 4), CharOf((b0 % 4) * 16), '=', '=']
  }

  /** `buffer.toString('base64')`. */
  function Encode(b: seq<Byte>): (s: string)
    ensures |s| == 4 * ((|b| + 2) / 3)
    decreases |b|
  {
    if |b| == 0 then ""
    else if |b| == 1 then EncodeSingle(b[0])
    else if |b| == 2 then EncodePair(b[0], b[1])
    else EncodeTriple(b[0], b[1], b[2]) + Encode(b[3..])
  }

  /** Decodes one four-character quantum; `last` says whether padding may
      appear in it. */
  function DecodeQuantum(q: string, last: bool): (r: Option<seq<Byte>>)
    requires |q| == 4
    ensures r.Some? ==> 1 <= |r.value| <= 3
  {
    if !(IsBase64Char(q[0]) && IsBase64Char(q[1])) then None
    else
      var v0 := ValueOf(q[0]);
      var v1 := ValueOf(q[1]);
      var b0 := v0 * 4 + v1 / 16;
      if q[2] == '=' && q[3] == '=' then
        if last && v1 % 16 == 0 then Some([b0]) else None
      else if !IsBase64Char(q[2]) then None
      else
        var v2 := ValueOf(q[2]);
        var b1 := (v1 % 16) * 16 + v2 / 4;
        if q[3] == '=' then
          if last && v2 % 4 == 0 then Some([b0, b1]) else None
        else if !IsBase64Char(q[3]) then None
        else Some([b0, b1, (v2 % 4) * 64 + ValueOf(q[3])])
  }

  /** Canonical decoding: `None` for any string `Encode` cannot produce. */
  function Decode(s: string): (r: Option<seq<Byte>>)
    decreases |s|
  {
    if |s| == 0 then Some([])
    else if |s| < 4 then None
    else
      match DecodeQuantum(s[..4], |s| == 4)
      case None => None
      case Some(head) =>
        if |head| < 3 && |s| > 4 then None
        else
          match Decode(s[4..])
          case None => None
          case Some(tail) => Some(head + tail)
  }

  /** The four 6-bit groups of three bytes put back together give the bytes. */
  lemma TripleGroups(b0: Byte, b1: Byte, b2: Byte)
    ensures var v0, v1, v2, v3 := b0 / 4, (b0 % 4) * 16 + b1 / 16, (b1 % 16) * 4 + b2 / 64, b2 % 64;
            && v0 * 4 + v1 / 16 == b0
            && (v1 % 16) * 16 + v2 / 4 == b1
            && (v2 % 4) * 64 + v3 == b2
  {
  }

  lemma DecodeTriple(b0: Byte, b1: Byte, b2: Byte, last: bool)
    ensures DecodeQuantum(EncodeTriple(b0, b1, b2), last) == Some([b0, b1, b2])
  {
    var v0, v1, v2, v3 := b0 / 4, (b0 % 4) * 16 + b1 / 16, (b1 % 16) * 4 + b2 / 64, b2 % 64;
    var q := EncodeTriple(b0, b1, b2);
    assert q == [CharOf(v0), CharOf(v1), CharOf(v2), CharOf(v3)];
    ValueOfCharOf(v0);
    ValueOfCharOf(v1);
    ValueOfCharOf(v2);
    ValueOfCharOf(v3);
    TripleGroups(b0, b1, b2);
  }

  lemma DecodePair(b0: Byte, b1: Byte)
    ensures DecodeQuantum(EncodePair(b0, b1), true) == Some([b0, b1])
  {
    ValueOfCharOf(b0 / 4);
    ValueOfCharOf((b0 % 4) * 16 + b1 / 16);
    ValueOfCharOf((b1 % 16) * 4);
  }

  lemma DecodeSingle(b0: Byte)
    ensures DecodeQuantum(EncodeSingle(b0), true) == Some([b0])
  {
    ValueOfCharOf(b0 / 4);
    ValueOfCharOf((b0 % 4) * 16);
  }

  /** A full first quantum followed by a decodable rest decodes to their
      concatenation. */
  lemma DecodeCons(s: string, head: seq<Byte>, tail: seq<Byte>)
    requires |s| >= 4
    requires DecodeQuantum(s[..4], |s| == 4) == Some(head) && |head| == 3
    requires Decode(s[4..]) == Some(tail)
    ensures Decode(s) == Some(head + tail)
  {
  }

  /** A lone final quantum decodes on its own. */
  lemma DecodeLast(s: string, head: seq<Byte>)
    requires |s| == 4
    requires DecodeQuantum(s, true) == Some(head)
    ensures Decode(s) == Some(head)
  {
    assert s[..4] == s;
    assert s[4..] == "";
    assert head + [] == head;
  }

  lemma DecodeEncodeOne(b: seq<Byte>)
    requires |b| == 1
    ensures Decode(Encode(b)) == Some(b)
  {
    DecodeSingle(b[0]);
    assert b == [b[0]];
    DecodeLast(EncodeSingle(b[0]), b);
  }

  lemma DecodeEncodeTwo(b: seq<Byte>)
    requires |b| == 2
    ensures Decode(Encode(b)) == Some(b)
  {
    DecodePair(b[0], b[1]);
    assert b == [b[0], b[1]];
    DecodeLast(EncodePair(b[0], b[1]), b);
  }

  /** A long input's encoding is its first full quantum followed by the
      encoding of the rest. */
  lemma EncodeSplit(b: seq<Byte>)
    requires |b| >= 3
    ensures Encode(b) == EncodeTriple(b[0], b[1], b[2]) + Encode(b[3..])
  {
  }

  /** A full quantum in front of a decodable rest decodes to the
      concatenation of the two. */
  lemma DecodeAppend(q: string, rest: string, head: seq<Byte>, tail: seq<Byte>)
    requires |q| == 4 && |head| == 3
    requires DecodeQuantum(q, rest == "") == Some(head)
    requires Decode(rest) == Some(tail)
    ensures Decode(q + rest) == Some(head + tail)
  {
    var s := q + rest;
    assert s[..4] == q;
    assert s[4..] == rest;
    DecodeCons(s, head, tail);
  }

  /** A full quantum of three bytes in front of a decodable rest. */
  lemma DecodeTripleAppend(b0: Byte, b1: Byte, b2: Byte, rest: string, tail: seq<Byte>)
    requires Decode(rest) == Some(tail)
    ensures Decode(EncodeTriple(b0, b1, b2) + rest) == Some([b0, b1, b2] + tail)
  {
    DecodeTriple(b0, b1, b2, rest == "");
    DecodeAppend(EncodeTriple(b0, b1, b2), rest, [b0, b1, b2], tail);
  }

  /** A sequence of three or more is its first three elements and the rest. */
  lemma SplitFirstThree<T>(b: seq<T>)
    requires |b| >= 3
    ensures [b[0], b[1], b[2]] + b[3..] == b
  {
  }

  lemma DecodeEncodeStep(b: seq<Byte>)
    requires |b| >= 3
    requires Decode(Encode(b[3..])) == Some(b[3..])
    ensures Decode(Encode(b)) == Some(b)
  {
    EncodeSplit(b);
    DecodeTripleAppend(b[0], b[1], b[2], Encode(b[3..]), b[3..]);
    SplitFirstThree(b);
  }

  /** Decoding an encoding gives back the bytes (the round trip of
      RFC 4648 section 4). */
  lemma {:induction false} DecodeEncode(b: seq<Byte>)
    ensures Decode(Encode(b)) == Some(b)
    decreases |b|
  {
    if |b| == 0 {
    } else if |b| <= 2 {
      if |b| == 1 { DecodeEncodeOne(b); } else { DecodeEncodeTwo(b); }
    } else {
      DecodeEncode(b[3..]);
      DecodeEncodeStep(b);
    }
  }

  /** Encoding is injective, so distinct audio never shares a stored string. */
  lemma EncodeInjective(a: seq<Byte>, b: seq<Byte>)
    requires Encode(a) == Encode(b)
    ensures a == b
  {
    DecodeEncode(a);
    DecodeEncode(b);
  }
}

=== FILE: bottom_nav.dfy ===
/**
  The bottom navigation bar, `components/BottomNav.tsx`: five fixed tabs,
  hidden on artwork pages, with the active tab chosen from the pathname.
 */
module BottomNav {
  import opened Common
  import opened Text

  datatype Tab = Tab(name: string, href: string)

  const Tabs: seq<Tab> := [
    Tab("Home", "/"),
    Tab("Scan", "/scan"),
    Tab("Tours", "/tours"),
    Tab("Favorites", "/favorites"),
    Tab("Search", "/search")
  ]

  /** Home matches only the root itself; every other tab matches its whole
      sub-tree, by plain string prefix. */
  predicate IsActive(tab: Tab, pathname: string) {
    if tab.href == "/" then pathname == "/" else StartsWith(pathname, tab.href)
  }

  datatype RenderedTab = RenderedTab(tab: Tab, active: bool)

  /** The rendered bar: nothing on `/objects/...`, else every tab in order
      with its active flag. */
  function Render(pathname: string): (r: Option<seq<RenderedTab>>)
    ensures r.None? <==> StartsWith(pathname, "/objects/")
    ensures r.Some? ==> |r.value| == |Tabs|
                        && forall k :: 0 <= k < |Tabs| ==> r.value[k].tab == Tabs[k]
    ensures r.Some? ==> forall k :: 0 <= k < |Tabs| ==> r.value[k].active == IsActive(Tabs[k], pathname)
  {
    if StartsWith(pathname, "/objects/") then None
    else Some(seq(|Tabs|, k requires 0 <= k < |Tabs| => RenderedTab(Tabs[k], IsActive(Tabs[k], pathname))))
  }

  /** A string cannot start with two strings of which the shorter is not a
      prefix of the longer. */
  lemma NotBothPrefixes(s: string, a: string, b: string)
    requires |a| <= |b| && !StartsWith(b, a)
    ensures !(StartsWith(s, a) && StartsWith(s, b))
  {
    if StartsWith(s, b) {
      assert s[..|a|] == b[..|a|];
    }
  }

  /** No tab's href other than the root is a prefix of another's. */
  lemma HrefsIncomparable(i: nat, j: nat)
    requires i < |Tabs| && j < |Tabs| && i != j && Tabs[i].href != "/" && |Tabs[i].href| <= |Tabs[j].href|
    ensures !StartsWith(Tabs[j].href, Tabs[i].href)
  {
    var a := Tabs[i].href;
    var b := Tabs[j].href;
    assert a[1] != b[1] || a[2] != b[2];
  }

  /** At most one tab is active, whatever the pathname. */
  lemma AtMostOneActive(pathname: string, i: nat, j: nat)
    requires i < |Tabs| && j < |Tabs| && i != j
    ensures !(IsActive(Tabs[i], pathname) && IsActive(Tabs[j], pathname))
  {
    if Tabs[i].href == "/" {
      assert |Tabs[j].href| > 1;
    } else if Tabs[j].href == "/" {
      assert |Tabs[i].href| > 1;
    } else if |Tabs[i].href| <= |Tabs[j].href| {
      HrefsIncomparable(i, j);
      NotBothPrefixes(pathname, Tabs[i].href, Tabs[j].href);
    } else {
      HrefsIncomparable(j, i);
      NotBothPrefixes(pathname, Tabs[j].href, Tabs[i].href);
    }
  }

  /** The rendered bar marks at most one tab, and marks Home exactly on the
      root. */
  lemma RenderedActiveTab(pathname: string)
    requires !StartsWith(pathname, "/objects/")
    ensures var r := Render(pathname).value;
            (forall i, j :: 0 <= i < j < |r| && r[i].active ==> !r[j].active)
            && (r[0].active <==> pathname == "/")
  {
    var r := Render(pathname).value;
    forall i, j | 0 <= i < j < |r| && r[i].active ensures !r[j].active {
      AtMostOneActive(pathname, i, j);
    }
  }

  /** Pages below a tab activate it, including ones that merely share its
      prefix, and the root activates Home alone. */
  lemma ActiveExamples()
    ensures IsActive(Tabs[2], "/tours/dept-11")
    ensures IsActive(Tabs[1], "/scanner")
    ensures IsActive(Tabs[0], "/") && !IsActive(Tabs[0], "/tours")
    ensures Render("/objects/436535").None?
  {
    assert "/tours/dept-11"[..6] == "/tours";
    assert "/scanner"[..5] == "/scan";
    assert "/objects/436535"[..9] == "/objects/";
  }
}

=== FILE: common.dfy ===
/**
  Shared building blocks: an optional value for the source's nullable fields
  and JavaScript's notion of a "truthy" string.
 */
module Common {

  /** A value that may be absent (`null` / `undefined` in the source). */
  datatype Option<+T> = None | Some(value: T) {

    /** Returns the value, or `default` when absent. */
    function GetOr(default: T): T {
      match this
      case Some(v) => v
      case None => default
    }
  }

  /** A byte, as held by a Node `Buffer`. */
  type Byte = b: int | 0 <= b < 256

  /** A string is truthy in JavaScript exactly when it is non-empty. */
  predicate Truthy(s: string) {
    s != ""
  }

  /** A nullable string is truthy when present and non-empty. */
  predicate TruthyOpt(o: Option<string>) {
    o.Some? && o.value != ""
  }

  /** `s || null`: an empty string becomes null. */
  function OrNull(s: string): (r: Option<string>)
    ensures r.None? <==> s == ""
    ensures r.Some? ==> r.value == s
  {
    if s == "" then None else Some(s)
  }

  /** `a || b` on strings: the first one when truthy, else the second. */
  function OrElse(a: string, b: string): (r: string)
    ensures a != "" ==> r == a
    ensures a == "" ==> r == b
  {
    if a != "" then a else b
  }

  function Min(a: int, b: int): (r: int)
    ensures r <= a && r <= b
    ensures r == a || r == b
  {
    if a <= b then a else b
  }

  function Max(a: int, b: int): (r: int)
    ensures r >= a && r >= b
    ensures r == a || r == b
  {
    if a >= b then a else b
  }

  /** Two pieces of which one is empty can be swapped. */
  lemma SwapEmpty<T>(a: seq<T>, b: seq<T>, w: seq<T>)
    requires a == [] || b == []
    ensures a + (b + w) == b + (a + w)
  {
  }

  lemma AppendAssoc<T>(x: seq<T>, y: seq<T>, z: seq<T>)
    ensures x + (y + z) == (x + y) + z
  {
  }

  /** Some element of a non-empty list satisfies `p` exactly when its first
      does or one of the rest does. */
  lemma ExistsCons<T>(s: seq<T>, p: T -> bool)
    requires s != []
    ensures (exists k :: 0 <= k < |s| && p(s[k])) <==> p(s[0]) || exists k :: 0 <= k < |s[1..]| && p(s[1..][k])
  {
    if exists k :: 0 <= k < |s[1..]| && p(s[1..][k]) {
      var k :| 0 <= k < |s[1..]| && p(s[1..][k]);
      assert s[k + 1] == s[1..][k];
    }
    if exists k :: 0 <= k < |s| && p(s[k]) {
      var k :| 0 <= k < |s| && p(s[k]);
      if k > 0 {
        assert s[1..][k - 1] == s[k];
      }
    }
  }
}

=== FILE: decimal.dfy ===
/**
  Decimal rendering of non-negative integers (`String(n)` / template
  interpolation of a number) and its inverse.
 */
module Decimal {

  predicate IsDigit(c: char) {
    '0' <= c <= '9'
  }

  function DigitChar(d: nat): (c: char)
    requires d < 10
    ensures IsDigit(c)
  {
    ('0' as int + d) as char
  }

  function DigitValue(c: char): (d: nat)
    requires IsDigit(c)
    ensures d < 10
  {
    c as int - '0' as int
  }

  /** `String(n)` for a natural number: its shortest decimal spelling. */
  function NatToString(n: nat): (s: string)
    ensures |s| >= 1
    ensures forall i :: 0 <= i < |s| ==> IsDigit(s[i])
    ensures |s| > 1 ==> s[0] != '0'
  {
    if n < 10 then [DigitChar(n)]
    else NatToString(n / 10) + [DigitChar(n % 10)]
  }

  /** The value of a string of decimal digits. */
  function ParseDigits(s: string): nat
    requires forall i :: 0 <= i < |s| ==> IsDigit(s[i])
  {
    if s == "" then 0
    else 10 * ParseDigits(s[..|s| - 1]) + DigitValue(s[|s| - 1])
  }

  /** Reading back a rendered number gives the number. */
  lemma {:induction false} ParseNatToString(n: nat)
    ensures ParseDigits(NatToString(n)) == n
  {
    var s := NatToString(n);
    if n < 10 {
      assert s[..0] == "";
    } else {
      assert s[..|s| - 1] == NatToString(n / 10);
      ParseNatToString(n / 10);
    }
  }

  /** Distinct numbers have distinct spellings. */
  lemma NatToStringInjective(a: nat, b: nat)
    requires NatToString(a) == NatToString(b)
    ensures a == b
  {
    ParseNatToString(a);
    ParseNatToString(b);
  }

  /** `String(n).padStart(2, '0')` for `n < 100`. */
  function Pad2(n: nat): (s: string)
    requires n < 100
    ensures |s| == 2 && IsDigit(s[0]) && IsDigit(s[1])
    ensures ParseDigits(s) == n
  {
    ParseNatToString(n);
    if n < 10 then
      assert ParseDigits(['0', DigitChar(n)][..1]) == 0;
      ['0', DigitChar(n)]
    else
      NatToString(n)
  }
}

=== FILE: favorites.dfy ===
/**
  The favourites and recently-viewed lists of `lib/favorites.ts`, as pure
  operations on the lists (the localStorage round trip is left out). The
  stamping instant `now` is passed in.
 */
module Favorites {
  import opened Common

  const MaxRecent: int := 20

  datatype SavedArtwork = SavedArtwork(
    objectID: int,
    title: string,
    artistDisplayName: Option<string>,
    primaryImageSmall: Option<string>,
    savedAt: int)

  /** No two entries share an object id. */
  ghost predicate UniqueIds(xs: seq<SavedArtwork>) {
    forall i, j :: 0 <= i < j < |xs| ==> xs[i].objectID != xs[j].objectID
  }

  predicate HasId(xs: seq<SavedArtwork>, id: int) {
    exists i :: 0 <= i < |xs| && xs[i].objectID == id
  }

  /** `isFavorite(objectID)`. */
  function IsFavorite(favorites: seq<SavedArtwork>, id: int): (b: bool)
    ensures b <==> HasId(favorites, id)
  {
    if favorites == [] then false
    else
      var b := favorites[0].objectID == id || IsFavorite(favorites[1..], id);
      assert HasId(favorites[1..], id) ==> HasId(favorites, id) by {
        if HasId(favorites[1..], id) {
          var i :| 0 <= i < |favorites[1..]| && favorites[1..][i].objectID == id;
          assert favorites[i + 1].objectID == id;
        }
      }
      b
  }

  /** `findIndex(f => f.objectID === id)`: the first position holding `id`,
      or `|xs|` when there is none. */
  function FindIndex(xs: seq<SavedArtwork>, id: int): (i: nat)
    ensures i <= |xs|
    ensures forall k :: 0 <= k < i ==> xs[k].objectID != id
    ensures i < |xs| ==> xs[i].objectID == id
    ensures i == |xs| <==> !HasId(xs, id)
  {
    if xs == [] then 0
    else if xs[0].objectID == id then 0
    else 1 + FindIndex(xs[1..], id)
  }

  /** The entries whose id differs from `id`, in order. */
  function Without(xs: seq<SavedArtwork>, id: int): (r: seq<SavedArtwork>)
    ensures |r| <= |xs|
    ensures !HasId(r, id)
    ensures forall k :: 0 <= k < |r| ==> r[k] in xs
  {
    if xs == [] then []
    else if xs[0].objectID == id then Without(xs[1..], id)
    else [xs[0]] + Without(xs[1..], id)
  }

  lemma {:induction false} WithoutConcat(a: seq<SavedArtwork>, b: seq<SavedArtwork>, id: int)
    ensures Without(a + b, id) == Without(a, id) + Without(b, id)
    decreases |a|
  {
    if a == [] {
      assert a + b == b;
    } else {
      assert (a + b)[1..] == a[1..] + b;
      WithoutConcat(a[1..], b, id);
    }
  }

  lemma {:induction false} WithoutAbsent(xs: seq<SavedArtwork>, id: int)
    requires !HasId(xs, id)
    ensures Without(xs, id) == xs
    decreases |xs|
  {
    if xs != [] {
      WithoutAbsent(xs[1..], id);
    }
  }

  datatype Toggled = Toggled(added: bool, favorites: seq<SavedArtwork>)

  /** `toggleFavorite(artwork)`: removes the first entry with the artwork's
      id, or, if there is none, puts the artwork, stamped `now`, in front. */
  function Toggle(favorites: seq<SavedArtwork>, artwork: SavedArtwork, now: int): (t: Toggled)
    ensures !HasId(favorites, artwork.objectID) ==>
              t.added && t.favorites == [artwork.(savedAt := now)] + favorites
    ensures HasId(favorites, artwork.objectID) ==>
              && !t.added
              && var i := FindIndex(favorites, artwork.objectID);
                 t.favorites == favorites[..i] + favorites[i + 1..]
  {
    var i := FindIndex(favorites, artwork.objectID);
    if i < |favorites| then Toggled(false, favorites[..i] + favorites[i + 1..])
    else Toggled(true, [artwork.(savedAt := now)] + favorites)
  }

  /** With unique ids, the flag returned is the new favourite status. */
  lemma ToggleReportsMembership(favorites: seq<SavedArtwork>, artwork: SavedArtwork, now: int)
    requires UniqueIds(favorites)
    ensures var t := Toggle(favorites, artwork, now);
            t.added == IsFavorite(t.favorites, artwork.objectID)
  {
    var id := artwork.objectID;
    var t := Toggle(favorites, artwork, now);
    if HasId(favorites, id) {
      var i := FindIndex(favorites, id);
      forall j | 0 <= j < |t.favorites| ensures t.favorites[j].objectID != id {
        if j < i {
          assert t.favorites[j] == favorites[j];
        } else {
          assert t.favorites[j] == favorites[j + 1];
        }
      }
    } else {
      assert t.favorites[0].objectID == id;
    }
  }

  /** Toggling twice from a list without the artwork restores the list. */
  lemma ToggleTwice(favorites: seq<SavedArtwork>, artwork: SavedArtwork, now: int, later: int)
    requires !HasId(favorites, artwork.objectID)
    ensures Toggle(Toggle(favorites, artwork, now).favorites, artwork, later).favorites == favorites
  {
    var once := Toggle(favorites, artwork, now).favorites;
    assert FindIndex(once, artwork.objectID) == 0;
    assert once[1..] == favorites;
  }

  lemma WithoutSingle(a: SavedArtwork)
    ensures Without([a], a.objectID) == []
  {
    assert [a][1..] == [];
  }

  lemma WithoutRemoveAt(xs: seq<SavedArtwork>, i: nat, id: int)
    requires i < |xs| && xs[i].objectID == id
    ensures Without(xs[..i] + xs[i + 1..], id) == Without(xs, id)
  {
    assert xs == xs[..i] + ([xs[i]] + xs[i + 1..]);
    WithoutConcat(xs[..i], [xs[i]] + xs[i + 1..], id);
    WithoutConcat([xs[i]], xs[i + 1..], id);
    WithoutSingle(xs[i]);
    WithoutConcat(xs[..i], xs[i + 1..], id);
  }

  /** Toggling leaves every other entry, and their relative order, as it
      was. */
  lemma ToggleKeepsOthers(favorites: seq<SavedArtwork>, artwork: SavedArtwork, now: int)
    ensures Without(Toggle(favorites, artwork, now).favorites, artwork.objectID)
         == Without(favorites, artwork.objectID)
  {
    var id := artwork.objectID;
    if HasId(favorites, id) {
      WithoutRemoveAt(favorites, FindIndex(favorites, id), id);
    } else {
      WithoutConcat([artwork.(savedAt := now)], favorites, id);
      WithoutSingle(artwork.(savedAt := now));
    }
  }

  /** Toggling keeps ids unique. */
  lemma TogglePreservesUnique(favorites: seq<SavedArtwork>, artwork: SavedArtwork, now: int)
    requires UniqueIds(favorites)
    ensures UniqueIds(Toggle(favorites, artwork, now).favorites)
  {
    var id := artwork.objectID;
    var t := Toggle(favorites, artwork, now).favorites;
    if HasId(favorites, id) {
      var i := FindIndex(favorites, id);
      forall a, b | 0 <= a < b < |t| ensures t[a].objectID != t[b].objectID {
        var a' := if a < i then a else a + 1;
        var b' := if b < i then b else b + 1;
        assert t[a] == favorites[a'] && t[b] == favorites[b'];
      }
    } else {
      forall a, b | 0 <= a < b < |t| ensures t[a].objectID != t[b].objectID {
        if a == 0 {
          assert t[b] == favorites[b - 1];
        } else {
          assert t[a] == favorites[a - 1] && t[b] == favorites[b - 1];
        }
      }
    }
  }

  /** `addRecentlyViewed(artwork)`: moves the artwork, stamped `now`, to the
      front and keeps at most twenty entries. */
  function AddRecentlyViewed(recent: seq<SavedArtwork>, artwork: SavedArtwork, now: int): (r: seq<SavedArtwork>)
    ensures |r| == Min(MaxRecent, 1 + |Without(recent, artwork.objectID)|)
    ensures r[0] == artwork.(savedAt := now)
    ensures r[1..] == Without(recent, artwork.objectID)[..|r| - 1]
  {
    var moved := [artwork.(savedAt := now)] + Without(recent, artwork.objectID);
    var r := moved[..Min(MaxRecent, |moved|)];
    assert r[1..] == moved[1..][..|r| - 1];
    r
  }

  /** The artwork's id appears exactly once, at the front. */
  lemma RecentHoldsIdOnce(recent: seq<SavedArtwork>, artwork: SavedArtwork, now: int)
    ensures var r := AddRecentlyViewed(recent, artwork, now);
            forall k :: 0 <= k < |r| ==> (r[k].objectID == artwork.objectID <==> k == 0)
  {
    var r := AddRecentlyViewed(recent, artwork, now);
    var w := Without(recent, artwork.objectID);
    forall k | 0 < k < |r| ensures r[k].objectID != artwork.objectID {
      assert r[k] == r[1..][k - 1] == w[k - 1];
    }
  }

  lemma {:induction false} WithoutIdempotent(xs: seq<SavedArtwork>, id: int)
    ensures Without(Without(xs, id), id) == Without(xs, id)
  {
    WithoutAbsent(Without(xs, id), id);
  }

  /** Viewing the same artwork twice at the same instant is the same as
      viewing it once. */
  lemma RecentIdempotent(recent: seq<SavedArtwork>, artwork: SavedArtwork, now: int)
    ensures AddRecentlyViewed(AddRecentlyViewed(recent, artwork, now), artwork, now)
         == AddRecentlyViewed(recent, artwork, now)
  {
    var id := artwork.objectID;
    var a := artwork.(savedAt := now);
    var once := AddRecentlyViewed(recent, artwork, now);
    var w := Without(recent, id);
    assert once == [a] + once[1..] by { assert once[0] == a; }
    WithoutConcat([a], once[1..], id);
    WithoutSingle(a);
    forall j | 0 <= j < |once[1..]| ensures once[1..][j].objectID != id {
      assert once[1..][j] == w[j];
    }
    WithoutAbsent(once[1..], id);
  }
}

=== FILE: identify.dfy ===
/**
  The artwork identification route, `app/api/identify/route.ts`: match
  scoring of a collection object against the vision model's guess, the search
  query plan, candidate gathering, ranking, and the order of checks in `POST`.
  The vision model, the collection search and the object fetch are oracle
  inputs; their replies arrive already parsed.
 */
module Identify {
  import opened Common
  import opened Text
  import RateLimiter

  datatype VisionAnalysis = VisionAnalysis(
    isArtwork: bool,
    probableTitle: Option<string>,
    probableArtist: Option<string>,
    visualKeywords: seq<string>,
    artPeriod: Option<string>,
    medium: Option<string>)

  /** The fields of a collection object the route reads; a missing string
      field is `""`. */
  datatype MetObject = MetObject(
    objectID: int,
    title: string,
    artistDisplayName: string,
    objectDate: string,
    department: string,
    primaryImageSmall: string,
    primaryImage: string,
    isHighlight: bool)

  datatype Match = Match(score: int, reason: string)

  datatype SearchResult = SearchResult(
    objectID: int,
    title: string,
    artistDisplayName: Option<string>,
    objectDate: Option<string>,
    department: string,
    primaryImageSmall: string,
    matchScore: int,
    matchReason: string)

  const ArtistPoints: int := 50
  const TitlePoints: int := 30
  const PartialTitlePoints: int := 15
  const KeywordPoints: int := 5
  const HighlightPoints: int := 5

  const MaxQueries: int := 3
  const EnoughCandidates: int := 15
  const MaxSearchHits: int := 20
  const MaxResults: int := 3

  /** The analysis used when the model's reply holds no readable JSON. */
  const DefaultAnalysis := VisionAnalysis(false, None, None, [], None, None)

  // ---------------------------------------------------------------------
  // Scoring

  /** The artist test: both names present, and either lower-cased name
      contains the other. */
  predicate ArtistMatches(o: MetObject, a: VisionAnalysis) {
    && TruthyOpt(a.probableArtist) && o.artistDisplayName != ""
    && var artist := ToLower(o.artistDisplayName);
       var guess := ToLower(a.probableArtist.value);
       Contains(artist, guess) || Contains(guess, artist)
  }

  /** How many title words (with repetition) occur among the guess words. */
  function CountIn(words: seq<string>, pool: seq<string>): (n: nat)
    ensures n <= |words|
  {
    if words == [] then 0
    else (if words[0] in pool then 1 else 0) + CountIn(words[1..], pool)
  }

  /** The word overlap of the lower-cased title and guess, both split on
      runs of whitespace; zero when either is missing. */
  function TitleOverlap(o: MetObject, a: VisionAnalysis): nat {
    if TruthyOpt(a.probableTitle) && o.title != "" then
      CountIn(SplitWs(ToLower(o.title)), SplitWs(ToLower(a.probableTitle.value)))
    else 0
  }

  /** `${title} ${artistDisplayName} ${department}`, lower-cased. */
  function ObjectText(o: MetObject): string {
    ToLower(o.title + " " + o.artistDisplayName + " " + o.department)
  }

  /** The keywords whose lower-cased form occurs in `text`, in order. */
  function MatchingKeywords(keywords: seq<string>, text: string): (r: seq<string>)
    ensures |r| <= |keywords|
    ensures forall k :: 0 <= k < |r| ==> r[k] in keywords && Contains(text, ToLower(r[k]))
  {
    if keywords == [] then []
    else
      var rest := MatchingKeywords(keywords[1..], text);
      if Contains(text, ToLower(keywords[0])) then [keywords[0]] + rest else rest
  }

  lemma {:induction false} MatchingKeywordsSnoc(keywords: seq<string>, k: string, text: string)
    ensures MatchingKeywords(keywords + [k], text)
         == MatchingKeywords(keywords, text) + (if Contains(text, ToLower(k)) then [k] else [])
    decreases |keywords|
  {
    if keywords == [] {
      assert ([] + [k])[1..] == [];
    } else {
      assert (keywords + [k])[1..] == keywords[1..] + [k];
      MatchingKeywordsSnoc(keywords[1..], k, text);
    }
  }

  /** The reasons that fired, in the order artist, title, keywords. */
  function Reasons(o: MetObject, a: VisionAnalysis): seq<string> {
    var overlap := TitleOverlap(o, a);
    var matching := MatchingKeywords(a.visualKeywords, ObjectText(o));
    (if ArtistMatches(o, a) then ["Artist match"] else [])
    + (if overlap >= 2 then ["Title match"] else if overlap >= 1 then ["Partial title match"] else [])
    + (if |matching| > 0 then ["Keywords: " + Join(matching, ", ")] else [])
  }

  /** `calculateMatchScore(object, analysis)`. */
  function MatchScore(o: MetObject, a: VisionAnalysis): (m: Match)
    ensures 0 <= m.score <= 85 + 5 * |a.visualKeywords|
  {
    var overlap := TitleOverlap(o, a);
    var matching := MatchingKeywords(a.visualKeywords, ObjectText(o));
    var score :=
      (if ArtistMatches(o, a) then ArtistPoints else 0)
      + (if overlap >= 2 then TitlePoints else if overlap >= 1 then PartialTitlePoints else 0)
      + KeywordPoints * |matching|
      + (if o.isHighlight then HighlightPoints else 0);
    var reasons := Reasons(o, a);
    Match(score, if |reasons| > 0 then Join(reasons, " \U{2022} ") else "Visual similarity")
  }

  /** The artist test is worth exactly 50 points. */
  lemma ArtistWorth50(o: MetObject, a: VisionAnalysis)
    ensures MatchScore(o, a).score
         == MatchScore(o, a.(probableArtist := None)).score + (if ArtistMatches(o, a) then 50 else 0)
  {
  }

  /** The title is worth 30 points for two or more shared words, 15 for one. */
  lemma TitleWorth(o: MetObject, a: VisionAnalysis)
    ensures MatchScore(o, a).score
         == MatchScore(o, a.(probableTitle := None)).score
            + (if TitleOverlap(o, a) >= 2 then 30 else if TitleOverlap(o, a) == 1 then 15 else 0)
  {
  }

  /** One more keyword adds exactly 5 when it occurs in the object's text,
      and nothing otherwise. */
  lemma KeywordWorth5(o: MetObject, a: VisionAnalysis, k: string)
    ensures MatchScore(o, a.(visualKeywords := a.visualKeywords + [k])).score
         == MatchScore(o, a).score + (if Contains(ObjectText(o), ToLower(k)) then 5 else 0)
  {
    MatchingKeywordsSnoc(a.visualKeywords, k, ObjectText(o));
  }

  /** The highlight flag adds exactly 5 and no reason. */
  lemma HighlightWorth5(o: MetObject, a: VisionAnalysis)
    ensures MatchScore(o.(isHighlight := true), a).score == MatchScore(o.(isHighlight := false), a).score + 5
    ensures MatchScore(o.(isHighlight := true), a).reason == MatchScore(o.(isHighlight := false), a).reason
  {
    assert ObjectText(o.(isHighlight := true)) == ObjectText(o.(isHighlight := false));
  }

  lemma {:induction false} JoinStartsWithFirst(xs: seq<string>, sep: string)
    requires |xs| >= 1
    ensures StartsWith(Join(xs, sep), xs[0])
  {
  }

  /** The reason is "Visual similarity" exactly when no artist, title or
      keyword reason fired; otherwise it starts with the first one that did. */
  lemma VisualSimilarityExactly(o: MetObject, a: VisionAnalysis)
    ensures var r := Reasons(o, a);
            (MatchScore(o, a).reason == "Visual similarity" <==> r == [])
            && (r != [] ==> StartsWith(MatchScore(o, a).reason, r[0]))
  {
    var r := Reasons(o, a);
    if r != [] {
      JoinStartsWithFirst(r, " \U{2022} ");
      var j := MatchScore(o, a).reason;
      assert r[0][0] in {'A', 'T', 'P', 'K'};
      assert j[0] == r[0][0];
    }
  }

  // ---------------------------------------------------------------------
  // Query planning and candidate gathering

  /** The searches in order of specificity: artist and title together, the
      artist, the title, then the keywords joined by spaces. */
  function SearchQueries(a: VisionAnalysis): (q: seq<string>)
    ensures |q| <= 4
    ensures |q| == 0 <==> !TruthyOpt(a.probableArtist) && !TruthyOpt(a.probableTitle) && a.visualKeywords == []
    ensures TruthyOpt(a.probableArtist) && TruthyOpt(a.probableTitle) ==>
              |q| >= 3 && q[0] == a.probableArtist.value + " " + a.probableTitle.value
              && q[1] == a.probableArtist.value && q[2] == a.probableTitle.value
    ensures TruthyOpt(a.probableArtist) && !TruthyOpt(a.probableTitle) ==> |q| >= 1 && q[0] == a.probableArtist.value
    ensures !TruthyOpt(a.probableArtist) && TruthyOpt(a.probableTitle) ==> |q| >= 1 && q[0] == a.probableTitle.value
    ensures a.visualKeywords != [] ==> |q| >= 1 && q[|q| - 1] == Join(a.visualKeywords, " ")
    ensures |q| == (if TruthyOpt(a.probableArtist) && TruthyOpt(a.probableTitle) then 3
                    else if TruthyOpt(a.probableArtist) || TruthyOpt(a.probableTitle) then 1 else 0)
                   + (if a.visualKeywords != [] then 1 else 0)
    ensures forall k :: 0 <= k < |q| ==>
              || (TruthyOpt(a.probableArtist) && TruthyOpt(a.probableTitle)
                  && q[k] == a.probableArtist.value + " " + a.probableTitle.value)
              || (TruthyOpt(a.probableArtist) && q[k] == a.probableArtist.value)
              || (TruthyOpt(a.probableTitle) && q[k] == a.probableTitle.value)
              || (a.visualKeywords != [] && q[k] == Join(a.visualKeywords, " "))
  {
    var artist := TruthyOpt(a.probableArtist);
    var title := TruthyOpt(a.probableTitle);
    (if artist && title then [a.probableArtist.value + " " + a.probableTitle.value] else [])
    + (if artist then [a.probableArtist.value] else [])
    + (if title then [a.probableTitle.value] else [])
    + (if |a.visualKeywords| > 0 then [Join(a.visualKeywords, " ")] else [])
  }

  ghost predicate NoDup(xs: seq<int>) {
    forall i, j :: 0 <= i < j < |xs| ==> xs[i] != xs[j]
  }

  /** Adds ids to an insertion-ordered set (a JavaScript `Set`). */
  function AddAll(acc: seq<int>, ids: seq<int>): (r: seq<int>)
    requires NoDup(acc)
    ensures NoDup(r)
    ensures |acc| <= |r| && r[..|acc|] == acc
    decreases |ids|
  {
    if ids == [] then acc
    else if ids[0] in acc then AddAll(acc, ids[1..])
    else AddAll(acc + [ids[0]], ids[1..])
  }

  /** The set holds exactly what it held and what was added. */
  lemma {:induction false} AddAllMembers(acc: seq<int>, ids: seq<int>)
    requires NoDup(acc)
    ensures forall x :: x in AddAll(acc, ids) <==> x in acc || x in ids
    decreases |ids|
  {
    if ids != [] {
      assert ids == [ids[0]] + ids[1..];
      if ids[0] in acc {
        AddAllMembers(acc, ids[1..]);
      } else {
        AddAllMembers(acc + [ids[0]], ids[1..]);
      }
    }
  }

  /** Adding one id is `Set.prototype.add`: appended when new, else
      nothing changes. */
  lemma AddAllSingle(acc: seq<int>, x: int)
    requires NoDup(acc)
    ensures AddAll(acc, [x]) == if x in acc then acc else acc + [x]
  {
    assert [x][1..] == [];
  }

  /** Adding a concatenation adds its parts one after the other, so `AddAll`
      is a run of `add` calls in order: ids keep the order they were first
      seen in. */
  lemma {:induction false} AddAllConcat(acc: seq<int>, a: seq<int>, b: seq<int>)
    requires NoDup(acc)
    ensures AddAll(acc, a + b) == AddAll(AddAll(acc, a), b)
    decreases |a|
  {
    if a == [] {
      assert a + b == b;
    } else {
      assert (a + b)[0] == a[0] && (a + b)[1..] == a[1..] + b;
      if a[0] in acc {
        AddAllConcat(acc, a[1..], b);
      } else {
        AddAllConcat(acc + [a[0]], a[1..], b);
      }
    }
  }

  /** `searchMet(query)`: the first twenty hits. */
  function SearchMet(search: string -> seq<int>, query: string): (r: seq<int>)
    ensures |r| == Min(MaxSearchHits, |search(query)|) && r <= search(query)
  {
    var hits := search(query);
    hits[..Min(MaxSearchHits, |hits|)]
  }

  /** Every hit of the first `n` searches, in order. */
  function Hits(queries: seq<string>, search: string -> seq<int>, n: nat): seq<int>
    requires n <= |queries|
  {
    if n == 0 then [] else SearchMet(search, queries[0]) + Hits(queries[1..], search, n - 1)
  }

  datatype Gathered = Gathered(searches: nat, ids: seq<int>)

  lemma HitsOne(queries: seq<string>, search: string -> seq<int>)
    requires |queries| >= 1
    ensures Hits(queries, search, 1) == SearchMet(search, queries[0])
  {
    assert SearchMet(search, queries[0]) + [] == SearchMet(search, queries[0]);
  }

  /** Adding the hits of the first search and then those of the next `n`
      adds the hits of the first `n + 1`. */
  lemma HitsNext(queries: seq<string>, search: string -> seq<int>, n: nat, acc: seq<int>, ids: seq<int>)
    requires NoDup(acc) && 1 + n <= |queries|
    requires ids == AddAll(AddAll(acc, SearchMet(search, queries[0])), Hits(queries[1..], search, n))
    ensures ids == AddAll(acc, Hits(queries, search, n + 1))
  {
    AddAllConcat(acc, SearchMet(search, queries[0]), Hits(queries[1..], search, n));
  }

  /** The search loop over `queries`, leaving as soon as fifteen ids are
      collected. */
  function Gather(queries: seq<string>, search: string -> seq<int>, acc: seq<int>): (g: Gathered)
    requires NoDup(acc)
    ensures g.searches <= |queries|
    ensures g.searches < |queries| ==> |g.ids| >= EnoughCandidates
    ensures g.ids == AddAll(acc, Hits(queries, search, g.searches))
    decreases |queries|
  {
    if queries == [] then Gathered(0, acc)
    else
      var acc' := AddAll(acc, SearchMet(search, queries[0]));
      if |acc'| >= EnoughCandidates then
        HitsOne(queries, search);
        Gathered(1, acc')
      else
        var g := Gather(queries[1..], search, acc');
        HitsNext(queries, search, g.searches, acc, g.ids);
        Gathered(g.searches + 1, g.ids)
  }

  /** Every search but the last one run left fewer than fifteen ids: the loop
      stops at the first search that reaches fifteen. */
  lemma {:induction false} GatherStopsAtFirst(queries: seq<string>, search: string -> seq<int>, acc: seq<int>)
    requires NoDup(acc) && |acc| < EnoughCandidates
    ensures var g := Gather(queries, search, acc);
            g.searches >= 1 ==> |Gather(queries[..g.searches - 1], search, acc).ids| < EnoughCandidates
    decreases |queries|
  {
    var g := Gather(queries, search, acc);
    if g.searches >= 2 {
      var acc' := AddAll(acc, SearchMet(search, queries[0]));
      GatherStopsAtFirst(queries[1..], search, acc');
      assert queries[..g.searches - 1][1..] == queries[1..][..g.searches - 2];
    }
  }

  /** At most three searches run, and at most fifteen objects are fetched, in
      the order their ids were first seen; every id fetched came from one of
      those searches. */
  function CandidateIds(a: VisionAnalysis, search: string -> seq<int>): (ids: seq<int>)
    ensures |ids| <= EnoughCandidates
    ensures NoDup(ids)
    ensures var qs := SearchQueries(a)[..Min(MaxQueries, |SearchQueries(a)|)];
            var g := Gather(qs, search, []);
            && g.searches <= MaxQueries && (forall x :: x in ids ==> x in Hits(qs, search, g.searches))
            && ids <= g.ids && |ids| == Min(EnoughCandidates, |g.ids|)
  {
    var qs := SearchQueries(a);
    var g := Gather(qs[..Min(MaxQueries, |qs|)], search, []);
    var ids := g.ids[..Min(EnoughCandidates, |g.ids|)];
    AddAllMembers([], Hits(qs[..Min(MaxQueries, |qs|)], search, g.searches));
    assert forall x :: x in ids ==> x in g.ids;
    ids
  }

  // ---------------------------------------------------------------------
  // Ranking

  predicate HasImage(o: MetObject) {
    o.primaryImageSmall != "" || o.primaryImage != ""
  }

  /** The fetched objects that exist and have an image, in id order. */
  function Candidates(ids: seq<int>, fetch: int -> Option<MetObject>): (r: seq<MetObject>)
    ensures |r| <= |ids|
    ensures forall k :: 0 <= k < |r| ==> HasImage(r[k])
    ensures forall o :: o in r <==> exists j :: 0 <= j < |ids| && fetch(ids[j]) == Some(o) && HasImage(o)
    decreases |ids|
  {
    if ids == [] then []
    else
      var rest := Candidates(ids[1..], fetch);
      var o := fetch(ids[0]);
      var r := if o.Some? && HasImage(o.value) then [o.value] + rest else rest;
      forall x ensures x in r <==> exists j :: 0 <= j < |ids| && fetch(ids[j]) == Some(x) && HasImage(x) {
        ExistsCons(ids, id => fetch(id) == Some(x) && HasImage(x));
      }
      r
  }

  /** Fetching distributes over concatenation, so the candidates keep the
      order of their ids. */
  lemma {:induction false} CandidatesConcat(a: seq<int>, b: seq<int>, fetch: int -> Option<MetObject>)
    ensures Candidates(a + b, fetch) == Candidates(a, fetch) + Candidates(b, fetch)
    decreases |a|
  {
    if a == [] {
      assert a + b == b;
    } else {
      assert (a + b)[0] == a[0] && (a + b)[1..] == a[1..] + b;
      CandidatesConcat(a[1..], b, fetch);
    }
  }

  function ToResult(o: MetObject, a: VisionAnalysis): (r: SearchResult)
    requires HasImage(o)
    ensures r.primaryImageSmall != ""
    ensures r.matchScore == MatchScore(o, a).score
  {
    var m := MatchScore(o, a);
    SearchResult(o.objectID, o.title, OrNull(o.artistDisplayName), OrNull(o.objectDate), o.department,
                 OrElse(o.primaryImageSmall, o.primaryImage), m.score, m.reason)
  }

  function Score(objects: seq<MetObject>, a: VisionAnalysis): (r: seq<SearchResult>)
    requires forall k :: 0 <= k < |objects| ==> HasImage(objects[k])
    ensures |r| == |objects|
    ensures forall k :: 0 <= k < |r| ==> r[k] == ToResult(objects[k], a)
    ensures forall k :: 0 <= k < |r| ==> r[k].primaryImageSmall != ""
  {
    if objects == [] then [] else [ToResult(objects[0], a)] + Score(objects[1..], a)
  }

  ghost predicate SortedDesc<T>(s: seq<T>, key: T -> int) {
    forall i, j :: 0 <= i < j < |s| ==> key(s[i]) >= key(s[j])
  }

  /** Prepending an element no smaller than the rest keeps the order. */
  lemma ConsSorted<T>(h: T, r: seq<T>, key: T -> int)
    requires SortedDesc(r, key)
    requires forall k :: 0 <= k < |r| ==> key(h) >= key(r[k])
    ensures SortedDesc([h] + r, key)
  {
    var c := [h] + r;
    forall i, j | 0 <= i < j < |c| ensures key(c[i]) >= key(c[j]) {
      assert c[j] == r[j - 1];
      if i > 0 {
        assert c[i] == r[i - 1];
      }
    }
  }

  /** The head of a sorted sequence bounds every element of its tail. */
  lemma HeadBounds<T>(s: seq<T>, key: T -> int)
    requires SortedDesc(s, key) && s != []
    ensures forall t :: t in s[1..] ==> key(s[0]) >= key(t)
  {
    forall t | t in s[1..] ensures key(s[0]) >= key(t) {
      var m :| 0 <= m < |s[1..]| && s[1..][m] == t;
      assert s[m + 1] == t;
    }
  }

  /** The head of a sorted sequence bounds whatever is built from its tail
      and an element below it. */
  lemma HeadBoundsInsertion<T>(h: T, tail: seq<T>, x: T, rest: seq<T>, key: T -> int)
    requires SortedDesc([h] + tail, key) && key(h) > key(x)
    requires multiset(rest) == multiset(tail) + multiset{x}
    ensures forall k :: 0 <= k < |rest| ==> key(h) >= key(rest[k])
  {
    HeadBounds([h] + tail, key);
    assert ([h] + tail)[0] == h && ([h] + tail)[1..] == tail;
    forall k | 0 <= k < |rest| ensures key(h) >= key(rest[k]) {
      assert rest[k] in multiset(rest);
    }
  }

  /** An element no smaller than the head of a sorted sequence is no smaller
      than any of it. */
  lemma AboveHead<T>(x: T, s: seq<T>, key: T -> int)
    requires SortedDesc(s, key) && s != [] && key(s[0]) <= key(x)
    ensures forall k :: 0 <= k < |s| ==> key(x) >= key(s[k])
  {
  }

  /** Inserts `x` after every element with a strictly larger key, so `x`
      goes in front of the elements whose key equals its own. */
  function Insert<T>(x: T, s: seq<T>, key: T -> int): (r: seq<T>)
    requires SortedDesc(s, key)
    ensures SortedDesc(r, key)
    ensures multiset(r) == multiset(s) + multiset{x}
    ensures |r| == |s| + 1
  {
    if s == [] then [x]
    else if key(s[0]) > key(x) then
      assert s == [s[0]] + s[1..];
      assert SortedDesc(s[1..], key);
      var rest := Insert(x, s[1..], key);
      HeadBoundsInsertion(s[0], s[1..], x, rest, key);
      ConsSorted(s[0], rest, key);
      [s[0]] + rest
    else
      AboveHead(x, s, key);
      ConsSorted(x, s, key);
      [x] + s
  }

  /** A stable sort, largest key first: `s[0]` is inserted in front of the
      elements of the sorted rest that tie with it. */
  function SortDesc<T>(s: seq<T>, key: T -> int): (r: seq<T>)
    ensures SortedDesc(r, key)
    ensures multiset(r) == multiset(s)
    ensures |r| == |s|
  {
    if s == [] then []
    else
      assert s == [s[0]] + s[1..];
      Insert(s[0], SortDesc(s[1..], key), key)
  }

  /** The elements whose key is `v`, in their order in `s`. */
  function WithKey<T>(s: seq<T>, key: T -> int, v: int): (r: seq<T>)
    ensures forall k :: 0 <= k < |r| ==> key(r[k]) == v
    decreases |s|
  {
    if s == [] then [] else (if key(s[0]) == v then [s[0]] else []) + WithKey(s[1..], key, v)
  }

  /** Inserting `x` puts it first among the elements with its key and
      leaves every other key's elements as they were. */
  lemma WithKeyCons<T>(h: T, r: seq<T>, key: T -> int, v: int)
    ensures WithKey([h] + r, key, v) == (if key(h) == v then [h] else []) + WithKey(r, key, v)
  {
    assert ([h] + r)[0] == h && ([h] + r)[1..] == r;
  }

  /** Past an element with a strictly larger key, `Insert` goes on in the
      rest. */
  lemma InsertPasses<T>(x: T, s: seq<T>, key: T -> int)
    requires SortedDesc(s, key) && s != [] && key(s[0]) > key(x)
    ensures SortedDesc(s[1..], key)
    ensures Insert(x, s, key) == [s[0]] + Insert(x, s[1..], key)
  {
  }

  lemma {:induction false} InsertWithKey<T>(x: T, s: seq<T>, key: T -> int, v: int)
    requires SortedDesc(s, key)
    ensures WithKey(Insert(x, s, key), key, v) == (if key(x) == v then [x] else []) + WithKey(s, key, v)
    decreases |s|
  {
    var xs := if key(x) == v then [x] else [];
    if s == [] {
      assert Insert(x, s, key) == [x];
      assert WithKey([x], key, v) == xs by {
        assert [x][1..] == [];
      }
      assert xs + WithKey(s, key, v) == xs;
    } else if key(s[0]) > key(x) {
      InsertPasses(x, s, key);
      var rest := Insert(x, s[1..], key);
      var w := WithKey(s[1..], key, v);
      var heads := if key(s[0]) == v then [s[0]] else [];
      InsertWithKey(x, s[1..], key, v);
      assert WithKey(rest, key, v) == xs + w;
      WithKeyCons(s[0], rest, key, v);
      assert WithKey(Insert(x, s, key), key, v) == heads + (xs + w);
      WithKeyCons(s[0], s[1..], key, v);
      assert s == [s[0]] + s[1..];
      assert WithKey(s, key, v) == heads + w;
      SwapEmpty(heads, xs, w);
    } else {
      WithKeyCons(x, s, key, v);
    }
  }

  /** `SortDesc` is stable: for every key, the elements with that key appear
      in the result in the order they had in the input, as with JavaScript's
      `Array.prototype.sort`. */
  lemma {:induction false} SortDescStable<T>(s: seq<T>, key: T -> int, v: int)
    ensures WithKey(SortDesc(s, key), key, v) == WithKey(s, key, v)
    decreases |s|
  {
    if s != [] {
      SortDescStable(s[1..], key, v);
      InsertWithKey(s[0], SortDesc(s[1..], key), key, v);
    }
  }

  /** Two results with the same score stay in candidate order. */
  lemma TiesKeepOrder<T>(a: T, b: T, key: T -> int)
    requires key(a) == key(b)
    ensures SortDesc([a, b], key) == [a, b]
  {
    assert [a, b][1..] == [b];
    assert [b][1..] == [];
  }

  /** In a sequence sorted largest first, no element outside a prefix has a
      larger key than any element inside it. */
  lemma PrefixHoldsLargest<T>(s: seq<T>, key: T -> int, n: nat, d: T)
    requires SortedDesc(s, key) && n <= |s|
    requires d in multiset(s) - multiset(s[..n])
    ensures forall k :: 0 <= k < n ==> key(s[k]) >= key(d)
  {
    assert s == s[..n] + s[n..];
    assert multiset(s) == multiset(s[..n]) + multiset(s[n..]);
    assert d in multiset(s[n..]);
    var j :| 0 <= j < |s[n..]| && s[n..][j] == d;
    assert s[n + j] == d;
  }

  lemma PrefixMultiset<T>(s: seq<T>, n: nat)
    requires n <= |s|
    ensures multiset(s[..n]) <= multiset(s)
  {
    assert s == s[..n] + s[n..];
  }

  lemma ImagesKept(r: seq<SearchResult>, s: seq<SearchResult>)
    requires multiset(r) <= multiset(s)
    requires forall k :: 0 <= k < |s| ==> s[k].primaryImageSmall != ""
    ensures forall k :: 0 <= k < |r| ==> r[k].primaryImageSmall != ""
  {
    forall k | 0 <= k < |r| ensures r[k].primaryImageSmall != "" {
      assert r[k] in multiset(r);
      assert r[k] in s;
    }
  }

  function ScoreOf(r: SearchResult): int {
    r.matchScore
  }

  /** `sort((a, b) => b.matchScore - a.matchScore).slice(0, 3)` over the
      scored candidates. */
  function Rank(objects: seq<MetObject>, a: VisionAnalysis): (r: seq<SearchResult>)
    requires forall k :: 0 <= k < |objects| ==> HasImage(objects[k])
    ensures |r| == Min(MaxResults, |objects|)
    ensures SortedDesc(r, ScoreOf)
    ensures multiset(r) <= multiset(Score(objects, a))
    ensures forall k :: 0 <= k < |r| ==> r[k].primaryImageSmall != ""
  {
    var scored := Score(objects, a);
    var sorted := SortDesc(scored, ScoreOf);
    var r := sorted[..Min(MaxResults, |sorted|)];
    PrefixMultiset(sorted, |r|);
    ImagesKept(r, scored);
    r
  }

  /** Picking the elements with one key commutes with concatenation. */
  lemma {:induction false} WithKeyConcat<T>(a: seq<T>, b: seq<T>, key: T -> int, v: int)
    ensures WithKey(a + b, key, v) == WithKey(a, key, v) + WithKey(b, key, v)
    decreases |a|
  {
    if a == [] {
      assert a + b == b;
    } else {
      var heads := if key(a[0]) == v then [a[0]] else [];
      assert a + b == [a[0]] + (a[1..] + b);
      WithKeyCons(a[0], a[1..] + b, key, v);
      WithKeyConcat(a[1..], b, key, v);
      assert a == [a[0]] + a[1..];
      WithKeyCons(a[0], a[1..], key, v);
      AppendAssoc(heads, WithKey(a[1..], key, v), WithKey(b, key, v));
    }
  }

  /** The elements of a prefix with one key are a prefix of all the
      elements with that key. */
  lemma WithKeyPrefix<T>(s: seq<T>, m: nat, key: T -> int, v: int)
    requires m <= |s|
    ensures WithKey(s[..m], key, v) <= WithKey(s, key, v)
  {
    assert s == s[..m] + s[m..];
    WithKeyConcat(s[..m], s[m..], key, v);
  }

  /** When scores tie at the cut, the results kept are the first ones in
      candidate order: for every score, the kept results with that score
      are a prefix of the scored candidates with that score. */
  lemma RankKeepsFirstTies(objects: seq<MetObject>, a: VisionAnalysis, v: int)
    requires forall k :: 0 <= k < |objects| ==> HasImage(objects[k])
    ensures WithKey(Rank(objects, a), ScoreOf, v) <= WithKey(Score(objects, a), ScoreOf, v)
  {
    var scored := Score(objects, a);
    var sorted := SortDesc(scored, ScoreOf);
    assert Rank(objects, a) == sorted[..Min(MaxResults, |sorted|)];
    WithKeyPrefix(sorted, Min(MaxResults, |sorted|), ScoreOf, v);
    SortDescStable(scored, ScoreOf, v);
  }

  /** Nothing left out of the ranking outscores anything kept. */
  lemma RankKeepsBest(objects: seq<MetObject>, a: VisionAnalysis, dropped: SearchResult)
    requires forall k :: 0 <= k < |objects| ==> HasImage(objects[k])
    requires dropped in multiset(Score(objects, a)) - multiset(Rank(objects, a))
    ensures forall k :: 0 <= k < |Rank(objects, a)| ==> Rank(objects, a)[k].matchScore >= dropped.matchScore
  {
    var scored := Score(objects, a);
    var sorted := SortDesc(scored, ScoreOf);
    var r := Rank(objects, a);
    assert r == sorted[..|r|];
    assert multiset(sorted) == multiset(scored);
    PrefixHoldsLargest(sorted, ScoreOf, |r|, dropped);
    forall k | 0 <= k < |r| ensures r[k].matchScore >= dropped.matchScore {
      assert ScoreOf(sorted[k]) >= ScoreOf(dropped);
    }
  }

  // ---------------------------------------------------------------------
  // The POST handler

  datatype IdentifyRequest = IdentifyRequest(
    forwardedFor: Option<string>,
    realIp: Option<string>,
    body: Option<Option<string>>)   // None: `request.json()` throws; Some(image)

  /** What the vision call produced: it threw, or returned a reply that did
      or did not hold a readable analysis. */
  datatype VisionReply = VisionThrew | VisionReplied(parsed: Option<VisionAnalysis>)

  /** The `analysis` object of a successful reply: the vision model's
      guesses under their response names. */
  datatype AnalysisSummary = AnalysisSummary(
    probableTitle: Option<string>,
    probableArtist: Option<string>,
    keywords: seq<string>,
    period: Option<string>,
    medium: Option<string>)

  datatype IdentifyResponse =
    | RateLimited(limit: int, remaining: int, reset: int)
    | ImageRequired
    | KeyMissing
    | NotArtwork(analysis: VisionAnalysis)
    | Identified(summary: AnalysisSummary, results: seq<SearchResult>, totalCandidates: int)
    | IdentifyFailed

  function Status(r: IdentifyResponse): int {
    match r
    case RateLimited(_, _, _) => 429
    case ImageRequired => 400
    case KeyMissing => 503
    case NotArtwork(_) => 200
    case Identified(_, _, _) => 200
    case IdentifyFailed => 500
  }

  datatype Handled = Handled(response: IdentifyResponse, limiter: RateLimiter.Store)

  /** The caller's limiter check for this route. */
  function Limit(limiter: RateLimiter.Store, now: int, req: IdentifyRequest): RateLimiter.Checked {
    RateLimiter.Check(limiter, "identify:" + RateLimiter.ClientIdentifier(req.forwardedFor, req.realIp), now)
  }

  /** The request passed the limiter and carries a readable body with an
      image, and the key is configured: the vision model is called. */
  predicate Admitted(limiter: RateLimiter.Store, now: int, req: IdentifyRequest, hasApiKey: bool) {
    Limit(limiter, now, req).result.success && req.body.Some? && TruthyOpt(req.body.value) && hasApiKey
  }

  /** `POST`: rate limit, body, image, key, vision, then search and rank. */
  function Post(limiter: RateLimiter.Store, now: int, req: IdentifyRequest, hasApiKey: bool,
                vision: VisionReply, search: string -> seq<int>, fetch: int -> Option<MetObject>): (h: Handled)
    ensures h.limiter == Limit(limiter, now, req).store
    ensures var rl := Limit(limiter, now, req).result;
            !rl.success ==> h.response == RateLimited(rl.limit, rl.remaining, rl.reset)
    ensures Limit(limiter, now, req).result.success && req.body.None? ==> h.response == IdentifyFailed
    ensures Limit(limiter, now, req).result.success && req.body.Some? && !TruthyOpt(req.body.value) ==>
              h.response == ImageRequired
    ensures Limit(limiter, now, req).result.success && req.body.Some? && TruthyOpt(req.body.value) && !hasApiKey ==>
              h.response == KeyMissing
    ensures Admitted(limiter, now, req, hasApiKey) && vision.VisionThrew? ==> h.response == IdentifyFailed
    ensures Admitted(limiter, now, req, hasApiKey) && vision.VisionReplied?
            && !vision.parsed.GetOr(DefaultAnalysis).isArtwork ==>
              h.response == NotArtwork(vision.parsed.GetOr(DefaultAnalysis))
    ensures h.response.Identified? <==>
              Admitted(limiter, now, req, hasApiKey) && vision.VisionReplied? && vision.parsed.GetOr(DefaultAnalysis).isArtwork
    ensures h.response.Identified? ==>
              var analysis := vision.parsed.GetOr(DefaultAnalysis);
              var objects := Candidates(CandidateIds(analysis, search), fetch);
              && h.response.results == Rank(objects, analysis) && h.response.totalCandidates == |objects|
              && h.response.summary.probableTitle == analysis.probableTitle
              && h.response.summary.probableArtist == analysis.probableArtist
              && h.response.summary.keywords == analysis.visualKeywords
              && h.response.summary.period == analysis.artPeriod
              && h.response.summary.medium == analysis.medium
  {
    var key := "identify:" + RateLimiter.ClientIdentifier(req.forwardedFor, req.realIp);
    var checked := RateLimiter.Check(limiter, key, now);
    var rl := checked.result;
    if !rl.success then Handled(RateLimited(rl.limit, rl.remaining, rl.reset), checked.store)
    else if req.body.None? then Handled(IdentifyFailed, checked.store)
    else if !TruthyOpt(req.body.value) then Handled(ImageRequired, checked.store)
    else if !hasApiKey then Handled(KeyMissing, checked.store)
    else match vision
      case VisionThrew => Handled(IdentifyFailed, checked.store)
      case VisionReplied(parsed) =>
        var analysis := parsed.GetOr(DefaultAnalysis);
        if !analysis.isArtwork then Handled(NotArtwork(analysis), checked.store)
        else
          var objects := Candidates(CandidateIds(analysis, search), fetch);
          var summary := AnalysisSummary(analysis.probableTitle, analysis.probableArtist, analysis.visualKeywords,
                                         analysis.artPeriod, analysis.medium);
          Handled(Identified(summary, Rank(objects, analysis), |objects|), checked.store)
  }

  /** The rate limit comes first: a request turned away for a missing image
      or key has already used up one request of the caller's budget. */
  lemma RateLimitBeforeValidation(limiter: RateLimiter.Store, now: int, req: IdentifyRequest, hasApiKey: bool,
                                  vision: VisionReply, search: string -> seq<int>, fetch: int -> Option<MetObject>)
    requires Status(Post(limiter, now, req, hasApiKey, vision, search, fetch).response) in {400, 503}
    ensures var key := "identify:" + RateLimiter.ClientIdentifier(req.forwardedFor, req.realIp);
            var h := Post(limiter, now, req, hasApiKey, vision, search, fetch);
            key in h.limiter && h.limiter[key].count == RateLimiter.CurrentEntry(limiter, key, now).count + 1
            && RateLimiter.Check(limiter, key, now).result.success
  {
  }

  /** A reply the route cannot read, or one that is not about an artwork,
      yields no results. */
  lemma UnreadableIsNotArtwork(limiter: RateLimiter.Store, now: int, req: IdentifyRequest,
                               search: string -> seq<int>, fetch: int -> Option<MetObject>)
    requires RateLimiter.Check(limiter, "identify:" + RateLimiter.ClientIdentifier(req.forwardedFor, req.realIp), now).result.success
    requires req.body.Some? && TruthyOpt(req.body.value)
    ensures Post(limiter, now, req, true, VisionReplied(None), search, fetch).response == NotArtwork(DefaultAnalysis)
  {
  }

  /** Identified results have images, are best first and number at most
      three. */
  lemma ResultsShape(limiter: RateLimiter.Store, now: int, req: IdentifyRequest, hasApiKey: bool,
                     vision: VisionReply, search: string -> seq<int>, fetch: int -> Option<MetObject>)
    requires Post(limiter, now, req, hasApiKey, vision, search, fetch).response.Identified?
    ensures var r := Post(limiter, now, req, hasApiKey, vision, search, fetch).response;
            |r.results| <= 3 && |r.results| == Min(3, r.totalCandidates) && r.totalCandidates <= 15
            && SortedDesc(r.results, ScoreOf)
            && forall k :: 0 <= k < |r.results| ==> r.results[k].primaryImageSmall != ""
  {
  }
}

=== FILE: narrate_route.dfy ===
/**
  The narration route, `app/api/narrate/route.ts`: a two-tier cache (a
  process map in front of one JSON file per object) with a thirty-day
  lifetime, the artwork details handed to the language model, and the order
  of checks in `GET`. The object fetch and the model's completion are oracle
  inputs; the file tier is a map from object id to its stored record.
 */
module NarrateRoute {
  import opened Common
  import opened Text

  /** Thirty days, in ms. */
  const CacheDurationMs: int := 30 * 24 * 60 * 60 * 1000

  /** A stored narration and the instant it was stored (both tiers keep the
      same two fields that are read back). */
  datatype Stamped = Stamped(narration: string, timestamp: int)

  datatype Caches = Caches(memory: map<string, Stamped>, files: map<string, Stamped>)

  datatype Lookup = Lookup(value: Option<string>, caches: Caches)

  /** An entry is fresh while at most thirty days old: the source drops it
      only once the age strictly exceeds the duration. */
  predicate Fresh(e: Stamped, now: int) {
    now - e.timestamp <= CacheDurationMs
  }

  /** One tier's read: an expired entry is deleted and reads as missing. */
  function ReadTier(tier: map<string, Stamped>, id: string, now: int): (r: (Option<string>, map<string, Stamped>))
    ensures r.0.Some? <==> id in tier && Fresh(tier[id], now)
    ensures r.0.Some? ==> r.0.value == tier[id].narration && r.1 == tier
    ensures r.0.None? ==> r.1 == tier - {id}
  {
    if id !in tier then (None, tier)
    else if !Fresh(tier[id], now) then (None, tier - {id})
    else (Some(tier[id].narration), tier)
  }

  /** The tier holds a fresh, non-empty narration under `id`. */
  predicate Hit(tier: map<string, Stamped>, id: string, now: int) {
    id in tier && Fresh(tier[id], now) && tier[id].narration != ""
  }

  /** `getCachedNarration(objectId)`: memory first, then the file, whose hit
      is copied into memory stamped `now`; an empty narration counts as a
      miss in either tier. */
  function GetCachedNarration(c: Caches, id: string, now: int): (r: Lookup)
    ensures r.value.Some? ==> r.value.value != ""
    ensures Hit(c.memory, id, now) ==> r.value == Some(c.memory[id].narration) && r.caches == c
    ensures !Hit(c.memory, id, now) && Hit(c.files, id, now) ==>
              && r.value == Some(c.files[id].narration)
              && id in r.caches.memory && r.caches.memory[id] == Stamped(c.files[id].narration, now)
              && r.caches.files == c.files
    ensures !Hit(c.memory, id, now) && !Hit(c.files, id, now) ==> r.value.None?
    ensures r.caches.memory.Keys <= c.memory.Keys + {id} && r.caches.files.Keys <= c.files.Keys
    ensures forall k :: k != id && k in c.memory ==> k in r.caches.memory && r.caches.memory[k] == c.memory[k]
    ensures forall k :: k != id && k in c.files ==> k in r.caches.files && r.caches.files[k] == c.files[k]
  {
    var (m, memory) := ReadTier(c.memory, id, now);
    if m.Some? && m.value != "" then Lookup(m, Caches(memory, c.files))
    else
      var (f, files) := ReadTier(c.files, id, now);
      if f.Some? && f.value != "" then Lookup(f, Caches(memory[id := Stamped(f.value, now)], files))
      else Lookup(None, Caches(memory, files))
  }

  /** `cacheNarration(objectId, narration)`: writes both tiers. */
  function CacheNarration(c: Caches, id: string, narration: string, now: int): (r: Caches)
    ensures id in r.memory && r.memory[id] == Stamped(narration, now)
    ensures id in r.files && r.files[id] == Stamped(narration, now)
    ensures forall k :: k != id ==> (k in r.memory <==> k in c.memory) && (k in r.files <==> k in c.files)
    ensures forall k :: k != id && k in c.memory ==> r.memory[k] == c.memory[k]
    ensures forall k :: k != id && k in c.files ==> r.files[k] == c.files[k]
  {
    Caches(c.memory[id := Stamped(narration, now)], c.files[id := Stamped(narration, now)])
  }

  /** A cached narration reads back for thirty days, the last instant
      included. */
  lemma ReadBackWithinThirtyDays(c: Caches, id: string, narration: string, now: int, later: int)
    requires narration != ""
    requires now <= later <= now + CacheDurationMs
    ensures GetCachedNarration(CacheNarration(c, id, narration, now), id, later).value == Some(narration)
  {
  }

  /** One instant past thirty days both tiers have expired: the read misses
      and deletes both copies. */
  lemma ExpiredAfterThirtyDays(c: Caches, id: string, narration: string, now: int, later: int)
    requires later > now + CacheDurationMs
    ensures var r := GetCachedNarration(CacheNarration(c, id, narration, now), id, later);
            r.value.None? && id !in r.caches.memory && id !in r.caches.files
  {
  }

  /** The file tier survives a restart: with an empty process map, a fresh
      file hit is returned and copied into memory, so the next read is served
      from memory. */
  lemma FileHitWarmsMemory(files: map<string, Stamped>, id: string, now: int, later: int)
    requires id in files && files[id].narration != "" && Fresh(files[id], now)
    requires now <= later <= now + CacheDurationMs
    ensures var r := GetCachedNarration(Caches(map[], files), id, now);
            && r.value == Some(files[id].narration)
            && r.caches.memory == map[id := Stamped(files[id].narration, now)]
            && GetCachedNarration(r.caches, id, later).value == Some(files[id].narration)
  {
  }

  // ---------------------------------------------------------------------
  // The details given to the model

  /** The fields of a collection object the prompt reads; a missing string
      field is `""`. */
  datatype NarrObject = NarrObject(
    title: string,
    artistDisplayName: string,
    artistDisplayBio: string,
    objectDate: string,
    medium: string,
    culture: string,
    period: string,
    classification: string,
    department: string,
    isHighlight: bool)

  /** The line for a highlight piece (written in four pieces so that the
      verifier can see it holds no line break). */
  const HighlightLine := "This is a " + "highlight piece " + "in the Met's " + "collection."

  /** A candidate detail line: whether it is kept, and its text. */
  datatype DetailLine = DetailLine(present: bool, text: string)

  /** The candidate lines in their fixed order; a string field's line is kept
      when the field is non-empty (the source's `field && text` followed by
      `filter(Boolean)`). */
  function CandidateLines(o: NarrObject): seq<DetailLine> {
    [ DetailLine(o.title != "", "Title: \"" + o.title + "\""),
      DetailLine(o.artistDisplayName != "", "Artist: " + o.artistDisplayName),
      DetailLine(o.artistDisplayBio != "", "Artist Bio: " + o.artistDisplayBio),
      DetailLine(o.objectDate != "", "Date: " + o.objectDate),
      DetailLine(o.medium != "", "Medium: " + o.medium),
      DetailLine(o.culture != "", "Culture: " + o.culture),
      DetailLine(o.period != "", "Period: " + o.period),
      DetailLine(o.classification != "", "Classification: " + o.classification),
      DetailLine(o.department != "", "Department: " + o.department),
      DetailLine(o.isHighlight, HighlightLine) ]
  }

  /** The texts of the kept lines, in order. */
  function Kept(lines: seq<DetailLine>): (r: seq<string>)
    ensures |r| <= |lines|
    ensures r == [] <==> forall k :: 0 <= k < |lines| ==> !lines[k].present
    ensures forall k :: 0 <= k < |r| ==> exists j :: 0 <= j < |lines| && lines[j].present && lines[j].text == r[k]
  {
    if lines == [] then []
    else
      var rest := Kept(lines[1..]);
      assert forall k :: 0 <= k < |rest| ==> exists j :: 0 <= j < |lines| && lines[j].present && lines[j].text == rest[k] by {
        forall k | 0 <= k < |rest|
          ensures exists j :: 0 <= j < |lines| && lines[j].present && lines[j].text == rest[k]
        {
          var j :| 0 <= j < |lines[1..]| && lines[1..][j].present && lines[1..][j].text == rest[k];
          assert lines[j + 1] == lines[1..][j];
        }
      }
      if lines[0].present then [lines[0].text] + rest else rest
  }

  lemma KeptStep(lines: seq<DetailLine>)
    requires lines != []
    ensures Kept(lines) == (if lines[0].present then [lines[0].text] else []) + Kept(lines[1..])
  {
  }

  lemma KeptCons(l: DetailLine, lines: seq<DetailLine>)
    ensures Kept([l] + lines) == (if l.present then [l.text] else []) + Kept(lines)
  {
    assert ([l] + lines)[0] == l && ([l] + lines)[1..] == lines;
    KeptStep([l] + lines);
  }

  /** One line is kept exactly when it is present. */
  lemma KeptSingle(l: DetailLine)
    ensures Kept([l]) == if l.present then [l.text] else []
  {
    KeptCons(l, []);
  }

  /** `filter(Boolean)` works line by line: the lines kept from `a + b` are
      those kept from `a` followed by those kept from `b`. */
  lemma {:induction false} KeptConcat(a: seq<DetailLine>, b: seq<DetailLine>)
    ensures Kept(a + b) == Kept(a) + Kept(b)
    decreases |a|
  {
    if a == [] {
      assert a + b == b;
    } else {
      var one := if a[0].present then [a[0].text] else [];
      var ka := Kept(a[1..]);
      var kb := Kept(b);
      assert (a + b)[0] == a[0] && (a + b)[1..] == a[1..] + b;
      KeptStep(a + b);
      KeptConcat(a[1..], b);
      KeptStep(a);
      var kab := Kept(a[1..] + b);
      assert kab == ka + kb;
      assert Kept(a + b) == one + kab;
      assert Kept(a) == one + ka;
      AppendAssoc(one, ka, kb);
    }
  }

  /** The detail lines of `buildPrompt(object)`. */
  function DetailLines(o: NarrObject): seq<string> {
    Kept(CandidateLines(o))
  }

  /** The details block: the kept lines joined by line breaks. */
  function Details(o: NarrObject): string {
    Join(DetailLines(o), "\n")
  }

  /** There are no detail lines exactly when every field is empty and the
      object is not a highlight. */
  lemma NoDetailsExactly(o: NarrObject)
    ensures DetailLines(o) == [] <==>
              && o.title == "" && o.artistDisplayName == "" && o.artistDisplayBio == ""
              && o.objectDate == "" && o.medium == "" && o.culture == "" && o.period == ""
              && o.classification == "" && o.department == "" && !o.isHighlight
  {
    var c := CandidateLines(o);
    assert c[0].present == (o.title != "") && c[1].present == (o.artistDisplayName != "");
    assert c[2].present == (o.artistDisplayBio != "") && c[3].present == (o.objectDate != "");
    assert c[4].present == (o.medium != "") && c[5].present == (o.culture != "");
    assert c[6].present == (o.period != "") && c[7].present == (o.classification != "");
    assert c[8].present == (o.department != "") && c[9].present == o.isHighlight;
  }

  ghost predicate NoLineBreaks(o: NarrObject) {
    && '\n' !in o.title && '\n' !in o.artistDisplayName && '\n' !in o.artistDisplayBio
    && '\n' !in o.objectDate && '\n' !in o.medium && '\n' !in o.culture && '\n' !in o.period
    && '\n' !in o.classification && '\n' !in o.department
  }

  lemma NoBreakConcat(a: string, b: string)
    requires '\n' !in a && '\n' !in b
    ensures '\n' !in a + b
  {
    forall i | 0 <= i < |a + b| ensures (a + b)[i] != '\n' {
      if i < |a| {
        assert (a + b)[i] == a[i];
      } else {
        assert (a + b)[i] == b[i - |a|];
      }
    }
  }

  lemma HighlightLineHasNoBreak()
    ensures '\n' !in HighlightLine
  {
    NoBreakConcat("This is a ", "highlight piece ");
    NoBreakConcat("This is a " + "highlight piece ", "in the Met's ");
    NoBreakConcat("This is a " + "highlight piece " + "in the Met's ", "collection.");
  }

  lemma CandidatesHaveNoBreaks(o: NarrObject)
    requires NoLineBreaks(o)
    ensures forall j :: 0 <= j < |CandidateLines(o)| ==> '\n' !in CandidateLines(o)[j].text
  {
    NoBreakConcat("Title: \"", o.title);
    NoBreakConcat("Title: \"" + o.title, "\"");
    NoBreakConcat("Artist: ", o.artistDisplayName);
    NoBreakConcat("Artist Bio: ", o.artistDisplayBio);
    NoBreakConcat("Date: ", o.objectDate);
    NoBreakConcat("Medium: ", o.medium);
    NoBreakConcat("Culture: ", o.culture);
    NoBreakConcat("Period: ", o.period);
    NoBreakConcat("Classification: ", o.classification);
    NoBreakConcat("Department: ", o.department);
    HighlightLineHasNoBreak();
  }

  /** When no field holds a line break, the details block splits back into
      exactly its lines, so each present field can be read off its own line. */
  lemma DetailsSplitIntoLines(o: NarrObject)
    requires NoLineBreaks(o) && DetailLines(o) != []
    ensures SplitOn(Details(o), '\n') == DetailLines(o)
  {
    var lines := DetailLines(o);
    CandidatesHaveNoBreaks(o);
    forall k | 0 <= k < |lines| ensures '\n' !in lines[k] {
      var j :| 0 <= j < |CandidateLines(o)| && CandidateLines(o)[j].present && CandidateLines(o)[j].text == lines[k];
    }
    SplitJoin(lines, '\n');
  }

  // ---------------------------------------------------------------------
  // The GET handler

  /** What the completion call produced: it threw, or it returned a first
      choice whose content may be missing. */
  datatype Completion = CompletionThrew | Completed(content: Option<string>)

  datatype NarrateResponse =
    | IdRequired
    | Narration(narration: string, cached: bool)
    | KeyMissing
    | ObjectNotFound
    | GenerationFailed

  function Status(r: NarrateResponse): int {
    match r
    case IdRequired => 400
    case Narration(_, _) => 200
    case KeyMissing => 503
    case ObjectNotFound => 404
    case GenerationFailed => 500
  }

  datatype Handled = Handled(response: NarrateResponse, caches: Caches)

  /** `GET ?id=`: id, cache, key, object, then generation; a generated
      narration is trimmed, cached under the id, and returned. */
  function Get(c: Caches, id: Option<string>, now: int, hasApiKey: bool,
               obj: Option<NarrObject>, completion: Completion): (h: Handled)
    ensures !TruthyOpt(id) <==> h.response == IdRequired
    ensures !TruthyOpt(id) ==> h.caches == c
    ensures h.response.Narration? ==> h.response.narration != ""
    ensures h.response.Narration? && h.response.cached <==>
              TruthyOpt(id) && GetCachedNarration(c, id.value, now).value.Some?
    ensures h.response == KeyMissing <==>
              TruthyOpt(id) && GetCachedNarration(c, id.value, now).value.None? && !hasApiKey
    ensures h.response == ObjectNotFound <==>
              TruthyOpt(id) && GetCachedNarration(c, id.value, now).value.None? && hasApiKey && obj.None?
    ensures h.response.Narration? && !h.response.cached ==>
              var k := id.value;
              && completion.Completed? && completion.content.Some?
              && h.response.narration == Trim(completion.content.value)
              && k in h.caches.memory && h.caches.memory[k] == Stamped(h.response.narration, now)
              && k in h.caches.files && h.caches.files[k] == Stamped(h.response.narration, now)
    ensures TruthyOpt(id) && GetCachedNarration(c, id.value, now).value.None? && hasApiKey && obj.Some? ==>
              h.response == (if completion.Completed? && completion.content.Some? && Trim(completion.content.value) != ""
                             then Narration(Trim(completion.content.value), false)
                             else GenerationFailed)
    ensures TruthyOpt(id) && !(h.response.Narration? && !h.response.cached) ==>
              h.caches == GetCachedNarration(c, id.value, now).caches
  {
    if !TruthyOpt(id) then Handled(IdRequired, c)
    else
      var k := id.value;
      var cached := GetCachedNarration(c, k, now);
      if cached.value.Some? then Handled(Narration(cached.value.value, true), cached.caches)
      else if !hasApiKey then Handled(KeyMissing, cached.caches)
      else if obj.None? then Handled(ObjectNotFound, cached.caches)
      else match completion
        case CompletionThrew => Handled(GenerationFailed, cached.caches)
        case Completed(content) =>
          var text := if content.Some? then Trim(content.value) else "";
          if text == "" then Handled(GenerationFailed, cached.caches)
          else Handled(Narration(text, false), CacheNarration(cached.caches, k, text, now))
  }

  /** A cache hit needs neither the key nor the object nor the model. */
  lemma HitNeedsNothingElse(c: Caches, id: string, now: int, hasApiKey: bool,
                            obj: Option<NarrObject>, completion: Completion)
    requires id != "" && GetCachedNarration(c, id, now).value.Some?
    ensures Get(c, Some(id), now, hasApiKey, obj, completion).response
         == Narration(GetCachedNarration(c, id, now).value.value, true)
  {
  }

  /** Generation is cached: the same request repeated within thirty days of
      a generation is
      answered from the cache with the same narration, whatever the key,
      object and model do the second time. */
  lemma GenerationIsCached(c: Caches, id: string, now: int, obj: NarrObject, content: string,
                           later: int, hasApiKey2: bool, obj2: Option<NarrObject>, completion2: Completion)
    requires id != "" && GetCachedNarration(c, id, now).value.None?
    requires Trim(content) != ""
    requires now <= later <= now + CacheDurationMs
    ensures var first := Get(c, Some(id), now, true, Some(obj), Completed(Some(content)));
            && first.response == Narration(Trim(content), false)
            && Get(first.caches, Some(id), later, hasApiKey2, obj2, completion2).response
               == Narration(Trim(content), true)
  {
    var first := Get(c, Some(id), now, true, Some(obj), Completed(Some(content)));
    assert first.caches.memory[id] == Stamped(Trim(content), now);
    assert Hit(first.caches.memory, id, later);
  }

  /** A completion that trims to nothing is a failure and caches nothing
      under the id. */
  lemma BlankCompletionNotCached(c: Caches, id: string, now: int, obj: NarrObject, content: string)
    requires id != "" && GetCachedNarration(c, id, now).value.None?
    requires Trim(content) == ""
    ensures var h := Get(c, Some(id), now, true, Some(obj), Completed(Some(content)));
            h.response == GenerationFailed && h.caches == GetCachedNarration(c, id, now).caches
  {
  }
}

=== FILE: prefetch.dfy ===
/**
  The background warm-up of `lib/prefetch-audio.ts`. A call either returns
  at once (the id is being or has been prefetched) or marks the id in flight,
  asks the narration route, then, with the narration it got, the TTS route,
  and finally clears the in-flight mark. The two responses are oracle inputs.
 */
module PrefetchAudio {
  import opened Common

  datatype Tracking = Tracking(prefetching: set<int>, prefetched: set<int>)

  /** What the narration request produced: a thrown fetch or unreadable body,
      or a response with its status and the `narration` field (`""` when
      missing). */
  datatype NarrationFetch = NarrationThrew | NarrationResponse(status: int, narration: string)

  /** What the TTS request produced. */
  datatype TtsFetch = TtsThrew | TtsResponse(status: int)

  /** The requests a call sends, in order. */
  datatype Request = NarrateRequest(objectId: int) | TtsRequest(objectId: int, text: string)

  datatype PrefetchError = NarrationStatus(status: int) | NoNarration | Thrown

  datatype PrefetchResult = PrefetchResult(
    objectId: int,
    narration: Option<string>,
    audioCached: Option<bool>,
    error: Option<PrefetchError>)

  datatype Outcome = Outcome(result: PrefetchResult, tracking: Tracking, requests: seq<Request>)

  predicate Ok(status: int) {
    200 <= status <= 299
  }

  /** The synchronous first half: skip, or mark the id in flight. */
  function Begin(t: Tracking, id: int): (r: Option<Tracking>)
    ensures id in t.prefetching || id in t.prefetched <==> r.None?
    ensures r.Some? ==> r.value == Tracking(t.prefetching + {id}, t.prefetched)
  {
    if id in t.prefetching || id in t.prefetched then None
    else Some(Tracking(t.prefetching + {id}, t.prefetched))
  }

  /** The asynchronous second half, from the narration response on; the
      `finally` clause removes the id from the in-flight set. */
  function Finish(t: Tracking, id: int, narr: NarrationFetch, tts: TtsFetch): Outcome {
    var done := t.prefetching - {id};
    match narr
    case NarrationThrew =>
      Outcome(PrefetchResult(id, None, None, Some(Thrown)), Tracking(done, t.prefetched), [NarrateRequest(id)])
    case NarrationResponse(status, narration) =>
      if !Ok(status) then
        Outcome(PrefetchResult(id, None, None, Some(NarrationStatus(status))), Tracking(done, t.prefetched),
                [NarrateRequest(id)])
      else if narration == "" then
        Outcome(PrefetchResult(id, None, None, Some(NoNarration)), Tracking(done, t.prefetched),
                [NarrateRequest(id)])
      else
        var sent := [NarrateRequest(id), TtsRequest(id, narration)];
        match tts
        case TtsThrew =>
          Outcome(PrefetchResult(id, None, None, Some(Thrown)), Tracking(done, t.prefetched), sent)
        case TtsResponse(ttsStatus) =>
          Outcome(PrefetchResult(id, Some(narration), Some(Ok(ttsStatus)), None),
                  Tracking(done, t.prefetched + {id}), sent)
  }

  /** `prefetchAudioGuide(objectId)` run to completion with no other call
      interleaved. */
  function Prefetch(t: Tracking, id: int, narr: NarrationFetch, tts: TtsFetch): (o: Outcome)
    ensures (id in t.prefetching || id in t.prefetched) ==>
              o == Outcome(PrefetchResult(id, None, Some(true), None), t, [])
    ensures !(id in t.prefetching || id in t.prefetched) ==>
              && id !in o.tracking.prefetching
              && |o.requests| >= 1 && o.requests[0] == NarrateRequest(id)
    ensures forall x :: x != id ==>
              (x in o.tracking.prefetching <==> x in t.prefetching)
              && (x in o.tracking.prefetched <==> x in t.prefetched)
    ensures Begin(t, id).Some? && NarrationSucceeded(narr) && tts.TtsResponse? ==>
              o.result == PrefetchResult(id, Some(narr.narration), Some(Ok(tts.status)), None)
    ensures Begin(t, id).Some? && NarrationSucceeded(narr) && tts.TtsThrew? ==>
              o.result == PrefetchResult(id, None, None, Some(Thrown))
    ensures Begin(t, id).Some? && narr.NarrationThrew? ==>
              o.result == PrefetchResult(id, None, None, Some(Thrown))
    ensures Begin(t, id).Some? && narr.NarrationResponse? && !Ok(narr.status) ==>
              o.result == PrefetchResult(id, None, None, Some(NarrationStatus(narr.status)))
    ensures Begin(t, id).Some? && narr.NarrationResponse? && Ok(narr.status) && narr.narration == "" ==>
              o.result == PrefetchResult(id, None, None, Some(NoNarration))
  {
    match Begin(t, id)
    case None => Outcome(PrefetchResult(id, None, Some(true), None), t, [])
    case Some(started) => Finish(started, id, narr, tts)
  }

  /** A narration that came back ok and non-empty. */
  predicate NarrationSucceeded(narr: NarrationFetch) {
    narr.NarrationResponse? && Ok(narr.status) && narr.narration != ""
  }

  /** The id becomes prefetched exactly when the narration succeeded and the
      TTS request returned a response, ok or not; a TTS request that throws
      lands in the `catch` and leaves the id unmarked. */
  lemma PrefetchedExactly(t: Tracking, id: int, narr: NarrationFetch, tts: TtsFetch)
    requires id !in t.prefetching && id !in t.prefetched
    ensures var o := Prefetch(t, id, narr, tts);
            id in o.tracking.prefetched <==> NarrationSucceeded(narr) && tts.TtsResponse?
  {
  }

  /** TTS is asked only after a successful narration, and with exactly that
      narration text. */
  lemma TtsFollowsNarration(t: Tracking, id: int, narr: NarrationFetch, tts: TtsFetch)
    ensures var o := Prefetch(t, id, narr, tts);
            forall k :: 0 <= k < |o.requests| && o.requests[k].TtsRequest? ==>
              k == 1 && NarrationSucceeded(narr) && o.requests[k] == TtsRequest(id, narr.narration)
  {
  }

  /** A failed narration reports an error, no narration, and leaves the
      prefetched set alone. */
  lemma NarrationFailureReported(t: Tracking, id: int, narr: NarrationFetch, tts: TtsFetch)
    requires id !in t.prefetching && id !in t.prefetched
    requires !NarrationSucceeded(narr)
    ensures var o := Prefetch(t, id, narr, tts);
            o.result.error.Some? && o.result.narration.None? && o.tracking.prefetched == t.prefetched
            && o.requests == [NarrateRequest(id)]
  {
  }

  /** A second call for an id whose first call is still in flight sends
      nothing and changes nothing. */
  lemma SecondCallWhileInFlight(t: Tracking, id: int, narr: NarrationFetch, tts: TtsFetch)
    requires Begin(t, id).Some?
    ensures var during := Begin(t, id).value;
            Prefetch(during, id, narr, tts).requests == []
            && Prefetch(during, id, narr, tts).tracking == during
  {
  }

  /** `isAudioGuidePrefetched(objectId)`. */
  function IsPrefetched(t: Tracking, id: int): bool {
    id in t.prefetched
  }

  /** `clearPrefetchTracking()`. */
  function Clear(t: Tracking): (c: Tracking)
    ensures c.prefetching == {} && c.prefetched == {}
  {
    Tracking({}, {})
  }

  /** After clearing, every id is prefetched afresh: the next call sends the
      narration request. */
  lemma ClearForgets(t: Tracking, id: int, narr: NarrationFetch, tts: TtsFetch)
    ensures !IsPrefetched(Clear(t), id)
    ensures Prefetch(Clear(t), id, narr, tts).requests[0] == NarrateRequest(id)
  {
  }
}

=== FILE: rate_limiter.dfy ===
/**
  The in-memory fixed-window rate limiter of `lib/rate-limiter.ts`: each
  identifier owns a counter and the instant its window ends; ten requests are
  allowed per sixty-second window. Time is the caller's `now`, in ms.
 */
module RateLimiter {
  import opened Common
  import opened Text

  const WindowMs: int := 60 * 1000
  const MaxRequests: int := 10

  datatype Entry = Entry(count: int, resetTime: int)

  /** The process-wide store, identifier to entry. */
  type Store = map<string, Entry>

  datatype LimitResult = LimitResult(success: bool, limit: int, remaining: int, reset: int)

  datatype Checked = Checked(result: LimitResult, store: Store)

  /** The entry a call at `now` starts from: the stored one while its window
      is open, otherwise a fresh window ending at `now + WindowMs`. */
  function CurrentEntry(store: Store, id: string, now: int): (e: Entry)
    ensures id in store && now < store[id].resetTime ==> e == store[id]
    ensures !(id in store && now < store[id].resetTime) ==> e == Entry(0, now + WindowMs)
  {
    if id !in store || now >= store[id].resetTime then Entry(0, now + WindowMs) else store[id]
  }

  /** `checkRateLimit(identifier)`: counts the call (rejected calls are
      counted too) and reports whether it is within the limit. */
  function Check(store: Store, id: string, now: int): (c: Checked)
    ensures id in c.store && c.store[id].count == CurrentEntry(store, id, now).count + 1
    ensures c.store[id].resetTime == CurrentEntry(store, id, now).resetTime
    ensures c.result.success <==> c.store[id].count <= MaxRequests
    ensures c.result.limit == MaxRequests
    ensures c.result.remaining == Max(0, MaxRequests - c.store[id].count)
    ensures c.result.reset == c.store[id].resetTime
    ensures c.store.Keys == store.Keys + {id}
    ensures forall k :: k in store && k != id ==> c.store[k] == store[k]
  {
    var e := CurrentEntry(store, id, now);
    var e' := e.(count := e.count + 1);
    var remaining := Max(0, MaxRequests - e'.count);
    Checked(LimitResult(e'.count <= MaxRequests, MaxRequests, remaining, e'.resetTime), store[id := e'])
  }

  /** Counts are positive and windows are at most one window long. */
  ghost predicate Valid(store: Store, now: int) {
    forall k :: k in store ==> store[k].count >= 1 && store[k].resetTime <= now + WindowMs
  }

  lemma CheckPreservesValid(store: Store, id: string, now: int, later: int)
    requires Valid(store, now) && now <= later
    ensures Valid(Check(store, id, later).store, later)
  {
  }

  /** The first call for an unseen identifier opens a window and leaves nine
      requests. */
  lemma FirstCall(store: Store, id: string, now: int)
    requires id !in store
    ensures Check(store, id, now).result == LimitResult(true, 10, 9, now + 60000)
  {
  }

  /** Once the window has ended the count restarts at one. */
  lemma WindowRestarts(store: Store, id: string, now: int)
    requires id in store && now >= store[id].resetTime
    ensures Check(store, id, now).store[id] == Entry(1, now + WindowMs)
    ensures Check(store, id, now).result.success
  {
  }

  /** Two calls inside one window: the reset instant is fixed, the count grows
      by one and `remaining` never grows. */
  lemma SameWindow(store: Store, id: string, t1: int, t2: int)
    requires t1 <= t2
    requires t2 < Check(store, id, t1).store[id].resetTime
    ensures var c1 := Check(store, id, t1);
            var c2 := Check(c1.store, id, t2);
            && c2.result.reset == c1.result.reset
            && c2.store[id].count == c1.store[id].count + 1
            && 0 <= c2.result.remaining <= c1.result.remaining
  {
  }

  /** Applies `Check` for one identifier at each instant of `times`. */
  function CheckAll(store: Store, id: string, times: seq<int>): (r: Checked)
    requires |times| >= 1
    ensures r.store.Keys == store.Keys + {id}
    decreases |times|
  {
    var c := Check(store, id, times[0]);
    if |times| == 1 then c else CheckAll(c.store, id, times[1..])
  }

  /** A burst inside one window: after the `n`-th call the count is `n`, and
      the `n`-th call succeeds exactly when `n <= 10`; the window end set by the
      first call does not move. */
  lemma {:induction false} Burst(store: Store, id: string, times: seq<int>)
    requires |times| >= 1
    requires id !in store || times[0] >= store[id].resetTime
    requires forall i :: 0 <= i < |times| ==> times[0] <= times[i] < times[0] + WindowMs
    ensures CheckAll(store, id, times).store[id] == Entry(|times|, times[0] + WindowMs)
    ensures CheckAll(store, id, times).result.success <==> |times| <= MaxRequests
    ensures CheckAll(store, id, times).result.remaining == Max(0, MaxRequests - |times|)
    decreases |times|
  {
    if |times| > 1 {
      var c := Check(store, id, times[0]);
      BurstFrom(c.store, id, times[1..], times[0] + WindowMs, 1);
    }
  }

  lemma {:induction false} BurstFrom(store: Store, id: string, times: seq<int>, reset: int, n: int)
    requires |times| >= 1
    requires id in store && store[id] == Entry(n, reset)
    requires forall i :: 0 <= i < |times| ==> times[i] < reset
    ensures CheckAll(store, id, times).store[id] == Entry(n + |times|, reset)
    ensures CheckAll(store, id, times).result.success <==> n + |times| <= MaxRequests
    ensures CheckAll(store, id, times).result.remaining == Max(0, MaxRequests - (n + |times|))
    decreases |times|
  {
    if |times| > 1 {
      var c := Check(store, id, times[0]);
      assert forall i :: 0 <= i < |times[1..]| ==> times[1..][i] < reset by {
        forall i | 0 <= i < |times[1..]| ensures times[1..][i] < reset {
          assert times[1..][i] == times[i + 1];
        }
      }
      BurstFrom(c.store, id, times[1..], reset, n + 1);
    }
  }

  /** `getClientIdentifier`: the first comma-separated entry of
      `x-forwarded-for`, trimmed; else `x-real-ip`; else `"unknown"`. */
  function ClientIdentifier(forwardedFor: Option<string>, realIp: Option<string>): (id: string)
    ensures TruthyOpt(forwardedFor) ==> id == Trim(SplitOn(forwardedFor.value, ',')[0])
    ensures !TruthyOpt(forwardedFor) && TruthyOpt(realIp) ==> id == realIp.value
    ensures !TruthyOpt(forwardedFor) && !TruthyOpt(realIp) ==> id == "unknown"
  {
    if TruthyOpt(forwardedFor) then Trim(SplitOn(forwardedFor.value, ',')[0])
    else if TruthyOpt(realIp) then realIp.value
    else "unknown"
  }

  /** The forwarded entry never carries a comma or surrounding whitespace. */
  lemma ClientIdentifierShape(forwardedFor: Option<string>, realIp: Option<string>)
    requires TruthyOpt(forwardedFor)
    ensures var id := ClientIdentifier(forwardedFor, realIp);
            && ',' !in id
            && (id == "" || (!IsSpace(id[0]) && !IsSpace(id[|id| - 1])))
  {
    var parts := SplitOn(forwardedFor.value, ',');
    var id := Trim(parts[0]);
    assert ',' !in parts[0];
    ContainsAbsent(parts[0], id, ',');
    assert ClientIdentifier(forwardedFor, realIp) == id;
  }

  /** `cleanupExpiredEntries()`: drops every entry whose window has ended. */
  function Cleanup(store: Store, now: int): (s: Store)
    ensures forall k :: k in s <==> k in store && now < store[k].resetTime
    ensures forall k :: k in s ==> s[k] == store[k]
  {
    map k | k in store && now < store[k].resetTime :: store[k]
  }

  /** Cleaning up never changes what a later call observes, for any
      identifier. */
  lemma CleanupUnobservable(store: Store, now: int, later: int, id: string)
    requires now <= later
    ensures Check(Cleanup(store, now), id, later).result == Check(store, id, later).result
    ensures Check(Cleanup(store, now), id, later).store[id] == Check(store, id, later).store[id]
  {
    assert CurrentEntry(Cleanup(store, now), id, later) == CurrentEntry(store, id, later);
  }

  /** The route keys `"identify:" + client` and `"tts:" + client` never
      collide, so the two routes keep separate budgets. */
  lemma RouteKeysDisjoint(a: string, b: string)
    ensures "identify:" + a != "tts:" + b
  {
    assert ("identify:" + a)[0] == 'i';
    assert ("tts:" + b)[0] == 't';
  }
}

=== FILE: redis_cache.dfy ===
/**
  The in-process fallback of `lib/redis.ts`: the path taken when Redis is not
  configured, and also when a Redis call throws. Entries carry an absolute
  expiry in ms; a read at or after it misses and deletes the entry.
  Narration and audio use the key spaces `narration:` and `audio:`; audio is
  kept as base 64 text.
 */
module RedisCache {
  import opened Common
  import Base64

  /** Thirty days, in seconds: the default time to live. */
  const CacheDurationSeconds: int := 30 * 24 * 60 * 60

  datatype MemEntry = MemEntry(value: string, expiry: int)

  type Cache = map<string, MemEntry>

  datatype Read<T> = Read(value: Option<T>, cache: Cache)

  /** An entry is live strictly before its expiry. */
  predicate Live(e: MemEntry, now: int) {
    now < e.expiry
  }

  /** `getCached(key)` on the memory path. */
  function Get(cache: Cache, key: string, now: int): (r: Read<string>)
    ensures r.value.Some? <==> key in cache && Live(cache[key], now)
    ensures r.value.Some? ==> r.value.value == cache[key].value && r.cache == cache
    ensures r.value.None? ==> r.cache.Keys == cache.Keys - {key}
    ensures forall k :: k in r.cache ==> r.cache[k] == cache[k]
  {
    if key in cache && Live(cache[key], now) then Read(Some(cache[key].value), cache)
    else Read(None, cache - {key})
  }

  /** `setCached(key, value, ttlSeconds)` on the memory path. */
  function Set(cache: Cache, key: string, value: string, ttlSeconds: int, now: int): (c: Cache)
    ensures c.Keys == cache.Keys + {key}
    ensures c[key] == MemEntry(value, now + ttlSeconds * 1000)
    ensures forall k :: k in cache && k != key ==> c[k] == cache[k]
  {
    cache[key := MemEntry(value, now + ttlSeconds * 1000)]
  }

  /** Read-after-write: a read at the instant of a write with a positive TTL
      returns the written value. */
  lemma GetAfterSet(cache: Cache, key: string, value: string, ttlSeconds: int, now: int)
    requires ttlSeconds > 0
    ensures Get(Set(cache, key, value, ttlSeconds, now), key, now).value == Some(value)
  {
  }

  /** A write with the default TTL is readable until, and not at, thirty days
      later. */
  lemma DefaultTtlWindow(cache: Cache, key: string, value: string, now: int, later: int)
    requires now <= later
    ensures var c := Set(cache, key, value, CacheDurationSeconds, now);
            Get(c, key, later).value == (if later < now + 2592000000 then Some(value) else None)
  {
  }

  /** Writing one key changes no read of another key. */
  lemma SetFrames(cache: Cache, key: string, value: string, ttlSeconds: int, now: int, other: string, t: int)
    requires other != key
    ensures Get(Set(cache, key, value, ttlSeconds, now), other, t).value == Get(cache, other, t).value
  {
  }

  function NarrationKey(objectId: string): string {
    "narration:" + objectId
  }

  function AudioKey(objectId: string): string {
    "audio:" + objectId
  }

  /** The two key spaces never meet. */
  lemma KeySpacesDisjoint(a: string, b: string)
    ensures NarrationKey(a) != AudioKey(b)
  {
    assert NarrationKey(a)[0] == 'n';
    assert AudioKey(b)[0] == 'a';
  }

  /** `getCachedNarration(objectId)`. */
  function GetCachedNarration(cache: Cache, objectId: string, now: int): (r: Read<string>)
    ensures r.value.Some? <==> NarrationKey(objectId) in cache && Live(cache[NarrationKey(objectId)], now)
    ensures r.value.Some? ==> r.value.value == cache[NarrationKey(objectId)].value && r.cache == cache
    ensures r.value.None? ==> r.cache == cache - {NarrationKey(objectId)}
  {
    Get(cache, NarrationKey(objectId), now)
  }

  /** `cacheNarration(objectId, narration)` with the default TTL. */
  function CacheNarration(cache: Cache, objectId: string, narration: string, now: int): (c: Cache)
    ensures c.Keys == cache.Keys + {NarrationKey(objectId)}
    ensures c[NarrationKey(objectId)] == MemEntry(narration, now + 2592000000)
    ensures forall k :: k in cache && k != NarrationKey(objectId) ==> c[k] == cache[k]
  {
    Set(cache, NarrationKey(objectId), narration, CacheDurationSeconds, now)
  }

  /** `getCachedAudio(objectId)`: an absent or empty stored string is a miss
      (the source tests the string for truthiness); otherwise the string is
      decoded from base 64. */
  function GetCachedAudio(cache: Cache, objectId: string, now: int): (r: Read<seq<Byte>>)
    ensures r.cache == Get(cache, AudioKey(objectId), now).cache
    ensures r.value.Some? ==>
              var key := AudioKey(objectId);
              && key in cache && Live(cache[key], now) && cache[key].value != ""
              && r.value == Base64.Decode(cache[key].value)
    ensures !(AudioKey(objectId) in cache && Live(cache[AudioKey(objectId)], now)) ==> r.value.None?
  {
    var g := Get(cache, AudioKey(objectId), now);
    if g.value.Some? && g.value.value != "" then
      Read(Base64.Decode(g.value.value), g.cache)
    else Read(None, g.cache)
  }

  /** `cacheAudio(objectId, bytes)`: stores the base 64 text. */
  function CacheAudio(cache: Cache, objectId: string, audio: seq<Byte>, now: int): (c: Cache)
    ensures c.Keys == cache.Keys + {AudioKey(objectId)}
    ensures c[AudioKey(objectId)] == MemEntry(Base64.Encode(audio), now + 2592000000)
    ensures forall k :: k in cache && k != AudioKey(objectId) ==> c[k] == cache[k]
  {
    Set(cache, AudioKey(objectId), Base64.Encode(audio), CacheDurationSeconds, now)
  }

  /** Audio read back within its lifetime is byte-for-byte what was stored,
      except that empty audio encodes to the empty string and so reads back
      as a miss. */
  lemma AudioRoundTrip(cache: Cache, objectId: string, audio: seq<Byte>, now: int, later: int)
    requires now <= later < now + CacheDurationSeconds * 1000
    ensures var r := GetCachedAudio(CacheAudio(cache, objectId, audio, now), objectId, later);
            r.value == (if audio == [] then None else Some(audio))
  {
    Base64.DecodeEncode(audio);
  }

  /** Caching audio never disturbs the narration of the same object, and
      vice versa. */
  lemma NarrationAndAudioIndependent(cache: Cache, objectId: string, narration: string, audio: seq<Byte>, now: int, t: int)
    ensures GetCachedNarration(CacheAudio(cache, objectId, audio, now), objectId, t).value
         == GetCachedNarration(cache, objectId, t).value
    ensures GetCachedAudio(CacheNarration(cache, objectId, narration, now), objectId, t).value
         == GetCachedAudio(cache, objectId, t).value
  {
    KeySpacesDisjoint(objectId, objectId);
  }

  /** `cleanupMemoryCache()`: drops exactly the entries at or past expiry. */
  function Cleanup(cache: Cache, now: int): (c: Cache)
    ensures forall k :: k in c <==> k in cache && Live(cache[k], now)
    ensures forall k :: k in c ==> c[k] == cache[k]
  {
    map k | k in cache && Live(cache[k], now) :: cache[k]
  }

  /** Cleanup is unobservable: no read at or after the cleanup instant sees a
      difference. */
  lemma CleanupUnobservable(cache: Cache, now: int, later: int, key: string)
    requires now <= later
    ensures Get(Cleanup(cache, now), key, later).value == Get(cache, key, later).value
  {
  }
}

=== FILE: service_worker.dfy ===
/**
  The service worker, `public/sw.js`: which requests it intercepts and with
  which strategy, the pruning of old caches on activation, and the three
  strategies cache-first, network-first and stale-while-revalidate.

  The browser's cache storage is a sequence of named caches in creation
  order (`caches.match` answers from the first cache holding the URL); each
  cache maps a request URL to a response. The network is an oracle: the
  outcome `fetch(request)` would have, consulted only when the strategy
  calls it, and the `fetched` flag of an outcome says whether it did. The
  background update of stale-while-revalidate is modelled as having
  completed.
 */
module ServiceWorker {
  import opened Common
  import opened Text

  const CacheName: string := "met-guide-v1"
  const StaticCache: string := "met-guide-static-v1"

  datatype Request = Request(verb: string, url: string, protocol: string)

  datatype Response = Response(status: int, body: string, contentType: Option<string>)

  /** `response.ok`. */
  predicate Ok(r: Response) {
    200 <= r.status <= 299
  }

  /** `new Response('Offline', { status: 503 })`. */
  const OfflineText: Response := Response(503, "Offline", None)

  /** The JSON body `{"error":"Offline"}` of network-first. */
  const OfflineJson: Response := Response(503, "{\"error\":\"Offline\"}", Some("application/json"))

  datatype Fetch = NetworkError | Received(response: Response)

  datatype NamedCache = NamedCache(name: string, entries: map<string, Response>)

  type Storage = seq<NamedCache>

  // ---------------------------------------------------------------------
  // Classification

  datatype Strategy = CacheFirst | NetworkFirst | StaleWhileRevalidate

  /** Only GET requests over http(s) are intercepted. */
  predicate Intercepted(req: Request) {
    req.verb == "GET" && StartsWith(req.protocol, "http")
  }

  /** `CACHE_FIRST_PATTERNS`: Met images, and the speech route. */
  predicate CacheFirstUrl(url: string) {
    StartsWith(url, "https://images.metmuseum.org") || Contains(url, "/api/tts?")
  }

  /** `NETWORK_FIRST_PATTERNS`: object, narration and tour data. */
  predicate NetworkFirstUrl(url: string) {
    Contains(url, "/api/object/") || Contains(url, "/api/narrate?") || Contains(url, "/api/tours")
  }

  /** The fetch listener's choice; `None` leaves the request to the
      browser. */
  function Classify(req: Request): (r: Option<Strategy>)
    ensures r.None? <==> !Intercepted(req)
    ensures r == Some(CacheFirst) <==> Intercepted(req) && CacheFirstUrl(req.url)
    ensures r == Some(NetworkFirst) <==> Intercepted(req) && !CacheFirstUrl(req.url) && NetworkFirstUrl(req.url)
    ensures r == Some(StaleWhileRevalidate) <==>
              Intercepted(req) && !CacheFirstUrl(req.url) && !NetworkFirstUrl(req.url)
  {
    if req.verb != "GET" then None
    else if !StartsWith(req.protocol, "http") then None
    else if CacheFirstUrl(req.url) then Some(CacheFirst)
    else if NetworkFirstUrl(req.url) then Some(NetworkFirst)
    else Some(StaleWhileRevalidate)
  }

  /** The speech URL of an object wins over the tours pattern it also
      contains: the cache-first test runs first. */
  lemma ClassifySpeechBeforeTours()
    ensures Classify(Request("GET", "https://m.io/api/tts?text=/api/tours", "https:"))
         == Some(CacheFirst)
  {
    var url := "https://m.io/api/tts?text=/api/tours";
    assert StartsWith(url[12..], "/api/tts?");
  }

  /** Tour data goes network-first. */
  lemma ClassifyTourData()
    ensures Classify(Request("GET", "https://m.io/api/tours", "https:")) == Some(NetworkFirst)
  {
    var url := "https://m.io/api/tours";
    assert StartsWith(url[12..], "/api/tours");
    assert url[8] != "https://images.metmuseum.org"[8];
    TourUrlIsNotSpeech();
  }

  /** The tour-data URL of the example does not contain the speech
      pattern. */
  lemma TourUrlIsNotSpeech()
    ensures !Contains("https://m.io/api/tours", "/api/tts?")
  {
    var url := "https://m.io/api/tours";
    assert forall i :: 0 <= i < |url| - 6 && url[i] == '/' && url[i + 1] == 'a' ==> url[i + 6] != 't';
    NotContainedAt(url, "/api/tts?", 6);
  }

  /** A page goes stale-while-revalidate, and other methods and schemes are
      left to the browser. */
  lemma ClassifyPagesAndOthers()
    ensures Classify(Request("GET", "https://m.io/scan", "https:")) == Some(StaleWhileRevalidate)
    ensures Classify(Request("POST", "https://m.io/api/tours", "https:")).None?
    ensures Classify(Request("GET", "chrome-extension://m/api/tours", "chrome-extension:")).None?
  {
    var url := "https://m.io/scan";
    assert forall i :: 0 <= i < |url| - 1 && url[i] == '/' ==> url[i + 1] != 'a';
    NoSlashA(url, "/api/object/");
    NoSlashA(url, "/api/narrate?");
    NoSlashA(url, "/api/tours");
    NoSlashA(url, "/api/tts?");
    assert url[8] != "https://images.metmuseum.org"[8];
    assert "chrome-extension:"[0] != "http"[0];
  }

  /** `s` does not contain `sub` when every place where `sub`'s first two
      characters occur differs from it at offset `k`. */
  lemma NotContainedAt(s: string, sub: string, k: nat)
    requires 1 <= k < |sub|
    requires forall i :: 0 <= i < |s| - k && s[i] == sub[0] && s[i + 1] == sub[1] ==> s[i + k] != sub[k]
    ensures !Contains(s, sub)
  {
    forall i | 0 <= i <= |s| - |sub| ensures !StartsWith(s[i..], sub) {
      assert s[i..][0] == s[i] && s[i..][1] == s[i + 1] && s[i..][k] == s[i + k];
    }
  }

  /** A string in which no slash is followed by `a` contains no pattern
      that starts with `/a`. */
  lemma NoSlashA(s: string, sub: string)
    requires 2 <= |sub| && sub[0] == '/' && sub[1] == 'a'
    requires forall i :: 0 <= i < |s| - 1 && s[i] == '/' ==> s[i + 1] != 'a'
    ensures !Contains(s, sub)
  {
    forall i | 0 <= i <= |s| - |sub| ensures !StartsWith(s[i..], sub) {
      assert s[i..][0] == s[i] && s[i..][1] == s[i + 1];
    }
  }

  // ---------------------------------------------------------------------
  // Cache storage

  /** `caches.match(request)`: the entry of the first cache, in creation
      order, that holds the URL. */
  function Match(s: Storage, url: string): (r: Option<Response>)
    ensures r.None? <==> forall k :: 0 <= k < |s| ==> url !in s[k].entries
    ensures r.Some? ==> exists k :: 0 <= k < |s| && url in s[k].entries && s[k].entries[url] == r.value
                          && forall j :: 0 <= j < k ==> url !in s[j].entries
  {
    if s == [] then None
    else if url in s[0].entries then Some(s[0].entries[url])
    else
      var r := Match(s[1..], url);
      if r.Some? then
        var k :| 0 <= k < |s[1..]| && url in s[1..][k].entries && s[1..][k].entries[url] == r.value
                 && forall j :: 0 <= j < k ==> url !in s[1..][j].entries;
        assert s[k + 1] == s[1..][k];
        assert forall j :: 0 <= j < k + 1 ==> url !in s[j].entries by {
          forall j | 0 < j < k + 1 ensures url !in s[j].entries {
            assert s[j] == s[1..][j - 1];
          }
        }
        r
      else
        assert forall k :: 0 <= k < |s| ==> url !in s[k].entries by {
          forall k | 0 < k < |s| ensures url !in s[k].entries {
            assert s[k] == s[1..][k - 1];
          }
        }
        r
  }

  /** The position of the cache `caches.open(name)` opens: the first one
      with that name, or `|s|` when there is none. */
  function FirstNamed(s: Storage, name: string): (i: nat)
    ensures i <= |s|
    ensures i < |s| ==> s[i].name == name
    ensures forall j :: 0 <= j < i ==> s[j].name != name
  {
    if s == [] then 0
    else if s[0].name == name then 0
    else
      var i := 1 + FirstNamed(s[1..], name);
      assert forall j :: 0 < j < i ==> s[j] == s[1..][j - 1];
      i
  }

  /** `caches.open(name)` followed by `cache.put(request, response)`: the
      named cache is created at the end when missing, and only its entry for
      `url` changes. */
  function Put(s: Storage, name: string, url: string, resp: Response): (r: Storage)
    ensures |r| == |s| || (|r| == |s| + 1 && r[|s|] == NamedCache(name, map[url := resp]))
    ensures forall k :: 0 <= k < |s| ==> r[k].name == s[k].name
    ensures forall k :: 0 <= k < |s| && s[k].name != name ==> r[k] == s[k]
    ensures |r| == |s| <==> FirstNamed(s, name) < |s|
    ensures FirstNamed(s, name) < |s| ==>
              r[FirstNamed(s, name)].entries == s[FirstNamed(s, name)].entries[url := resp]
  {
    if s == [] then [NamedCache(name, map[url := resp])]
    else if s[0].name == name then [NamedCache(name, s[0].entries[url := resp])] + s[1..]
    else
      var rest := Put(s[1..], name, url, resp);
      assert FirstNamed(s, name) == 1 + FirstNamed(s[1..], name);
      [s[0]] + rest
  }

  /** Only the first cache with the name is written: any later cache with
      the same name is left as it was. */
  lemma {:induction false} PutLeavesLaterCaches(s: Storage, name: string, url: string, resp: Response, k: int)
    requires FirstNamed(s, name) < k < |s|
    ensures Put(s, name, url, resp)[k] == s[k]
  {
    var tail := s[1..];
    if s[0].name == name {
      assert Put(s, name, url, resp) == [NamedCache(name, s[0].entries[url := resp])] + tail;
      assert s[k] == tail[k - 1];
    } else {
      assert FirstNamed(s, name) == 1 + FirstNamed(tail, name);
      PutLeavesLaterCaches(tail, name, url, resp, k - 1);
      assert Put(s, name, url, resp) == [s[0]] + Put(tail, name, url, resp);
      assert s[k] == tail[k - 1];
    }
  }

  /** Storing a URL that no cache held makes every later match return the
      stored response. */
  lemma {:induction false} PutThenMatch(s: Storage, name: string, url: string, resp: Response)
    requires Match(s, url).None?
    ensures Match(Put(s, name, url, resp), url) == Some(resp)
  {
    if s != [] && s[0].name != name {
      assert url !in s[0].entries;
      PutThenMatch(s[1..], name, url, resp);
    }
  }

  /** The first cache, in creation order, that holds the URL is named
      `name`: the copy `caches.match` answers with lives there. */
  predicate HeldFirstIn(s: Storage, url: string, name: string) {
    s != [] && if url in s[0].entries then s[0].name == name else HeldFirstIn(s[1..], url, name)
  }

  /** Storing a URL into the cache that already answers for it replaces
      the answer: every later match returns the newly stored response. */
  lemma {:induction false} PutThenMatchHeld(s: Storage, name: string, url: string, resp: Response)
    requires HeldFirstIn(s, url, name)
    ensures Match(Put(s, name, url, resp), url) == Some(resp)
  {
    if s[0].name != name {
      assert url !in s[0].entries;
      PutThenMatchHeld(s[1..], name, url, resp);
    }
  }

  /** Storing one URL leaves the match of every other URL unchanged. */
  lemma {:induction false} PutOtherUrl(s: Storage, name: string, url: string, resp: Response, other: string)
    requires other != url
    ensures Match(Put(s, name, url, resp), other) == Match(s, other)
  {
    if s != [] && s[0].name != name {
      PutOtherUrl(s[1..], name, url, resp, other);
      assert Put(s, name, url, resp)[1..] == Put(s[1..], name, url, resp);
    }
  }

  /** The browser keys its cache storage by name, so no two caches share
      one; `Storage` admits duplicates, and this is the invariant the
      operations keep. */
  predicate UniqueNames(s: Storage) {
    forall i, j :: 0 <= i < j < |s| ==> s[i].name != s[j].name
  }

  /** `caches.open` plus `put` keeps the names unique. */
  lemma PutKeepsUniqueNames(s: Storage, name: string, url: string, resp: Response)
    requires UniqueNames(s)
    ensures UniqueNames(Put(s, name, url, resp))
  {
    var r := Put(s, name, url, resp);
    forall i, j | 0 <= i < j < |r| ensures r[i].name != r[j].name {
      if j == |s| {
        assert FirstNamed(s, name) == |s|;
        assert s[i].name != name;
      }
    }
  }

  // ---------------------------------------------------------------------
  // Activation

  predicate KeptName(name: string) {
    name == CacheName || name == StaticCache
  }

  /** The `activate` handler: every cache whose name is neither of the two
      current ones is deleted; the rest keep their order and contents. */
  function Activate(s: Storage): (r: Storage)
    ensures forall c :: c in r ==> c in s && KeptName(c.name)
    ensures forall c :: c in s && KeptName(c.name) ==> c in r
    ensures |r| <= |s|
  {
    if s == [] then []
    else if KeptName(s[0].name) then [s[0]] + Activate(s[1..])
    else Activate(s[1..])
  }

  /** The names `activate` deletes, in the order `caches.keys()` lists
      them. */
  function DeletedNames(s: Storage): (d: seq<string>)
    ensures forall n :: n in d ==> !KeptName(n)
    ensures forall k :: 0 <= k < |s| && !KeptName(s[k].name) ==> s[k].name in d
    ensures |d| + |Activate(s)| == |s|
  {
    if s == [] then []
    else if KeptName(s[0].name) then DeletedNames(s[1..])
    else [s[0].name] + DeletedNames(s[1..])
  }

  /** Deleting caches keeps the names of the rest unique. */
  lemma {:induction false} ActivateKeepsUniqueNames(s: Storage)
    requires UniqueNames(s)
    ensures UniqueNames(Activate(s))
  {
    if s != [] {
      assert UniqueNames(s[1..]) by {
        forall i, j | 0 <= i < j < |s[1..]| ensures s[1..][i].name != s[1..][j].name {
          assert s[1..][i] == s[i + 1] && s[1..][j] == s[j + 1];
        }
      }
      ActivateKeepsUniqueNames(s[1..]);
      if KeptName(s[0].name) {
        var r := Activate(s);
        forall i, j | 0 <= i < j < |r| ensures r[i].name != r[j].name {
          assert r[j] == Activate(s[1..])[j - 1];
          if i == 0 {
            assert r[j] in s[1..];
          }
        }
      }
    }
  }

  /** Activating twice deletes nothing more: a second activation is the
      identity. */
  lemma {:induction false} ActivateIdempotent(s: Storage)
    ensures Activate(Activate(s)) == Activate(s)
    ensures DeletedNames(Activate(s)) == []
  {
    if s != [] {
      ActivateIdempotent(s[1..]);
      if KeptName(s[0].name) {
        assert Activate(s)[1..] == Activate(s[1..]);
      }
    }
  }

  /** A match against a cache that survives activation is unaffected by
      it. */
  lemma {:induction false} ActivateKeepsCurrentMatches(s: Storage, url: string)
    requires forall k :: 0 <= k < |s| && url in s[k].entries ==> KeptName(s[k].name)
    ensures Match(Activate(s), url) == Match(s, url)
  {
    if s != [] {
      ActivateKeepsCurrentMatches(s[1..], url);
      if KeptName(s[0].name) {
        assert Activate(s)[1..] == Activate(s[1..]);
      }
    }
  }

  // ---------------------------------------------------------------------
  // Strategies

  datatype Outcome = Outcome(response: Response, storage: Storage, fetched: bool)

  /** `cacheFirst(request)`. */
  function CacheFirstFetch(s: Storage, url: string, net: Fetch): (o: Outcome)
    ensures Match(s, url).Some? ==> o == Outcome(Match(s, url).value, s, false)
    ensures Match(s, url).None? ==> o.fetched
    ensures Match(s, url).None? && net.NetworkError? ==> o.response == OfflineText && o.storage == s
    ensures Match(s, url).None? && net.Received? ==> o.response == net.response
    ensures o.storage != s ==> net.Received? && Ok(net.response)
  {
    match Match(s, url)
    case Some(cached) => Outcome(cached, s, false)
    case None =>
      match net
      case NetworkError => Outcome(OfflineText, s, true)
      case Received(resp) =>
        Outcome(resp, if Ok(resp) then Put(s, CacheName, url, resp) else s, true)
  }

  /** `networkFirst(request)`. */
  function NetworkFirstFetch(s: Storage, url: string, net: Fetch): (o: Outcome)
    ensures o.fetched
    ensures net.Received? ==> o.response == net.response
    ensures net.Received? && !Ok(net.response) ==> o.storage == s
    ensures net.NetworkError? ==> o.storage == s && o.response == Match(s, url).GetOr(OfflineJson)
    ensures o.storage != s ==> net.Received? && Ok(net.response)
  {
    match net
    case Received(resp) => Outcome(resp, if Ok(resp) then Put(s, CacheName, url, resp) else s, true)
    case NetworkError => Outcome(Match(s, url).GetOr(OfflineJson), s, true)
  }

  /** `staleWhileRevalidate(request)`, with its background update done. */
  function StaleFetch(s: Storage, url: string, net: Fetch): (o: Outcome)
    ensures o.fetched
    ensures Match(s, url).Some? ==> o.response == Match(s, url).value
    ensures Match(s, url).None? && net.Received? ==> o.response == net.response
    ensures Match(s, url).None? && net.NetworkError? ==> o.response == OfflineText
    ensures o.storage != s ==> net.Received? && Ok(net.response)
  {
    var cached := Match(s, url);
    var storage := if net.Received? && Ok(net.response) then Put(s, StaticCache, url, net.response) else s;
    var response :=
      if cached.Some? then cached.value
      else if net.Received? then net.response
      else OfflineText;
    Outcome(response, storage, true)
  }

  /** The fetch listener: classify, then run the chosen strategy. */
  function Handle(s: Storage, req: Request, net: Fetch): (o: Option<Outcome>)
    ensures o.None? <==> !Intercepted(req)
    ensures o.Some? && !o.value.fetched ==> Classify(req) == Some(CacheFirst)
    ensures o.Some? && o.value.storage != s ==> net.Received? && Ok(net.response)
    ensures Classify(req) == Some(CacheFirst) ==> o == Some(CacheFirstFetch(s, req.url, net))
    ensures Classify(req) == Some(NetworkFirst) ==> o == Some(NetworkFirstFetch(s, req.url, net))
    ensures Classify(req) == Some(StaleWhileRevalidate) ==> o == Some(StaleFetch(s, req.url, net))
  {
    match Classify(req)
    case None => None
    case Some(CacheFirst) => Some(CacheFirstFetch(s, req.url, net))
    case Some(NetworkFirst) => Some(NetworkFirstFetch(s, req.url, net))
    case Some(StaleWhileRevalidate) => Some(StaleFetch(s, req.url, net))
  }

  /** Cache-first, read after write: an ok response fetched on a miss is
      served to the next request for the URL without touching the network,
      whatever the network would say then. */
  lemma CacheFirstServesStored(s: Storage, url: string, resp: Response, net2: Fetch)
    requires Match(s, url).None? && Ok(resp)
    ensures var first := CacheFirstFetch(s, url, Received(resp));
            CacheFirstFetch(first.storage, url, net2) == Outcome(resp, first.storage, false)
  {
    PutThenMatch(s, CacheName, url, resp);
  }

  /** Cache-first never stores an error page: a response that is not ok is
      fetched again next time. */
  lemma CacheFirstRefetchesErrors(s: Storage, url: string, resp: Response, net2: Fetch)
    requires Match(s, url).None? && !Ok(resp)
    ensures var first := CacheFirstFetch(s, url, Received(resp));
            first.response == resp && CacheFirstFetch(first.storage, url, net2).fetched
  {
  }

  /** Network-first, offline after online: the copy stored by a good
      response is what the same URL returns once the network fails, whether
      the URL was new or its older copy sat in the runtime cache. */
  lemma NetworkFirstFallsBackToStored(s: Storage, url: string, resp: Response)
    requires Match(s, url).None? || HeldFirstIn(s, url, CacheName)
    requires Ok(resp)
    ensures var first := NetworkFirstFetch(s, url, Received(resp));
            NetworkFirstFetch(first.storage, url, NetworkError).response == resp
  {
    if Match(s, url).None? {
      PutThenMatch(s, CacheName, url, resp);
    } else {
      PutThenMatchHeld(s, CacheName, url, resp);
    }
  }

  /** Network-first with no copy and no network gives the JSON 503, and a
      good response stored for one URL does not answer for another. */
  lemma NetworkFirstOfflineWithoutCopy(s: Storage, url: string, resp: Response, other: string)
    requires Match(s, other).None? && other != url
    ensures var first := NetworkFirstFetch(s, url, Received(resp));
            NetworkFirstFetch(first.storage, other, NetworkError).response == OfflineJson
  {
    if Ok(resp) {
      PutOtherUrl(s, CacheName, url, resp, other);
    }
  }

  /** Stale-while-revalidate answers from the cache whenever it can, and a
      good response it revalidated with is what it answers with next: a
      new URL gets the network's answer twice, and a URL whose copy sat in
      the static cache gets the old copy once and then the new one. */
  lemma StaleServesThenRefreshes(s: Storage, url: string, resp: Response, net2: Fetch)
    requires Match(s, url).None? || HeldFirstIn(s, url, StaticCache)
    requires Ok(resp)
    ensures var first := StaleFetch(s, url, Received(resp));
            && first.response == Match(s, url).GetOr(resp)
            && StaleFetch(first.storage, url, net2).response == resp
  {
    if Match(s, url).None? {
      PutThenMatch(s, StaticCache, url, resp);
    } else {
      PutThenMatchHeld(s, StaticCache, url, resp);
    }
  }
}

=== FILE: text.dfy ===
/**
  String operations the source takes from JavaScript's standard library:
  `trim`, ASCII `toLowerCase`, `startsWith`, `includes`, `join`, and the two
  `split` forms the code uses (on a single character and on `/\s+/`).
 */
module Text {

  /** Whitespace as JavaScript's `trim` and `\s` see it, restricted to the
      ASCII controls, the space, the no-break space and the byte-order mark. */
  predicate IsSpace(c: char) {
    c == ' ' || c == '\t' || c == '\n' || c == '\r' || c == '\U{000B}' || c == '\U{000C}'
    || c == '\U{00A0}' || c == '\U{FEFF}'
  }

  predicate AllSpace(s: string) {
    forall i :: 0 <= i < |s| ==> IsSpace(s[i])
  }

  predicate NoSpace(s: string) {
    forall i :: 0 <= i < |s| ==> !IsSpace(s[i])
  }

  /** `s.startsWith(p)`. */
  predicate StartsWith(s: string, p: string) {
    p <= s
  }

  /** `s.includes(sub)`: `sub` occurs at some offset of `s`. */
  predicate Contains(s: string, sub: string) {
    exists i :: 0 <= i <= |s| - |sub| && StartsWith(s[i..], sub)
  }

  lemma ContainsPrefix(s: string, p: string)
    requires StartsWith(s, p)
    ensures Contains(s, p)
  {
    assert s[0..] == s;
  }

  /** A character absent from a string is absent from every substring. */
  lemma ContainsAbsent(s: string, sub: string, c: char)
    requires Contains(s, sub) && c !in s
    ensures c !in sub
  {
    var i :| 0 <= i <= |s| - |sub| && StartsWith(s[i..], sub);
    forall j | 0 <= j < |sub| ensures sub[j] != c {
      assert sub[j] == s[i + j];
    }
  }

  lemma ContainsEmpty(s: string)
    ensures Contains(s, "")
  {
    assert StartsWith(s[0..], "");
  }

  /** Drops leading whitespace. */
  function TrimStart(s: string): (r: string)
    ensures |r| <= |s| && r == s[|s| - |r|..]
    ensures AllSpace(s[..|s| - |r|])
    ensures r == "" || !IsSpace(r[0])
  {
    if |s| > 0 && IsSpace(s[0]) then TrimStart(s[1..]) else s
  }

  /** Drops trailing whitespace. */
  function TrimEnd(s: string): (r: string)
    ensures |r| <= |s| && r == s[..|r|]
    ensures AllSpace(s[|r|..])
    ensures r == "" || !IsSpace(r[|r| - 1])
  {
    if |s| > 0 && IsSpace(s[|s| - 1]) then
      var r := TrimEnd(s[..|s| - 1]);
      assert s[|r|..] == s[..|s| - 1][|r|..] + [s[|s| - 1]];
      r
    else s
  }

  /** `s.trim()`: the longest infix with no whitespace at either end. */
  function Trim(s: string): (r: string)
    ensures r == "" || (!IsSpace(r[0]) && !IsSpace(r[|r| - 1]))
    ensures r == "" <==> AllSpace(s)
    ensures Contains(s, r)
  {
    var t := TrimStart(s);
    var r := TrimEnd(t);
    assert StartsWith(s[|s| - |t|..], r);
    if r == "" then
      assert t == "" by { assert AllSpace(t[0..]); }
      assert s[..|s| - |t|] == s;
      r
    else
      assert !IsSpace(r[0]) by { assert r[0] == t[0]; }
      r
  }

  /** ASCII `toLowerCase` of one character. */
  function LowerChar(c: char): char {
    if 'A' <= c <= 'Z' then (c as int + 32) as char else c
  }

  /** ASCII `toLowerCase`. */
  function ToLower(s: string): (r: string)
    ensures |r| == |s|
    ensures forall i :: 0 <= i < |s| ==> r[i] == LowerChar(s[i])
  {
    if s == "" then "" else [LowerChar(s[0])] + ToLower(s[1..])
  }

  /** `xs.join(sep)`. */
  function Join(xs: seq<string>, sep: string): string {
    if |xs| == 0 then ""
    else if |xs| == 1 then xs[0]
    else xs[0] + sep + Join(xs[1..], sep)
  }

  /** Index of the first occurrence of `c`, or `|s|` when there is none. */
  function IndexOf(s: string, c: char): (i: nat)
    ensures i <= |s|
    ensures forall k :: 0 <= k < i ==> s[k] != c
    ensures i < |s| ==> s[i] == c
  {
    if s == [] then 0
    else if s[0] == c then 0
    else 1 + IndexOf(s[1..], c)
  }

  /** `s.split(c)` for a one-character separator. */
  function SplitOn(s: string, c: char): (r: seq<string>)
    ensures |r| >= 1
    ensures forall k :: 0 <= k < |r| ==> c !in r[k]
    decreases |s|
  {
    var i := IndexOf(s, c);
    if i == |s| then [s] else [s[..i]] + SplitOn(s[i + 1..], c)
  }

  /** Splitting a join recovers the parts, provided no part holds the
      separator. */
  lemma {:induction false} SplitJoin(xs: seq<string>, c: char)
    requires |xs| >= 1
    requires forall k :: 0 <= k < |xs| ==> c !in xs[k]
    ensures SplitOn(Join(xs, [c]), c) == xs
    decreases |xs|
  {
    if |xs| == 1 {
      assert IndexOf(xs[0], c) == |xs[0]|;
    } else {
      var s := Join(xs, [c]);
      var tail := Join(xs[1..], [c]);
      assert s == xs[0] + [c] + tail;
      assert IndexOf(s, c) == |xs[0]| by {
        assert s[|xs[0]|] == c;
        forall k | 0 <= k < |xs[0]| ensures s[k] != c {
          assert s[k] == xs[0][k];
        }
        IndexOfFirst(s, c, |xs[0]|);
      }
      assert s[..|xs[0]|] == xs[0];
      assert s[|xs[0]| + 1..] == tail;
      SplitJoin(xs[1..], c);
    }
  }

  lemma IndexOfFirst(s: string, c: char, i: nat)
    requires i < |s| && s[i] == c
    requires forall k :: 0 <= k < i ==> s[k] != c
    ensures IndexOf(s, c) == i
  {
  }

  /** Index of the first whitespace character, or `|s|` when there is none. */
  function IndexOfSpace(s: string): (i: nat)
    ensures i <= |s|
    ensures NoSpace(s[..i])
    ensures i < |s| ==> IsSpace(s[i])
  {
    if s == [] then 0
    else if IsSpace(s[0]) then 0
    else
      var j := IndexOfSpace(s[1..]);
      assert s[..1 + j] == [s[0]] + s[1..][..j];
      1 + j
  }

  /** Index of the first non-whitespace character at or after `i`. */
  function SkipSpace(s: string, i: nat): (j: nat)
    requires i <= |s|
    ensures i <= j <= |s|
    ensures AllSpace(s[i..j])
    ensures j < |s| ==> !IsSpace(s[j])
    decreases |s| - i
  {
    if i < |s| && IsSpace(s[i]) then
      var j := SkipSpace(s, i + 1);
      assert s[i..j] == [s[i]] + s[i + 1..j];
      j
    else i
  }

  /** `s.split(/\s+/)`: the pieces between maximal runs of whitespace. A
      leading or trailing run yields an empty first or last piece, and the
      empty string yields one empty piece, as in JavaScript. */
  function SplitWs(s: string): (r: seq<string>)
    ensures |r| >= 1
    ensures forall k :: 0 <= k < |r| ==> NoSpace(r[k])
    decreases |s|
  {
    var i := IndexOfSpace(s);
    if i == |s| then
      assert s[..i] == s;
      [s]
    else
      var j := SkipSpace(s, i);
      [s[..i]] + SplitWs(s[j..])
  }
}

=== FILE: tour_data.dfy ===
/**
  The shape of `data/tours.json`, written by `scripts/generate-tours.ts` and
  served by `app/api/tours/route.ts`. A JSON `null` is `None`.
 */
module TourData {
  import opened Common

  datatype TourObject = TourObject(
    objectID: int,
    title: string,
    artistDisplayName: Option<string>,
    artistDisplayBio: Option<string>,
    objectDate: Option<string>,
    department: string,
    primaryImageSmall: string,
    isHighlight: bool)

  datatype Tour = Tour(
    id: string,
    name: string,
    description: string,
    icon: string,
    objectCount: int,
    objects: seq<TourObject>)

  datatype ToursData = ToursData(generatedAt: string, tours: seq<Tour>)
}

=== FILE: tour_generator.dfy ===
/**
  The offline tour generator, `scripts/generate-tours.ts`: the retry policy of
  its fetches, the validity filter and transform of collection objects, the
  highlights and per-department tours, and the final assembly. Every fetch
  is an oracle input; the delays the script sleeps are returned as data.
 */
module TourGenerator {
  import opened Common
  import opened Text
  import opened Decimal
  import opened TourData

  const MaxObjectsPerDepartment: int := 30
  const MinObjectsPerTour: int := 5
  const LibrariesDepartment: nat := 16
  const DefaultRetries: int := 3

  // ---------------------------------------------------------------------
  // fetchWithRetry

  /** What one `fetch` did: it threw, or answered with a status. */
  datatype Attempt = NetworkError | Answered(status: int)

  datatype FetchError = HttpError(status: int) | NetworkFailure | MaxRetriesReached

  datatype Outcome = Response(status: int) | Failed(error: FetchError)

  /** The outcome, the number of attempts made, and the delays slept, in
      ms and in order. */
  datatype Fetched = Fetched(outcome: Outcome, attempts: nat, delays: seq<int>)

  predicate Ok(status: int) {
    200 <= status <= 299
  }

  /** The retry policy from attempt `i` on: an ok answer is returned; a 429
      sleeps `(i + 1) * 2000` ms and moves on; any other answer or a network
      error is thrown on the last attempt and otherwise sleeps 1000 ms; when
      the attempts run out the error is "Max retries reached". */
  function Retry(attempt: nat -> Attempt, retries: int, i: nat): (f: Fetched)
    ensures i < retries ==> i < f.attempts <= retries
    ensures i >= retries ==> f == Fetched(Failed(MaxRetriesReached), i, [])
    ensures f.outcome.Response? ==> Ok(f.outcome.status) && attempt(f.attempts - 1) == Answered(f.outcome.status)
    ensures forall j :: i <= j < f.attempts - 1 ==> !(attempt(j).Answered? && Ok(attempt(j).status))
    decreases retries - i
  {
    if i >= retries then Fetched(Failed(MaxRetriesReached), i, [])
    else
      match attempt(i)
      case Answered(status) =>
        if Ok(status) then Fetched(Response(status), i + 1, [])
        else if status == 429 then
          var rest := Retry(attempt, retries, i + 1);
          rest.(delays := [(i + 1) * 2000] + rest.delays)
        else if i == retries - 1 then Fetched(Failed(HttpError(status)), i + 1, [])
        else
          var rest := Retry(attempt, retries, i + 1);
          rest.(delays := [1000] + rest.delays)
      case NetworkError =>
        if i == retries - 1 then Fetched(Failed(NetworkFailure), i + 1, [])
        else
          var rest := Retry(attempt, retries, i + 1);
          rest.(delays := [1000] + rest.delays)
  }

  /** `fetchWithRetry(url, retries)`, with attempt `i`'s result given by
      `attempt(i)`. */
  method FetchWithRetry(attempt: nat -> Attempt, retries: int) returns (f: Fetched)
    ensures f == Retry(attempt, retries, 0)
  {
    var i: nat := 0;
    var delays: seq<int> := [];
    ghost var whole := Retry(attempt, retries, 0);
    while i < retries
      invariant i <= retries || i == 0
      invariant whole.outcome == Retry(attempt, retries, i).outcome
      invariant whole.attempts == Retry(attempt, retries, i).attempts
      invariant whole.delays == delays + Retry(attempt, retries, i).delays
      decreases retries - i
    {
      RetryStep(attempt, retries, i, delays);
      assert delays + [] == delays;
      match attempt(i) {
        case Answered(status) =>
          if Ok(status) {
            return Fetched(Response(status), i + 1, delays);
          }
          if status == 429 {
            delays := delays + [(i + 1) * 2000];
            i := i + 1;
            continue;
          }
          if i == retries - 1 {
            return Fetched(Failed(HttpError(status)), i + 1, delays);
          }
          delays := delays + [1000];
        case NetworkError =>
          if i == retries - 1 {
            return Fetched(Failed(NetworkFailure), i + 1, delays);
          }
          delays := delays + [1000];
      }
      i := i + 1;
    }
    return Fetched(Failed(MaxRetriesReached), i, delays);
  }

  /** The sleeps between attempts: one after every attempt that does not end
      the loop, so one fewer than the attempts unless the attempts ran out. */
  lemma {:induction false} RetryDelayCount(attempt: nat -> Attempt, retries: int, i: nat)
    ensures var f := Retry(attempt, retries, i);
            |f.delays| == f.attempts - i - (if f.outcome == Failed(MaxRetriesReached) then 0 else 1)
    decreases retries - i
  {
    if i < retries {
      RetryDelayCount(attempt, retries, i + 1);
    }
  }

  /** The sleep after a failed attempt `j`: `(j + 1) * 2000` ms after a 429,
      1000 ms after any other failure. */
  function DelayAfter(a: Attempt, j: nat): int {
    if a == Answered(429) then (j + 1) * 2000 else 1000
  }

  /** The sleep after attempt `i + k` is `(i + k + 1) * 2000` ms after a 429
      and 1000 ms after any other failure. */
  lemma {:induction false} RetryDelays(attempt: nat -> Attempt, retries: int, i: nat)
    ensures forall k :: 0 <= k < |Retry(attempt, retries, i).delays| ==>
              Retry(attempt, retries, i).delays[k] == DelayAfter(attempt(i + k), i + k)
    decreases retries - i
  {
    if i < retries {
      var f := Retry(attempt, retries, i);
      var rest := Retry(attempt, retries, i + 1);
      RetryDelays(attempt, retries, i + 1);
      var ok := attempt(i).Answered? && Ok(attempt(i).status);
      if !ok && (attempt(i) == Answered(429) || i < retries - 1) {
        assert f.delays == [DelayAfter(attempt(i), i)] + rest.delays;
        forall k | 1 <= k < |f.delays|
          ensures f.delays[k] == DelayAfter(attempt(i + k), i + k)
        {
          var j := k - 1;
          assert f.delays[k] == rest.delays[j];
          assert rest.delays[j] == DelayAfter(attempt(i + 1 + j), i + 1 + j);
          assert i + 1 + j == i + k;
        }
      }
    }
  }

  /** One unfolding of `Retry`, with the delays so far in front. */
  lemma RetryStep(attempt: nat -> Attempt, retries: int, i: nat, delays: seq<int>)
    requires i < retries
    ensures var f := Retry(attempt, retries, i);
            var next := Retry(attempt, retries, i + 1);
            match attempt(i)
            case Answered(status) =>
              if Ok(status) then f == Fetched(Response(status), i + 1, [])
              else if status == 429 then
                f.outcome == next.outcome && f.attempts == next.attempts
                && delays + f.delays == (delays + [(i + 1) * 2000]) + next.delays
              else if i == retries - 1 then f == Fetched(Failed(HttpError(status)), i + 1, [])
              else
                f.outcome == next.outcome && f.attempts == next.attempts
                && delays + f.delays == (delays + [1000]) + next.delays
            case NetworkError =>
              if i == retries - 1 then f == Fetched(Failed(NetworkFailure), i + 1, [])
              else
                f.outcome == next.outcome && f.attempts == next.attempts
                && delays + f.delays == (delays + [1000]) + next.delays
  {
  }

  /** The first ok answer among the allowed attempts is returned; if there is
      none the fetch fails. */
  lemma {:induction false} RetryFindsFirstOk(attempt: nat -> Attempt, retries: int, i: nat)
    ensures var f := Retry(attempt, retries, i);
            f.outcome.Response? <==> exists j :: i <= j < retries && attempt(j).Answered? && Ok(attempt(j).status)
    decreases retries - i
  {
    if i < retries {
      RetryFindsFirstOk(attempt, retries, i + 1);
      var f := Retry(attempt, retries, i);
      if attempt(i).Answered? && Ok(attempt(i).status) {
      } else if attempt(i).Answered? && attempt(i).status == 429 {
      } else if i == retries - 1 {
        assert !(exists j :: i <= j < retries && attempt(j).Answered? && Ok(attempt(j).status));
      }
    }
  }

  /** "Max retries reached" is reported exactly when the last allowed attempt
      was answered with 429, or no attempt was allowed at all. */
  lemma {:induction false} MaxRetriesOnlyAfter429(attempt: nat -> Attempt, retries: int, i: nat)
    ensures Retry(attempt, retries, i).outcome == Failed(MaxRetriesReached) <==>
              (i >= retries || (attempt(retries - 1) == Answered(429)
                                && forall j :: i <= j < retries - 1 ==> !(attempt(j).Answered? && Ok(attempt(j).status))))
    decreases retries - i
  {
    if i < retries {
      MaxRetriesOnlyAfter429(attempt, retries, i + 1);
    }
  }

  // ---------------------------------------------------------------------
  // Objects

  /** The fields of a collection object the generator reads; a missing
      string field is `""`. */
  datatype MetObject = MetObject(
    objectID: int,
    title: string,
    artistDisplayName: string,
    artistDisplayBio: string,
    objectDate: string,
    department: string,
    primaryImage: string,
    primaryImageSmall: string,
    isHighlight: bool)

  /** `isValidTourObject(obj)`: an object without an image, without a
      title that has a non-blank character, or without a department is
      rejected; any other is accepted. */
  function IsValidTourObject(o: MetObject): (b: bool)
    ensures o.primaryImageSmall == "" && o.primaryImage == "" ==> !b
    ensures Trim(o.title) == "" ==> !b
    ensures o.department == "" ==> !b
    ensures b ==> !AllSpace(o.title)
    ensures (o.primaryImageSmall != "" || o.primaryImage != "") && Trim(o.title) != "" && o.department != "" ==> b
  {
    (o.primaryImageSmall != "" || o.primaryImage != "") && Trim(o.title) != "" && o.department != ""
  }

  /** A valid object never has a blank title, so its transform has a
      non-empty title and image. */
  lemma ValidHasTitleAndImage(o: MetObject)
    requires IsValidTourObject(o)
    ensures Transform(o).title != "" && !AllSpace(Transform(o).title)
    ensures Transform(o).primaryImageSmall != ""
  {
  }

  /** `transformToTourObject(obj)`. */
  function Transform(o: MetObject): (t: TourObject)
    ensures t.objectID == o.objectID && t.title == o.title && t.department == o.department
    ensures t.isHighlight == o.isHighlight
    ensures t.artistDisplayName.None? <==> o.artistDisplayName == ""
    ensures t.artistDisplayBio.None? <==> o.artistDisplayBio == ""
    ensures t.objectDate.None? <==> o.objectDate == ""
    ensures o.artistDisplayName != "" ==> t.artistDisplayName == Some(o.artistDisplayName)
    ensures o.artistDisplayBio != "" ==> t.artistDisplayBio == Some(o.artistDisplayBio)
    ensures o.objectDate != "" ==> t.objectDate == Some(o.objectDate)
    ensures t.primaryImageSmall == (if o.primaryImageSmall != "" then o.primaryImageSmall else o.primaryImage)
  {
    TourObject(o.objectID, o.title, OrNull(o.artistDisplayName), OrNull(o.artistDisplayBio),
               OrNull(o.objectDate), o.department, OrElse(o.primaryImageSmall, o.primaryImage), o.isHighlight)
  }

  /** The objects a tour keeps from `ids`, in id order: those fetched and
      valid, transformed. */
  function Collect(ids: seq<int>, fetch: int -> Option<MetObject>): (r: seq<TourObject>)
    ensures |r| <= |ids|
  {
    if ids == [] then [] else KeptFrom(fetch, ids[0]) + Collect(ids[1..], fetch)
  }

  /** What one id contributes: its transformed object if it was fetched and
      is valid. */
  function KeptFrom(fetch: int -> Option<MetObject>, id: int): (r: seq<TourObject>)
    ensures |r| <= 1
    ensures forall t :: t in r <==> Yields(fetch, id, t)
  {
    var o := fetch(id);
    if o.Some? && IsValidTourObject(o.value) then [Transform(o.value)] else []
  }

  /** Collecting distributes over concatenation, so order is kept. */
  lemma {:induction false} CollectConcat(a: seq<int>, b: seq<int>, fetch: int -> Option<MetObject>)
    ensures Collect(a + b, fetch) == Collect(a, fetch) + Collect(b, fetch)
    decreases |a|
  {
    if a == [] {
      assert a + b == b;
    } else {
      assert (a + b)[1..] == a[1..] + b;
      CollectConcat(a[1..], b, fetch);
    }
  }

  /** `id` fetched a valid object of which `t` is the transform. */
  predicate Yields(fetch: int -> Option<MetObject>, id: int, t: TourObject) {
    fetch(id).Some? && IsValidTourObject(fetch(id).value) && t == Transform(fetch(id).value)
  }

  /** An object is kept exactly when some id fetched a valid object it is the
      transform of. */
  lemma {:induction false} CollectMembers(ids: seq<int>, fetch: int -> Option<MetObject>, t: TourObject)
    ensures t in Collect(ids, fetch) <==> exists k :: 0 <= k < |ids| && Yields(fetch, ids[k], t)
    decreases |ids|
  {
    if ids != [] {
      assert Collect(ids, fetch) == KeptFrom(fetch, ids[0]) + Collect(ids[1..], fetch);
      CollectMembers(ids[1..], fetch, t);
      ExistsCons(ids, id => Yields(fetch, id, t));
    }
  }

  // ---------------------------------------------------------------------
  // Tours

  const HighlightsDescription := "Hand-picked masterpieces spanning European paintings, American art, "
    + "sculpture, medieval treasures, Asian art, and ancient artifacts"

  /** `generateHighlightsTour(objectIds)`. */
  function HighlightsTour(ids: seq<int>, fetch: int -> Option<MetObject>): (t: Tour)
    ensures t.id == "highlights" && t.name == "Museum Highlights" && t.icon == "\U{2B50}"
    ensures t.objects == Collect(ids, fetch) && t.objectCount == |t.objects|
  {
    var objects := Collect(ids, fetch);
    Tour("highlights", "Museum Highlights", HighlightsDescription, "\U{2B50}", |objects|, objects)
  }

  datatype Department = Department(departmentId: nat, displayName: string)

  /** `DEPARTMENT_ICONS`. */
  const DepartmentIcons: map<nat, string> := map[
    1 := "\U{1F3FA}", 3 := "\U{1F3DB}\U{FE0F}", 4 := "\U{2694}\U{FE0F}", 5 := "\U{1F3AD}",
    6 := "\U{1F409}", 7 := "\U{26EA}", 8 := "\U{1F457}", 9 := "\U{270F}\U{FE0F}",
    10 := "\U{1F3FA}", 11 := "\U{1F5BC}\U{FE0F}", 12 := "\U{1F5FF}", 13 := "\U{1F3DB}\U{FE0F}",
    14 := "\U{262A}\U{FE0F}", 15 := "\U{1F4DC}", 16 := "\U{1F4F8}", 17 := "\U{26B1}\U{FE0F}",
    18 := "\U{1F3B9}", 19 := "\U{1F4F7}", 21 := "\U{1F58C}\U{FE0F}"]

  /** `DEPARTMENT_DESCRIPTIONS`. */
  const DepartmentDescriptions: map<nat, string> := map[
    1 := "Furniture, silver, ceramics, and decorative arts from colonial America to the early 20th century",
    3 := "Artifacts from Mesopotamia, Anatolia, and the ancient Near East",
    4 := "Weapons, armor, and military equipment from around the world",
    5 := "Art and artifacts from sub-Saharan Africa, the Pacific Islands, and the Americas",
    6 := "Paintings, sculptures, ceramics, and textiles from China, Japan, Korea, South and Southeast Asia",
    7 := "Medieval European art and architecture in a branch museum in Fort Tryon Park",
    8 := "Fashion and accessories from the 15th century to the present",
    9 := "Works on paper including prints, drawings, and illustrated books",
    10 := "Art from ancient Egypt spanning 5,000 years of history",
    11 := "Masterpieces of European painting from the 13th to the early 20th century",
    12 := "Sculpture, furniture, ceramics, and metalwork from Renaissance to early modern Europe",
    13 := "Art from ancient Greece and Rome, including sculpture, pottery, and jewelry",
    14 := "Art from the Islamic world spanning 13 centuries",
    15 := "Old Master and Impressionist paintings from the Robert Lehman Collection",
    17 := "Art and artifacts from medieval Europe",
    18 := "Musical instruments from around the world and across history",
    19 := "Photographs from the invention of the medium to the present",
    21 := "Art from the late 19th century to today"]

  const DefaultIcon := "\U{1F3A8}"

  /** The mapped value when there is one and it is non-empty, else the
      default (the source's `table[id] || fallback`). */
  function Lookup(table: map<nat, string>, key: nat, fallback: string): (r: string)
    ensures key in table && table[key] != "" ==> r == table[key]
    ensures !(key in table && table[key] != "") ==> r == fallback
  {
    if key in table && table[key] != "" then table[key] else fallback
  }

  function DepartmentTourId(departmentId: nat): string {
    "dept-" + NatToString(departmentId)
  }

  /** `generateDepartmentTour(department)`, given the search hits (`[]` when
      the search failed or found nothing). */
  function DepartmentTour(d: Department, hits: seq<int>, fetch: int -> Option<MetObject>): (r: Option<Tour>)
    ensures hits == [] ==> r.None?
    ensures r.Some? ==>
              && r.value.id == DepartmentTourId(d.departmentId)
              && r.value.name == d.displayName
              && r.value.description == Lookup(DepartmentDescriptions, d.departmentId, "Explore the " + d.displayName + " collection")
              && r.value.icon == Lookup(DepartmentIcons, d.departmentId, DefaultIcon)
              && r.value.objects == Collect(hits[..Min(MaxObjectsPerDepartment, |hits|)], fetch)
              && 1 <= r.value.objectCount == |r.value.objects| <= MaxObjectsPerDepartment
    ensures r.None? && hits != [] ==> Collect(hits[..Min(MaxObjectsPerDepartment, |hits|)], fetch) == []
  {
    if hits == [] then None
    else
      var objects := Collect(hits[..Min(MaxObjectsPerDepartment, |hits|)], fetch);
      if objects == [] then None
      else
        Some(Tour(DepartmentTourId(d.departmentId), d.displayName,
                  Lookup(DepartmentDescriptions, d.departmentId, "Explore the " + d.displayName + " collection"),
                  Lookup(DepartmentIcons, d.departmentId, DefaultIcon),
                  |objects|, objects))
  }

  /** Only the first thirty hits are looked at: hits past the thirtieth never
      change the tour. */
  lemma OnlyFirstThirtyHits(d: Department, hits: seq<int>, more: seq<int>, fetch: int -> Option<MetObject>)
    requires |hits| >= MaxObjectsPerDepartment
    ensures DepartmentTour(d, hits + more, fetch) == DepartmentTour(d, hits, fetch)
  {
    assert (hits + more)[..MaxObjectsPerDepartment] == hits[..MaxObjectsPerDepartment];
  }

  /** Distinct departments get distinct tour ids, and no department tour can
      take the id of the highlights tour. */
  lemma DepartmentTourIdsDistinct(a: nat, b: nat)
    ensures DepartmentTourId(a) == DepartmentTourId(b) <==> a == b
    ensures DepartmentTourId(a) != "highlights"
  {
    if DepartmentTourId(a) == DepartmentTourId(b) {
      assert NatToString(a) == DepartmentTourId(a)[5..];
      assert NatToString(b) == DepartmentTourId(b)[5..];
      NatToStringInjective(a, b);
    }
    assert DepartmentTourId(a)[0] == 'd';
  }

  // ---------------------------------------------------------------------
  // Assembly

  /** Code-point order on names (the source uses `localeCompare`). */
  predicate NameLe(a: string, b: string) {
    a <= b || (exists k :: 0 <= k < |a| && k < |b| && a[..k] == b[..k] && a[k] < b[k])
  }

  ghost predicate SortedByName(ts: seq<Tour>) {
    forall i, j :: 0 <= i < j < |ts| ==> NameLe(ts[i].name, ts[j].name)
  }

  /** A common first character keeps the order of the rests. */
  lemma NameLeCons(a: string, b: string)
    requires a != [] && b != [] && a[0] == b[0]
    requires NameLe(a[1..], b[1..])
    ensures NameLe(a, b)
  {
    if a[1..] <= b[1..] {
      assert a == [a[0]] + a[1..] && b == [b[0]] + b[1..];
    } else {
      var k :| 0 <= k < |a[1..]| && k < |b[1..]| && a[1..][..k] == b[1..][..k] && a[1..][k] < b[1..][k];
      assert a[..k + 1] == [a[0]] + a[1..][..k];
      assert b[..k + 1] == [b[0]] + b[1..][..k];
    }
  }

  lemma {:induction false} NameLeTotal(a: string, b: string)
    ensures NameLe(a, b) || NameLe(b, a)
    decreases |a|
  {
    if a != [] && b != [] && a[0] == b[0] {
      NameLeTotal(a[1..], b[1..]);
      if NameLe(a[1..], b[1..]) {
        NameLeCons(a, b);
      } else {
        NameLeCons(b, a);
      }
    } else if a != [] && b != [] {
      assert a[..0] == b[..0];
    }
  }

  /** A prefix of `b` is below anything `b` is strictly below. */
  lemma PrefixThenDiffers(a: string, b: string, c: string, k: nat)
    requires a <= b
    requires k < |b| && k < |c| && b[..k] == c[..k] && b[k] < c[k]
    ensures NameLe(a, c)
  {
    if k < |a| {
      assert a[..k] == b[..k] && a[k] == b[k];
      assert a[..k] == c[..k];
    } else {
      assert a == b[..|a|] && a == c[..|a|];
    }
  }

  /** Anything strictly below `b` is strictly below what `b` prefixes. */
  lemma DiffersThenPrefix(a: string, b: string, c: string, k: nat)
    requires k < |a| && k < |b| && a[..k] == b[..k] && a[k] < b[k]
    requires b <= c
    ensures NameLe(a, c)
  {
    assert b[..k] == c[..k] && b[k] == c[k];
  }

  /** Two strict steps make a strict step at the earlier difference. */
  lemma DiffersTwice(a: string, b: string, c: string, k: nat, m: nat)
    requires k < |a| && k < |b| && a[..k] == b[..k] && a[k] < b[k]
    requires m < |b| && m < |c| && b[..m] == c[..m] && b[m] < c[m]
    ensures NameLe(a, c)
  {
    var n := if k < m then k else m;
    assert a[..n] == c[..n] by {
      assert a[..n] == a[..k][..n] == b[..k][..n] == b[..n];
      assert b[..n] == b[..m][..n] == c[..m][..n] == c[..n];
    }
    if k < m {
      assert b[k] == c[k] by { assert b[..m][k] == c[..m][k]; }
    } else if m < k {
      assert a[m] == b[m] by { assert a[..k][m] == b[..k][m]; }
    }
  }

  lemma NameLeTransitive(a: string, b: string, c: string)
    requires NameLe(a, b) && NameLe(b, c)
    ensures NameLe(a, c)
  {
    if a <= b && b <= c {
    } else if a <= b {
      var k :| 0 <= k < |b| && k < |c| && b[..k] == c[..k] && b[k] < c[k];
      PrefixThenDiffers(a, b, c, k);
    } else if b <= c {
      var k :| 0 <= k < |a| && k < |b| && a[..k] == b[..k] && a[k] < b[k];
      DiffersThenPrefix(a, b, c, k);
    } else {
      var k :| 0 <= k < |a| && k < |b| && a[..k] == b[..k] && a[k] < b[k];
      var m :| 0 <= m < |b| && m < |c| && b[..m] == c[..m] && b[m] < c[m];
      DiffersTwice(a, b, c, k, m);
    }
  }

  /** A tour named no later than every tour of a sorted list can lead it. */
  lemma ConsSortedByName(h: Tour, r: seq<Tour>)
    requires SortedByName(r)
    requires forall k :: 0 <= k < |r| ==> NameLe(h.name, r[k].name)
    ensures SortedByName([h] + r)
  {
    var s := [h] + r;
    forall i, j | 0 <= i < j < |s| ensures NameLe(s[i].name, s[j].name) {
      if i == 0 {
        assert s[j] == r[j - 1];
      } else {
        assert s[i] == r[i - 1] && s[j] == r[j - 1];
      }
    }
  }

  /** What the list's head is below, it stays below after an insertion
      behind it. */
  lemma HeadBelowInserted(h: Tour, tail: seq<Tour>, t: Tour, rest: seq<Tour>)
    requires forall k :: 0 <= k < |tail| ==> NameLe(h.name, tail[k].name)
    requires NameLe(h.name, t.name)
    requires multiset(rest) == multiset(tail) + multiset{t}
    ensures forall k :: 0 <= k < |rest| ==> NameLe(h.name, rest[k].name)
  {
    forall k | 0 <= k < |rest| ensures NameLe(h.name, rest[k].name) {
      assert rest[k] in multiset(rest);
      if rest[k] != t {
        var j :| 0 <= j < |tail| && tail[j] == rest[k];
      }
    }
  }

  /** Below the head of a sorted list is below all of it. */
  lemma BelowHeadBelowAll(t: Tour, ts: seq<Tour>)
    requires SortedByName(ts) && ts != [] && NameLe(t.name, ts[0].name)
    ensures forall k :: 0 <= k < |ts| ==> NameLe(t.name, ts[k].name)
  {
    forall k | 0 < k < |ts| ensures NameLe(t.name, ts[k].name) {
      NameLeTransitive(t.name, ts[0].name, ts[k].name);
    }
  }

  /** Strictly before in the name order. */
  predicate NameLt(a: string, b: string) {
    NameLe(a, b) && a != b
  }

  /** Inserts `t` after every tour whose name is strictly before its own, so
      `t` goes in front of the tours with the same name. */
  function InsertByName(t: Tour, ts: seq<Tour>): (r: seq<Tour>)
    requires SortedByName(ts)
    ensures SortedByName(r)
    ensures multiset(r) == multiset(ts) + multiset{t}
    ensures |r| == |ts| + 1
  {
    if ts == [] then [t]
    else if NameLt(ts[0].name, t.name) then
      assert ts == [ts[0]] + ts[1..];
      var rest := InsertByName(t, ts[1..]);
      HeadBelowInserted(ts[0], ts[1..], t, rest);
      ConsSortedByName(ts[0], rest);
      [ts[0]] + rest
    else
      NameLeTotal(ts[0].name, t.name);
      assert NameLe(t.name, ts[0].name) by {
        if ts[0].name == t.name {
          assert t.name <= ts[0].name;
        }
      }
      BelowHeadBelowAll(t, ts);
      ConsSortedByName(t, ts);
      [t] + ts
  }

  /** `deptTours.sort((a, b) => a.name.localeCompare(b.name))`: a stable sort,
      as `Array.prototype.sort` is. */
  function SortByName(ts: seq<Tour>): (r: seq<Tour>)
    ensures SortedByName(r)
    ensures multiset(r) == multiset(ts)
    ensures |r| == |ts|
  {
    if ts == [] then []
    else
      assert ts == [ts[0]] + ts[1..];
      InsertByName(ts[0], SortByName(ts[1..]))
  }

  /** The tours named `n`, in their order in `ts`. */
  function Named(ts: seq<Tour>, n: string): (r: seq<Tour>)
    ensures forall k :: 0 <= k < |r| ==> r[k].name == n
    decreases |ts|
  {
    if ts == [] then [] else (if ts[0].name == n then [ts[0]] else []) + Named(ts[1..], n)
  }

  lemma NamedCons(h: Tour, r: seq<Tour>, n: string)
    ensures Named([h] + r, n) == (if h.name == n then [h] else []) + Named(r, n)
  {
    assert ([h] + r)[0] == h && ([h] + r)[1..] == r;
  }

  /** Past a tour named strictly before `t`, `InsertByName` goes on in the
      rest. */
  lemma InsertByNamePasses(t: Tour, ts: seq<Tour>)
    requires SortedByName(ts) && ts != [] && NameLt(ts[0].name, t.name)
    ensures SortedByName(ts[1..])
    ensures InsertByName(t, ts) == [ts[0]] + InsertByName(t, ts[1..])
  {
  }

  /** Inserting `t` puts it first among the tours with its name and leaves
      every other name's tours as they were. */
  lemma {:induction false} InsertByNameNamed(t: Tour, ts: seq<Tour>, n: string)
    requires SortedByName(ts)
    ensures Named(InsertByName(t, ts), n) == (if t.name == n then [t] else []) + Named(ts, n)
    decreases |ts|
  {
    var mine := if t.name == n then [t] else [];
    if ts == [] {
      assert InsertByName(t, ts) == [t];
      NamedCons(t, [], n);
      assert mine + [] == mine;
    } else if NameLt(ts[0].name, t.name) {
      InsertByNamePasses(t, ts);
      var rest := InsertByName(t, ts[1..]);
      var w := Named(ts[1..], n);
      var heads := if ts[0].name == n then [ts[0]] else [];
      InsertByNameNamed(t, ts[1..], n);
      assert Named(rest, n) == mine + w;
      NamedCons(ts[0], rest, n);
      assert Named(InsertByName(t, ts), n) == heads + (mine + w);
      NamedCons(ts[0], ts[1..], n);
      assert ts == [ts[0]] + ts[1..];
      assert Named(ts, n) == heads + w;
      SwapEmpty(heads, mine, w);
    } else {
      NamedCons(t, ts, n);
    }
  }

  /** `SortByName` is stable: the tours sharing a name stay in the order the
      departments produced them. */
  lemma {:induction false} SortByNameStable(ts: seq<Tour>, n: string)
    ensures Named(SortByName(ts), n) == Named(ts, n)
    decreases |ts|
  {
    if ts != [] {
      SortByNameStable(ts[1..], n);
      InsertByNameNamed(ts[0], SortByName(ts[1..]), n);
      NamedCons(ts[0], ts[1..], n);
      assert ts == [ts[0]] + ts[1..];
    }
  }

  /** The tour `generateDepartmentTour` produces for each department, given
      each department's search hits. */
  function TourOf(hitsOf: nat -> seq<int>, fetch: int -> Option<MetObject>): Department -> Option<Tour> {
    (d: Department) => DepartmentTour(d, hitsOf(d.departmentId), fetch)
  }

  /** The main loop keeps `d`'s tour: `d` is not the Libraries department
      and its tour was generated with at least five objects. */
  predicate Keeps(d: Department, tourOf: Department -> Option<Tour>) {
    && d.departmentId != LibrariesDepartment
    && tourOf(d).Some?
    && |tourOf(d).value.objects| >= MinObjectsPerTour
  }

  /** `t` is the tour generated for one of `departments` other than the
      Libraries. */
  ghost predicate FromDepartment(t: Tour, departments: seq<Department>, tourOf: Department -> Option<Tour>) {
    exists j :: 0 <= j < |departments| && departments[j].departmentId != LibrariesDepartment
                && tourOf(departments[j]) == Some(t)
  }

  lemma FromDepartmentTail(t: Tour, departments: seq<Department>, tourOf: Department -> Option<Tour>)
    requires departments != [] && FromDepartment(t, departments[1..], tourOf)
    ensures FromDepartment(t, departments, tourOf)
  {
    var j :| 0 <= j < |departments[1..]| && departments[1..][j].departmentId != LibrariesDepartment
             && tourOf(departments[1..][j]) == Some(t);
    assert departments[j + 1] == departments[1..][j];
  }

  /** The department tours the main loop keeps, in department order:
      department 16 is skipped, and a tour needs at least five objects. */
  function KeptDepartmentTours(departments: seq<Department>, tourOf: Department -> Option<Tour>): (r: seq<Tour>)
    ensures forall t :: t in r ==> |t.objects| >= MinObjectsPerTour && FromDepartment(t, departments, tourOf)
  {
    if departments == [] then []
    else
      var rest := KeptDepartmentTours(departments[1..], tourOf);
      forall t | t in rest ensures FromDepartment(t, departments, tourOf) {
        FromDepartmentTail(t, departments, tourOf);
      }
      if Keeps(departments[0], tourOf) then
        assert FromDepartment(tourOf(departments[0]).value, departments, tourOf);
        [tourOf(departments[0]).value] + rest
      else rest
  }

  /** The departments' first tour, if kept, then the rest's. */
  lemma KeptStep(departments: seq<Department>, tourOf: Department -> Option<Tour>)
    requires departments != []
    ensures KeptDepartmentTours(departments, tourOf)
            == (if Keeps(departments[0], tourOf) then [tourOf(departments[0]).value] else [])
               + KeptDepartmentTours(departments[1..], tourOf)
  {
  }

  /** A single department keeps its tour exactly when the loop would. */
  lemma {:induction false} KeptDepartmentToursSingle(d: Department, tourOf: Department -> Option<Tour>)
    ensures KeptDepartmentTours([d], tourOf) == if Keeps(d, tourOf) then [tourOf(d).value] else []
  {
    assert [d][1..] == [];
    assert KeptDepartmentTours([d][1..], tourOf) == [];
  }

  /** The loop handles departments one after another: the tours kept from
      `a + b` are those kept from `a` followed by those kept from `b`. */
  lemma {:induction false} KeptDepartmentToursConcat(a: seq<Department>, b: seq<Department>,
                                                     tourOf: Department -> Option<Tour>)
    ensures KeptDepartmentTours(a + b, tourOf) == KeptDepartmentTours(a, tourOf) + KeptDepartmentTours(b, tourOf)
    decreases |a|
  {
    if a == [] {
      assert a + b == b;
    } else {
      var one := if Keeps(a[0], tourOf) then [tourOf(a[0]).value] else [];
      var ka := KeptDepartmentTours(a[1..], tourOf);
      var kb := KeptDepartmentTours(b, tourOf);
      assert (a + b)[0] == a[0] && (a + b)[1..] == a[1..] + b;
      KeptStep(a + b, tourOf);
      KeptDepartmentToursConcat(a[1..], b, tourOf);
      KeptStep(a, tourOf);
      assert one + (ka + kb) == (one + ka) + kb;
    }
  }

  /** Every department the loop would keep has its tour among the kept
      ones. */
  lemma {:induction false} KeptDepartmentToursComplete(departments: seq<Department>, tourOf: Department -> Option<Tour>)
    ensures forall j :: 0 <= j < |departments| && Keeps(departments[j], tourOf) ==>
              tourOf(departments[j]).value in KeptDepartmentTours(departments, tourOf)
    decreases |departments|
  {
    if departments != [] {
      var r := KeptDepartmentTours(departments, tourOf);
      var rest := KeptDepartmentTours(departments[1..], tourOf);
      KeptDepartmentToursComplete(departments[1..], tourOf);
      forall j | 0 <= j < |departments| && Keeps(departments[j], tourOf)
        ensures tourOf(departments[j]).value in r
      {
        if j == 0 {
          assert r[0] == tourOf(departments[0]).value;
        } else {
          assert departments[j] == departments[1..][j - 1];
          assert tourOf(departments[j]).value in rest;
          assert forall t :: t in rest ==> t in r;
        }
      }
    }
  }

  /** `main()`: `None` where the script exits with an error (no curated ids,
      or the department list could not be fetched). */
  function Generate(generatedAt: string, highlightIds: seq<int>, departments: Option<seq<Department>>,
                    fetch: int -> Option<MetObject>, hitsOf: nat -> seq<int>): (r: Option<ToursData>)
    ensures r.Some? <==> highlightIds != [] && departments.Some?
    ensures r.Some? ==> |r.value.tours| >= 1 && r.value.tours[0] == HighlightsTour(highlightIds, fetch)
                        && r.value.generatedAt == generatedAt
  {
    if highlightIds == [] || departments.None? then None
    else
      var kept := KeptDepartmentTours(departments.value, TourOf(hitsOf, fetch));
      Some(ToursData(generatedAt, [HighlightsTour(highlightIds, fetch)] + SortByName(kept)))
  }

  /** What the generated file promises of each department tour. */
  ghost predicate GoodDepartmentTour(t: Tour, departments: seq<Department>) {
    && MinObjectsPerTour <= t.objectCount == |t.objects| <= MaxObjectsPerDepartment
    && t.id != DepartmentTourId(LibrariesDepartment)
    && exists j :: 0 <= j < |departments| && t.id == DepartmentTourId(departments[j].departmentId)
  }

  lemma KeptTourIsGood(t: Tour, departments: seq<Department>, hitsOf: nat -> seq<int>,
                       fetch: int -> Option<MetObject>)
    requires FromDepartment(t, departments, TourOf(hitsOf, fetch)) && |t.objects| >= MinObjectsPerTour
    ensures GoodDepartmentTour(t, departments)
  {
    var j :| 0 <= j < |departments| && departments[j].departmentId != LibrariesDepartment
             && TourOf(hitsOf, fetch)(departments[j]) == Some(t);
    assert DepartmentTour(departments[j], hitsOf(departments[j].departmentId), fetch) == Some(t);
    DepartmentTourIdsDistinct(departments[j].departmentId, LibrariesDepartment);
  }

  /** The generated file: highlights first, then department tours by name,
      each with at least five and at most thirty objects, none from the
      Libraries department, each under its own `dept-` id; the department
      tours are exactly the kept ones, tours of equal name in department
      order. */
  lemma GeneratedShape(generatedAt: string, highlightIds: seq<int>, departments: seq<Department>,
                       fetch: int -> Option<MetObject>, hitsOf: nat -> seq<int>)
    requires highlightIds != []
    ensures var r := Generate(generatedAt, highlightIds, Some(departments), fetch, hitsOf).value;
            var kept := KeptDepartmentTours(departments, TourOf(hitsOf, fetch));
            && SortedByName(r.tours[1..])
            && multiset(r.tours[1..]) == multiset(kept)
            && (forall n :: Named(r.tours[1..], n) == Named(kept, n))
            && forall k :: 1 <= k < |r.tours| ==> GoodDepartmentTour(r.tours[k], departments)
  {
    var kept := KeptDepartmentTours(departments, TourOf(hitsOf, fetch));
    var r := Generate(generatedAt, highlightIds, Some(departments), fetch, hitsOf).value;
    var rest := r.tours[1..];
    assert rest == SortByName(kept);
    forall k | 1 <= k < |r.tours| ensures GoodDepartmentTour(r.tours[k], departments) {
      assert r.tours[k] == rest[k - 1];
      assert rest[k - 1] in multiset(kept);
      KeptTourIsGood(rest[k - 1], departments, hitsOf, fetch);
    }
    forall n ensures Named(rest, n) == Named(kept, n) {
      SortByNameStable(kept, n);
    }
  }
}

=== FILE: tours_route.dfy ===
/**
  The tours route, `app/api/tours/route.ts`: one tour by id, or the list of
  tours with up to four preview images each. Loading `data/tours.json` is an
  oracle input: `None` when the file cannot be read or parsed.
 */
module ToursRoute {
  import opened Common
  import opened TourData

  const PreviewCount: int := 4

  /** The first tour whose id equals `id` (`tours.find`). */
  function FindTour(tours: seq<Tour>, id: string): (r: Option<Tour>)
    ensures r.None? <==> forall k :: 0 <= k < |tours| ==> tours[k].id != id
    ensures r.Some? ==> exists k :: 0 <= k < |tours| && tours[k] == r.value && r.value.id == id
                          && forall j :: 0 <= j < k ==> tours[j].id != id
  {
    if tours == [] then None
    else if tours[0].id == id then Some(tours[0])
    else
      var r := FindTour(tours[1..], id);
      if r.Some? then
        var k :| 0 <= k < |tours[1..]| && tours[1..][k] == r.value && r.value.id == id
                 && forall j :: 0 <= j < k ==> tours[1..][j].id != id;
        assert tours[k + 1] == r.value;
        assert forall j :: 0 <= j < k + 1 ==> tours[j].id != id by {
          forall j | 0 < j < k + 1 ensures tours[j].id != id {
            assert tours[j] == tours[1..][j - 1];
          }
        }
        r
      else
        assert forall k :: 0 <= k < |tours| ==> tours[k].id != id by {
          forall k | 0 < k < |tours| ensures tours[k].id != id {
            assert tours[k] == tours[1..][k - 1];
          }
        }
        r
  }

  datatype PreviewObject = PreviewObject(objectID: int, primaryImageSmall: string)

  datatype TourSummary = TourSummary(
    id: string,
    name: string,
    description: string,
    icon: string,
    objectCount: int,
    previewObjects: seq<PreviewObject>)

  datatype TourList = TourList(generatedAt: string, tours: seq<TourSummary>)

  function Preview(objects: seq<TourObject>): (p: seq<PreviewObject>)
    ensures |p| == Min(PreviewCount, |objects|)
    ensures forall k :: 0 <= k < |p| ==>
              p[k] == PreviewObject(objects[k].objectID, objects[k].primaryImageSmall)
  {
    var first := objects[..Min(PreviewCount, |objects|)];
    seq(|first|, k requires 0 <= k < |first| => PreviewObject(first[k].objectID, first[k].primaryImageSmall))
  }

  /** A tour as the list shows it: everything but the objects, plus the
      previews; `objectCount` is copied, not recounted. */
  function Summary(t: Tour): (s: TourSummary)
    ensures s.id == t.id && s.name == t.name && s.description == t.description
    ensures s.icon == t.icon && s.objectCount == t.objectCount
    ensures |s.previewObjects| <= PreviewCount
    ensures s.previewObjects == Preview(t.objects)
    ensures |s.previewObjects| == Min(PreviewCount, |t.objects|)
    ensures forall k :: 0 <= k < |s.previewObjects| ==>
              s.previewObjects[k] == PreviewObject(t.objects[k].objectID, t.objects[k].primaryImageSmall)
  {
    TourSummary(t.id, t.name, t.description, t.icon, t.objectCount, Preview(t.objects))
  }

  function List(data: ToursData): (l: TourList)
    ensures l.generatedAt == data.generatedAt
    ensures |l.tours| == |data.tours|
    ensures forall k :: 0 <= k < |l.tours| ==> l.tours[k] == Summary(data.tours[k])
  {
    TourList(data.generatedAt, seq(|data.tours|, k requires 0 <= k < |data.tours| => Summary(data.tours[k])))
  }

  datatype ToursResponse =
    | Unavailable
    | NotFound
    | OneTour(tour: Tour)
    | Listing(list: TourList)

  function Status(r: ToursResponse): int {
    match r
    case Unavailable => 503
    case NotFound => 404
    case OneTour(_) => 200
    case Listing(_) => 200
  }

  /** `GET ?id=`: 503 without data, then the lookup when the id is non-empty,
      else the list. */
  function Get(data: Option<ToursData>, id: Option<string>): (r: ToursResponse)
    ensures data.None? <==> r == Unavailable
    ensures data.Some? && !TruthyOpt(id) ==> r == Listing(List(data.value))
    ensures data.Some? && TruthyOpt(id) ==>
              (r == NotFound <==> forall k :: 0 <= k < |data.value.tours| ==> data.value.tours[k].id != id.value)
    ensures r.OneTour? ==> TruthyOpt(id) && r.tour.id == id.value && r.tour in data.value.tours
  {
    if data.None? then Unavailable
    else if TruthyOpt(id) then
      match FindTour(data.value.tours, id.value)
      case None => NotFound
      case Some(t) => OneTour(t)
    else Listing(List(data.value))
  }

  /** The list and the lookup agree: the first tour listed under an id is
      what a request for that id returns, and its summary is the list
      entry. */
  lemma ListedToursCanBeFetched(data: ToursData, k: nat)
    requires k < |data.tours| && data.tours[k].id != ""
    requires forall j :: 0 <= j < k ==> data.tours[j].id != data.tours[k].id
    ensures Get(Some(data), Some(data.tours[k].id)) == OneTour(data.tours[k])
    ensures Summary(Get(Some(data), Some(data.tours[k].id)).tour) == List(data).tours[k]
  {
    var id := data.tours[k].id;
    var r := FindTour(data.tours, id);
    var i :| 0 <= i < |data.tours| && data.tours[i] == r.value && r.value.id == id
             && forall j :: 0 <= j < i ==> data.tours[j].id != id;
    assert i == k;
  }
}

=== FILE: tts_route.dfy ===
/**
  The speech route, `app/api/tts/route.ts`: an audio file cache (an `.mp3`
  file and a `.json` metadata file per object, valid for thirty days), the
  rate limit under the key `tts:` + client, and the order of checks in `GET`.
  The two file kinds are maps from object id; the speech synthesis call is an
  oracle input.
 */
module TtsRoute {
  import opened Common
  import RateLimiter

  /** Thirty days, in ms. */
  const CacheDurationMs: int := 30 * 24 * 60 * 60 * 1000

  /** The audio files by object id, and the stored instant from each
      metadata file. */
  datatype AudioFiles = AudioFiles(mp3: map<string, seq<Byte>>, meta: map<string, int>)

  datatype CachedAudio = CachedAudio(audio: Option<seq<Byte>>, files: AudioFiles)

  predicate Fresh(stored: int, now: int) {
    now - stored <= CacheDurationMs
  }

  /** `getCachedAudio(objectId)`: both files must exist; an entry older than
      thirty days has both files deleted and misses. */
  function GetCachedAudio(f: AudioFiles, id: string, now: int): (r: CachedAudio)
    ensures r.audio.Some? <==> id in f.mp3 && id in f.meta && Fresh(f.meta[id], now)
    ensures r.audio.Some? ==> r.audio.value == f.mp3[id]
    ensures id in f.mp3 && id in f.meta && !Fresh(f.meta[id], now) ==>
              r.files == AudioFiles(f.mp3 - {id}, f.meta - {id})
    ensures !(id in f.mp3 && id in f.meta && !Fresh(f.meta[id], now)) ==> r.files == f
  {
    if id !in f.mp3 || id !in f.meta then CachedAudio(None, f)
    else if !Fresh(f.meta[id], now) then CachedAudio(None, AudioFiles(f.mp3 - {id}, f.meta - {id}))
    else CachedAudio(Some(f.mp3[id]), f)
  }

  /** `saveAudioToCache(objectId, audioBuffer)`: the audio, then the metadata
      stamped `now`. */
  function SaveAudio(f: AudioFiles, id: string, audio: seq<Byte>, now: int): (r: AudioFiles)
    ensures r.mp3 == f.mp3[id := audio] && r.meta == f.meta[id := now]
  {
    AudioFiles(f.mp3[id := audio], f.meta[id := now])
  }

  /** Saved audio reads back unchanged for thirty days, the last instant
      included, and is gone one instant later. */
  lemma SavedAudioLifetime(f: AudioFiles, id: string, audio: seq<Byte>, now: int, later: int)
    requires now <= later
    ensures GetCachedAudio(SaveAudio(f, id, audio, now), id, later).audio
         == (if later <= now + CacheDurationMs then Some(audio) else None)
  {
  }

  /** An `.mp3` file whose metadata file is missing is never served, and is
      left in place. */
  lemma AudioWithoutMetaIgnored(f: AudioFiles, id: string, now: int)
    requires id in f.mp3 && id !in f.meta
    ensures GetCachedAudio(f, id, now) == CachedAudio(None, f)
  {
  }

  // ---------------------------------------------------------------------
  // The GET handler

  /** The parameters of the speech request the route sends. */
  datatype SpeechRequest = SpeechRequest(model: string, voice: string, input: string, responseFormat: string)

  datatype Synthesis = SynthesisThrew | Synthesized(audio: seq<Byte>)

  datatype TtsResponse =
    | IdRequired
    | RateLimited(limit: int, remaining: int, reset: int)
    | Audio(audio: seq<Byte>, contentLength: int, xCache: string)
    | TextRequired
    | KeyMissing
    | SynthesisFailed

  function Status(r: TtsResponse): int {
    match r
    case IdRequired => 400
    case RateLimited(_, _, _) => 429
    case Audio(_, _, _) => 200
    case TextRequired => 400
    case KeyMissing => 503
    case SynthesisFailed => 500
  }

  datatype Handled = Handled(
    response: TtsResponse,
    limiter: RateLimiter.Store,
    files: AudioFiles,
    speech: Option<SpeechRequest>)

  datatype TtsRequest = TtsRequest(
    id: Option<string>,
    text: Option<string>,
    forwardedFor: Option<string>,
    realIp: Option<string>)

  function LimitKey(req: TtsRequest): string {
    "tts:" + RateLimiter.ClientIdentifier(req.forwardedFor, req.realIp)
  }

  /** A request with an id that the rate limiter lets through. */
  predicate Passes(limiter: RateLimiter.Store, req: TtsRequest, now: int) {
    TruthyOpt(req.id) && RateLimiter.Check(limiter, LimitKey(req), now).result.success
  }

  /** A request that passes the limiter and finds no fresh cached audio. */
  predicate Misses(limiter: RateLimiter.Store, f: AudioFiles, req: TtsRequest, now: int) {
    Passes(limiter, req, now) && GetCachedAudio(f, req.id.value, now).audio.None?
  }

  /** `GET ?id=&text=`: id, rate limit, cache, text, key, then synthesis. */
  function Get(limiter: RateLimiter.Store, f: AudioFiles, req: TtsRequest, now: int,
               hasApiKey: bool, synthesis: Synthesis): (h: Handled)
    ensures !TruthyOpt(req.id) <==> h.response == IdRequired
    ensures !TruthyOpt(req.id) ==> h.limiter == limiter && h.files == f && h.speech.None?
    ensures TruthyOpt(req.id) ==> h.limiter == RateLimiter.Check(limiter, LimitKey(req), now).store
    ensures h.speech.Some? ==> TruthyOpt(req.text) && h.speech.value == SpeechRequest("tts-1", "nova", req.text.value, "mp3")
    ensures h.response.Audio? ==> h.response.contentLength == |h.response.audio|
                                  && h.response.xCache in {"HIT", "MISS"}
    ensures TruthyOpt(req.id) && !Passes(limiter, req, now) ==>
              var rl := RateLimiter.Check(limiter, LimitKey(req), now).result;
              h.response == RateLimited(rl.limit, rl.remaining, rl.reset) && h.files == f && h.speech.None?
    ensures Passes(limiter, req, now) && GetCachedAudio(f, req.id.value, now).audio.Some? ==>
              var audio := f.mp3[req.id.value];
              h.response == Audio(audio, |audio|, "HIT") && h.files == f && h.speech.None?
    ensures Misses(limiter, f, req, now) && !TruthyOpt(req.text) ==>
              h.response == TextRequired && h.speech.None?
    ensures Misses(limiter, f, req, now) && TruthyOpt(req.text) && !hasApiKey ==>
              h.response == KeyMissing && h.speech.None?
    ensures Misses(limiter, f, req, now) && TruthyOpt(req.text) && hasApiKey ==>
              && h.speech == Some(SpeechRequest("tts-1", "nova", req.text.value, "mp3"))
              && (synthesis.SynthesisThrew? ==> h.response == SynthesisFailed)
              && (synthesis.Synthesized? ==>
                    var cleared := GetCachedAudio(f, req.id.value, now).files;
                    && h.response == Audio(synthesis.audio, |synthesis.audio|, "MISS")
                    && h.files == SaveAudio(cleared, req.id.value, synthesis.audio, now))
    ensures Misses(limiter, f, req, now) && !(h.response.Audio? && h.response.xCache == "MISS") ==>
              h.files == GetCachedAudio(f, req.id.value, now).files
  {
    if !TruthyOpt(req.id) then Handled(IdRequired, limiter, f, None)
    else
      var id := req.id.value;
      var checked := RateLimiter.Check(limiter, LimitKey(req), now);
      var rl := checked.result;
      if !rl.success then Handled(RateLimited(rl.limit, rl.remaining, rl.reset), checked.store, f, None)
      else
        var cached := GetCachedAudio(f, id, now);
        if cached.audio.Some? then
          var audio := cached.audio.value;
          Handled(Audio(audio, |audio|, "HIT"), checked.store, cached.files, None)
        else if !TruthyOpt(req.text) then Handled(TextRequired, checked.store, cached.files, None)
        else if !hasApiKey then Handled(KeyMissing, checked.store, cached.files, None)
        else
          var speech := Some(SpeechRequest("tts-1", "nova", req.text.value, "mp3"));
          match synthesis
          case SynthesisThrew => Handled(SynthesisFailed, checked.store, cached.files, speech)
          case Synthesized(audio) =>
            Handled(Audio(audio, |audio|, "MISS"), checked.store, SaveAudio(cached.files, id, audio, now), speech)
  }

  /** The rate limit is applied before the cache: a request over the limit
      is refused even when its audio is cached. */
  lemma LimitBeforeCache(limiter: RateLimiter.Store, f: AudioFiles, req: TtsRequest, now: int,
                         hasApiKey: bool, synthesis: Synthesis)
    requires TruthyOpt(req.id)
    requires !RateLimiter.Check(limiter, LimitKey(req), now).result.success
    ensures Get(limiter, f, req, now, hasApiKey, synthesis).response.RateLimited?
    ensures Get(limiter, f, req, now, hasApiKey, synthesis).files == f
  {
  }

  /** A cache hit needs no text and no key, is served with the stored bytes,
      and still uses up one request of the caller's budget. An empty stored
      file is a hit too (the route tests a buffer object, which is always
      truthy). */
  lemma HitIgnoresTextAndKey(limiter: RateLimiter.Store, f: AudioFiles, req: TtsRequest, now: int,
                             hasApiKey: bool, synthesis: Synthesis)
    requires TruthyOpt(req.id) && RateLimiter.Check(limiter, LimitKey(req), now).result.success
    requires GetCachedAudio(f, req.id.value, now).audio.Some?
    ensures var h := Get(limiter, f, req, now, hasApiKey, synthesis);
            var audio := f.mp3[req.id.value];
            && h.response == Audio(audio, |audio|, "HIT")
            && h.speech.None?
            && h.limiter[LimitKey(req)].count == RateLimiter.CurrentEntry(limiter, LimitKey(req), now).count + 1
  {
  }

  /** On a miss, no text means 400 and no synthesis is asked for. */
  lemma MissWithoutText(limiter: RateLimiter.Store, f: AudioFiles, req: TtsRequest, now: int,
                        hasApiKey: bool, synthesis: Synthesis)
    requires TruthyOpt(req.id) && RateLimiter.Check(limiter, LimitKey(req), now).result.success
    requires GetCachedAudio(f, req.id.value, now).audio.None? && !TruthyOpt(req.text)
    ensures Get(limiter, f, req, now, hasApiKey, synthesis).response == TextRequired
    ensures Get(limiter, f, req, now, hasApiKey, synthesis).speech.None?
  {
  }

  /** Synthesised audio is saved before it is returned: the same id asked for
      again within thirty days is a hit with the same bytes, with or without
      text. */
  lemma SynthesisIsCached(limiter: RateLimiter.Store, f: AudioFiles, req: TtsRequest, now: int,
                          audio: seq<Byte>, later: int, req2: TtsRequest, hasApiKey2: bool, synthesis2: Synthesis)
    requires Misses(limiter, f, req, now) && TruthyOpt(req.text)
    requires now <= later <= now + CacheDurationMs
    requires req2.id == req.id
    ensures var first := Get(limiter, f, req, now, true, Synthesized(audio));
            var second := Get(first.limiter, first.files, req2, later, hasApiKey2, synthesis2);
            && first.response == Audio(audio, |audio|, "MISS")
            && (RateLimiter.Check(first.limiter, LimitKey(req2), later).result.success ==>
                  second.response == Audio(audio, |audio|, "HIT"))
  {
  }
}
